=== FILE: README.md ===
# Run-Fibonacci, modelled in Dafny

Run-Fibonacci runs the Fibonacci sequence around a ring of stages. Every stage is a small web
server. Its configuration comes from a default settings file plus overrides from the server's
settings file and the environment. A stage takes a pair of Fibonacci numbers, computes the next
step, logs what it did to a datastore, and forwards the new pair to the next stage. The last
stage forwards back to stage 1. All traffic is mutual TLS, with certificates issued by one
certificate authority for the whole deployment. Four generators lay the same ring out as:

- a Docker Compose file;
- a script of Podman commands;
- a Helm chart of bare pods;
- a Helm chart of deployments.

Each generator also issues the TLS material the ring needs.

This project models that core as pure functions over immutable datatypes:

- the settings tree and its merge (`JsonValue`, `Settings`);
- certificate issuance (`X509`, `Issuance`, `ServerTls`, `TlsMaterials`);
- the relay handlers of both server variants (`Relay`);
- the datastore log (`Datastore`);
- the Kubernetes object builders (`KubeUtils`);
- the four generators (`Ring`, `Setup`, `Compose`, `Podman`, `Charts`, `Pods`, `Deployments`).

`Wrappers` and `Strings` provide `Option`/`Result` and the string operations Python supplies:

- `split`/`join`;
- integer formatting and parsing;
- `replace`.

Randomness, the clock and cryptography are parameters. The generators issue certificates one
after another. Call `n` of `create_key_cert` uses the `n`-th key, serial and clock reading of a
`Draws` record: the authority is call 0, the external certificate call 1, and stage `i` call `i + 1`.
Both ends of a certificate's validity window are taken from that one reading, so a window spans
exactly the requested number of days; the code reads the clock once for each end (see
`Issuance.CreateKeyCert` under "## Left out").

`create_key_cert` takes whether a certificate may sign certificates (`is_cert_signer`, which
sets the key usage bit) and whether it is a CA (`is_ca`, which sets the basic constraints) as two
independent flags (fibonacci_image/components/server_init.py:51-52 and :80). Nothing in the code
ties them together. `Issuance.CreateKeyCert` keeps both flags and states that the result conforms
to the certificate profile exactly when "signer implies CA" holds.

The two chart generators cannot run as written. They pass a `hook` keyword to `create_namespace`
and `create_validating_admission_policy` (use_case_three/GeneratePods.py:175,
use_case_four/GenerateDeployments.py:164), which KubeUtils.py does not declare (KubeUtils.py:1-2,
:37-38), so Python raises `TypeError` at that call. They also call `create_deployment`,
`create_container` and `create_secret_volume`, which KubeUtils.py does not define. The model
describes the charts the generators would produce if those calls succeeded: the namespace and
policy are built without the keyword, and the three missing builders are records holding exactly
the arguments passed.

## Model

| member | source | states |
|---|---|---|
| JsonValue.FindKey | fibonacci_image/components/server_init.py:36-38 | a dictionary lookup finds the first field with the key, and finds nothing exactly when no field has it |
| JsonValue.FindKeyDependsOnKeysOnly | fibonacci_image/components/server_init.py:36-41 | where a key is found depends only on the dictionary's keys, so overwriting a value never moves a lookup |
| JsonValue.WalkAfterWrite | fibonacci_image/components/server_init.py:34-42 | after a write at a path that exists, reading that path yields the written value |
| JsonValue.WalkAfterWriteElsewhere | fibonacci_image/components/server_init.py:34-42 | a write leaves the value at every path that branches off the written one unchanged |
| JsonValue.WriteAtMissingPath | fibonacci_image/components/server_init.py:34-46 | a write through a missing key, or through a value that is not a dictionary, leaves the tree unchanged |
| JsonValue.NothingBelowLeaf | fibonacci_image/components/server_init.py:34-46 | no path reaches below a leaf, because indexing a value that is not a dictionary fails |
| JsonValue.DistinctLeafAddressesDiverge | fibonacci_image/components/server_init.py:15-21 | two different leaf paths of one tree branch apart at their longest common prefix |
| JsonValue.SameShapeWrite | fibonacci_image/components/server_init.py:40-41 | writing at a leaf keeps a copy of the defaults the same shape as the defaults |
| JsonValue.SameShapeWalk | fibonacci_image/components/server_init.py:144 | every path that exists in the defaults also exists in a same-shaped copy, and leads to a same-shaped value |
| Settings.AccessNestedSetting | fibonacci_image/components/server_init.py:24-46 | a read leaves the configuration unchanged; a write returns None; a missing path returns None and changes nothing; after a write at an existing path the setting reads back the new value |
| Settings.ReadAfterWrite | fibonacci_image/components/server_init.py:34-44 | reading a setting just written at an existing path returns the written value |
| Settings.WriteFrame | fibonacci_image/components/server_init.py:34-46 | a write at a missing path changes nothing, and a write leaves every path that branches off it unchanged |
| Settings.SettingsAreAddresses | fibonacci_image/components/server_init.py:15-21 | every listed setting names a part of the configuration: a leaf when it does not end in a dot, a dictionary when it does |
| Settings.GetAllSettings | fibonacci_image/components/server_init.py:15-21 | every dictionary field gives at least one listed setting, and every listed setting starts with the prefix |
| Settings.LeafAddressesAreSettings | fibonacci_image/components/server_init.py:15-21 | every leaf of the configuration is listed as a setting under its dotted path |
| Settings.EnumeratedLeafPaths | fibonacci_image/components/server_init.py:15-46 | the listed settings without a trailing dot are exactly the leaves, and each reads back the leaf it names |
| Settings.EnvName | fibonacci_image/components/server_init.py:153 | the environment variable of a setting is its path, letter for letter, in upper case with dots turned into underscores |
| Settings.DistinctPathsDistinctKeys | fibonacci_image/components/server_init.py:26 | two different dotted paths split into different key lists |
| Settings.MergeSettingsSpec | fibonacci_image/components/server_init.py:145-163 | the merge keeps the defaults' shape; a listed leaf takes the environment value if set, else a non-null server value, else keeps what it had; an error names a listed leaf with neither override nor default |
| Settings.RuntimeConfigPrecedence | fibonacci_image/components/server_init.py:143-163 | the runtime configuration exists exactly when every leaf has an override or a non-null default; each leaf then follows environment over server file over default, and an error names a leaf lacking all three |
| X509.FindExtension | fibonacci_image/components/server_init.py:94 | looking up an extension kind finds an extension of that kind, and finds none exactly when the certificate has none |
| X509.FindFirstOfKind | fibonacci_image/components/server_init.py:94 | the lookup returns the first extension of the kind |
| Issuance.CreateKeyCert | fibonacci_image/components/server_init.py:49-103 | the certificate carries the subject, the key, the serial and the validity window from the clock; it has the SAN, the critical basic constraints, the critical key usage bits the role asks for and the SKI; a leaf also has EKU and an AKI equal to the issuer's SKI and is signed by the issuer; a CA is self-signed; it conforms to the profile exactly when signer implies CA |
| Issuance.ExtensionsUnique | fibonacci_image/components/server_init.py:72-97 | no extension kind appears twice in an issued certificate |
| Issuance.LeafChainsToIssuer | fibonacci_image/components/server_init.py:58-103 | an authority issued as a signing CA conforms to the profile and is self-signed, and a leaf it issues conforms to the profile and chains to it |
| Issuance.ServerSan | fibonacci_image/components/server_init.py:72-74 | the alternative names are the configured names as DNS names, followed by the configured addresses as IP addresses, in order |
| Issuance.DnsSan | GenerateTLS.py:31-34 | the alternative names are the given host names as DNS names, in order |
| Issuance.KeyCertArtifacts | fibonacci_image/components/server_init.py:113-125 | a CA writes three files, and any other certificate four; the third holds the certificate, a line break and the key, and the fourth the certificate, a line break and the issuer's certificate |
| Issuance.ArtifactsAreSeparateFiles | fibonacci_image/components/server_init.py:113-125 | with distinct extensions, the written files have pairwise different paths: `<name>.<key>` holds the key, `<name>.<cert>` the certificate, `<name>.<pem>` the certificate and the key, and `<name>-<suffix>.<cert>` the certificate and the issuer's certificate, that last one written exactly when the certificate is not a CA |
| ServerTls.ServerTlsMaterials | fibonacci_image/components/server_init.py:223-243 | issuance succeeds exactly when the authority's certificate has a Subject Key Identifier, and then writes four files |
| ServerTls.ServerCertificateSpec | fibonacci_image/components/server_init.py:231-243 | the image's certificate is for the first configured name, lists every configured name and then every address (each list rejoins into its setting), carries the new key, conforms to the profile, is valid for the configured days and chains to the authority exactly when the authority's key matches its certificate and it is a signing CA; the key, certificate and chain go to files named after the secret target |
| TlsMaterials.IssueCa | GenerateTLS.py:90-100 | the authority certificate carries the drawn key, is self-signed, a CA allowed to sign certificates, has an SKI, conforms to the profile, lists the given names and is valid for the given days |
| TlsMaterials.IssueLeaf | GenerateTLS.py:104-114 | a leaf carries the drawn key, conforms to the profile, is neither a CA nor a signer, lists the given names, is valid for the given days, and chains to its issuer exactly when the issuer's key matches its certificate and the issuer is a signing CA |
| TlsMaterials.StageMaterial | GenerateTLS.py:148-162 | stage `i`'s certificate names the stage's host, carries its own key, conforms to the profile, lists host, address, domain and default host, is valid for the leaf days and chains to a signing authority |
| TlsMaterials.StageMaterials | GenerateTLS.py:144-162 | there is one stage material per stage, entry `k` being stage `k + 1`'s |
| TlsMaterials.IssueMaterials | GenerateTLS.py:75-178 | the authority first; then the external certificate, for the external common name and carrying its own key; then stage `k + 1`'s material at position `k`, issued by that authority, one per stage |
| TlsMaterials.StageSanCoversHost | GenerateTLS.py:149-153 | a stage's alternative names include its host name and its address |
| TlsMaterials.StageCertificateCoversItsHost | GenerateTLS.py:144-162 | the certificate issued for stage `i` names stage `i`'s host as its subject and lists its host and address |
| TlsMaterials.DestinationCertified | GenerateTLS.py:144-162 | the destination address a stage is given is listed in its destination stage's certificate, which chains to the authority, so the stage's TLS connection verifies |
| TlsMaterials.MaterialsWellIssued | GenerateTLS.py:90-162 | every certificate of a run carries its own key, the authority's is self-signed, and the external and every stage certificate chain to the authority |
| TlsMaterials.StageFiles | GenerateTLS.py:164-178 | stage `k + 1`'s key and certificate are written, in stage order, to files named after the stage with the key and certificate extensions |
| TlsMaterials.StageFileAt | GenerateTLS.py:116-178 | in the full list of written files, stage `i`'s key and certificate files sit after the four site files, at positions `2i + 2` and `2i + 3` |
| TlsMaterials.WrittenFilesPair | GenerateTLS.py:116-178 | every written certificate file sits beside the file holding its key; the external and stage certificates are issued by the written authority certificate, which is self-signed |
| TlsMaterials.FilesAreWhereSecretsPoint | GenerateTLS.py:140-178 | the authority's secret and stage `i`'s two secrets point at the files holding the authority certificate and stage `i`'s key and certificate, which pair and chain |
| TlsMaterials.TlsFilesDistinct | GenerateTLS.py:118-178 | two TLS file paths coincide only when both name and extension agree |
| TlsMaterials.StageFilesDistinct | GenerateTLS.py:164-178 | no two stage files share a path |
| TlsMaterials.ComposeMaterials | use_case_one/GenerateTLS.py:73-162 | the Compose variant writes four site files, the external certificate and the authority certificate under their configured names, and issues one material per stage |
| TlsMaterials.ComposeMaterialsChain | use_case_one/GenerateTLS.py:82-162 | the Compose site key and certificate files pair up, the external certificate is issued by the self-signed `ca.<domain>` authority, and every stage certificate chains to it |
| TlsMaterials.TestMaterials | fibonacci_image/TestGenTLS.py:92-139 | the test script writes its four files to the fixed test paths |
| TlsMaterials.TestMaterialsChain | fibonacci_image/TestGenTLS.py:92-139 | the test files pair up, the test client's certificate `external.test.com` lists `localhost`, is valid one day and is issued by the self-signed test authority, valid two days |
| Relay.RestStartup | fibonacci_image/components/rest.py:38-98 | start-up succeeds exactly when every required variable is present, the API and datastore types are known, the numbers parse as `int()` reads them (surrounding whitespace, a sign, underscores between digits) and 0 < index <= count; the configuration then carries the destination address, the datastore path, the API and datastore types and the parsed count, index, throttle interval and upper bound; a failure names a required variable |
| Relay.ServerStartupWith | fibonacci_image/server.py:9-34 | start-up succeeds exactly when count and index parse as `int()` reads them and pass the index check, the destination address and port are set, and the throttle and bound parse; the configuration then holds the parsed count and index |
| Relay.ServerStartupAsWritten | fibonacci_image/server.py:9-34 | the start-up as written succeeds exactly when the corrected one does with an index below the count, and then gives the same configuration |
| Relay.ServerStartup | fibonacci_image/server.py:9-34 | the corrected start-up succeeds exactly when every number parses and 0 < index <= count, and its configuration satisfies that check |
| Relay.ServerReadsNumbers | fibonacci_image/server.py:9-34 | with all variables set, the server as written starts exactly when 0 < index < count, the corrected one exactly when 0 < index <= count, and the corrected configuration holds exactly the given numbers |
| Relay.Advance | fibonacci_image/components/rest.py:145-180 | a negative throttle interval makes the `sleep` raise before the log identifier changes, leaving the request unhandled and the stage as it was; otherwise a stage turns (a, b) into (b, a + b), or into (0, 1) when b is not positive, its log identifier names the new pair, and it replies Success and forwards the new pair with 202 exactly when the new first number is below the bound, else replies 200 |
| Relay.TruncateReal | fibonacci_image/components/rest.py:140-141 | `int()` of a float is the integer next to it toward zero: at most the float when it is non-negative, at least it when negative, less than one away |
| Relay.IntOf | fibonacci_image/components/rest.py:140-141 | `int()` of a loaded JSON value: an integer is itself, a float is truncated toward zero, a string is read as `int()` reads text, a boolean is 1 or 0, and `null`, a list or a dictionary raises |
| Relay.Received | fibonacci_image/components/rest.py:133-137 | the route sees no body exactly when the body is not JSON or is the JSON literal `null`, and otherwise sees the body itself |
| Relay.SendBodyFields | fibonacci_image/components/rest.py:109-139 | the receiving stage reads back exactly the pair that was sent |
| Relay.ProcessFibNumbers | fibonacci_image/components/rest.py:127-180 | a body that is not JSON or is `null` is refused with 422 and changes nothing; a body whose numbers do not convert is left unhandled; otherwise the stage takes its step on the received pair with its configured bound and throttle interval |
| Relay.ServerProcessFibNumbers | fibonacci_image/server.py:58-98 | the server variant leaves the request unhandled when a form number is missing or does not convert as `int()` reads it, and otherwise takes the same step as the REST stage, with its bound and throttle interval |
| Relay.StartFib | fibonacci_image/components/rest.py:208-228 | starting sets the log identifier to `<index>-0-0`, replies 202 with it and forwards the pair (0, 0) |
| Relay.Healthcheck | fibonacci_image/components/rest.py:184-204 | a health check replies 200 with the current identifier, reports a new step exactly when the identifier changed since the previous check and a wait otherwise, and remembers the identifier |
| Relay.SecondHealthcheckWaits | fibonacci_image/components/rest.py:193-201 | two health checks with nothing in between: the second one reports a wait |
| Relay.HealthcheckSeesStep | fibonacci_image/components/rest.py:161-201 | after a check, the next check reports a new step exactly when the step in between changed the log identifier |
| Relay.LogReply | fibonacci_image/components/rest.py:238-258 | an unreadable body gives 422; otherwise the reply is Success with 200 exactly when the log was saved and 500 otherwise, and says the operation log was saved too exactly when it was |
| Relay.SaveReceived | fibonacci_image/components/rest.py:232-258 | before the reply is reported: a body that is not JSON or is `null` is refused with 422 and leaves the stage's own file alone; a log of text fields is saved and the reply reports that save; any other body goes through the failing save: with the file unreachable it is answered as a failed save, otherwise the request is unhandled and the datastore keeps what the save did before raising |
| Relay.ProcessLog | fibonacci_image/components/rest.py:232-258 | the route answers as above; every answered request is then reported through `report_log` with kinds on-call and datastore, as a send log for a 200 reply and a receive log for 422 and 500; an unhandled request reports nothing |
| Relay.RefusedLogIsReported | fibonacci_image/components/rest.py:239-243 | a refused body still adds the rows of its receive report to the datastore: two with datastore type `none`, one with `file`, none otherwise |
| Relay.StoredLogRows | fibonacci_image/components/rest.py:245-254 | a log of text fields adds two rows of its own plus the rows of the report of the reply |
| Relay.ProcessLogStatus | fibonacci_image/components/rest.py:246-258 | with both datastore files reachable a log of text fields is answered Success with 200; with the main file unreachable any JSON body other than `null` is answered Fail with 500 |
| Relay.UnjoinableBodyRaises | fibonacci_image/components/rest.py:246 | a body that is not a log of text fields, sent to a reachable file, leaves the request unhandled, yet the main counter has gone up by one and the file exists |
| Relay.DeliveredIsFibonacci | fibonacci_image/components/rest.py:145-177 | message `k` of a run carries (F(k-1), F(k)) and, past the start message, exists exactly while the throttle interval is not negative and F(k-1) stays below the upper bound |
| Relay.RelayStops | fibonacci_image/components/rest.py:158-177 | past a step fixed by the upper bound, whatever the throttle interval, no stage forwards anything |
| Relay.FibGrows | fibonacci_image/components/rest.py:145-151 | the Fibonacci numbers the stages compute grow at least linearly, so the bound is reached |
| Relay.LogIdInjective | fibonacci_image/components/rest.py:162 | distinct stage indexes or pairs of non-negative numbers give distinct log identifiers |
| Datastore.LogKindValue | fibonacci_image/components/datastore_utils.py:55-66 | every log kind's value is non-empty and contains neither `;` nor `,` |
| Datastore.CreateLog | fibonacci_image/components/datastore_utils.py:69-81 | the log has the keys type, kind, time, config, details and hash in that order; its kind is the kinds' values joined by `;`; its hash is the digest of the five fields before it |
| Datastore.KindsRecoverable | fibonacci_image/components/datastore_utils.py:69-73 | splitting a log's kind at `;` gives back the values of the kinds it was created with |
| Datastore.SlotOf | fibonacci_image/components/datastore_utils.py:92-104 | a path counts toward the first configured path it equals, in the order main, default, operations, and toward none when it equals none |
| Datastore.Bump | fibonacci_image/components/datastore_utils.py:92-101 | the matched counter goes up by one and the others stay, so the counters' total goes up by one |
| Datastore.RowFields | fibonacci_image/components/datastore_utils.py:108-112 | splitting a row of comma-free values at commas gives its count followed by the log's values |
| Datastore.HeaderFields | fibonacci_image/components/datastore_utils.py:108 | splitting the header at commas gives `id` followed by the log's keys |
| Datastore.RowColumns | fibonacci_image/components/datastore_utils.py:106-112 | the first column of a row reads back as its count, and column `k + 1` as the log's `k`-th value |
| Datastore.SaveOne | fibonacci_image/components/datastore_utils.py:84-119 | a path matching no configured path fails the assert; otherwise its counter goes up, and the save succeeds exactly when the path is reachable, creating the file with header and row or appending the row; a failed save leaves the files unchanged |
| Datastore.SaveOneCounts | fibonacci_image/components/datastore_utils.py:92-112 | a successful save raises the counters' total by one, and the file's last row carries the path's new count |
| Datastore.SaveOneAppends | fibonacci_image/components/datastore_utils.py:106-116 | a save to a reachable configured path succeeds and leaves the new row as the file's last line |
| Datastore.OperationLogCommaFree | fibonacci_image/components/datastore_utils.py:121-122 | an operation log built from comma-free inputs has no comma in any field |
| Datastore.OperationRowReportsDetails | fibonacci_image/components/datastore_utils.py:121-123 | saving an operation log succeeds, and its row's details column reads back the given details |
| Datastore.SaveLog | fibonacci_image/components/datastore_utils.py:84-127 | saving fails exactly when the path matches no configured path; otherwise the log is saved, an operation log reporting success or the missing location is saved to the operations path, both outcomes are returned, the configured paths stay and the counters' total goes up by two |
| Datastore.SaveLogWritesOneOperationRow | fibonacci_image/components/datastore_utils.py:106-127 | with the operations file reachable, a save adds two rows in total, the operation save succeeds, and the last operation row reports whether the log was saved |
| Datastore.SaveUnjoinable | fibonacci_image/components/datastore_utils.py:84-127 | a body that is not a dictionary of strings fails the assert on an unknown path; otherwise its counter goes up first; an unreachable file makes the save complete as a failed one followed by the operation log; on a reachable file the join raises, leaving an existing file as it was and a new file created with the header of the body's keys, or empty when the body is not a dictionary |
| Datastore.UnreachableIgnoresBody | fibonacci_image/components/datastore_utils.py:106-119 | on an unreachable file, a body that cannot be joined is saved exactly as a log would be, since the open fails before the body is read |
| Datastore.UnjoinableConsumesRow | fibonacci_image/components/datastore_utils.py:92-112 | after a body that cannot be joined, the next log saved to the same file is numbered two above the counter it started from, one more than without it |
| Datastore.ReportLog | fibonacci_image/components/datastore_utils.py:165-173 | reporting adds two rows with datastore type `none`, one with `file`, and changes nothing with any other type; no file other than the default and operations files changes (only the operations file for `file`); the paths stay |
| Datastore.SendLog | fibonacci_image/components/datastore_utils.py:130-162 | sending never fails; datastore type `none` is `save_log` of the log to the default path (two rows); `file` adds one row; any other type changes nothing; with `none` no file other than the default and operations files changes, and with `file` only the operations file changes |
| Datastore.SendLogNoneWritesDefault | fibonacci_image/components/datastore_utils.py:140-141 | with datastore type `none` and a default file that can be opened (and differs from the operations file), the log is the last row of the default file, numbered by that path's counter |
| Datastore.SendLogNoneReportsSave | fibonacci_image/components/datastore_utils.py:140-141 | with datastore type `none` the operations file ends with the row whose details say whether the default file was found |
| Datastore.SendLogFileRecordsReply | fibonacci_image/components/datastore_utils.py:142-156 | with datastore type `file` the operations file ends with a row whose details column reads `Return info for datastore sending: ` followed by the remote reply, for a comma-free reply |
| Datastore.ReportedDetailsReadBack | fibonacci_image/components/datastore_utils.py:165-173 | with datastore type `none` the reported details are read back from the details column of the default file's last row |
| Datastore.SaveOneKeeps | fibonacci_image/components/datastore_utils.py:92-119 | a save leaves every file other than its own as it was |
| Datastore.SaveLogKeeps | fibonacci_image/components/datastore_utils.py:92-127 | a save with its operation log leaves every file other than those two as it was |
| KubeUtils.Lookup | KubeUtils.py:64-69 | a label lookup finds a value exactly when the key is present, and the value is one stored under it |
| KubeUtils.PutKeyLookup | use_case_four/GenerateDeployments.py:220 | after setting a key in a dictionary it reads back the new value, and every other key reads as before |
| KubeUtils.DictLiteralLookup | use_case_four/GenerateDeployments.py:51-61 | in a dictionary literal, a key reads back the value of its last occurrence |
| KubeUtils.CreateNamespace | KubeUtils.py:1-34 | the namespace is named `<name>-namespace`, has no namespace of its own, and carries the six pod-security labels in order |
| KubeUtils.NamespaceLevels | KubeUtils.py:1-34 | each pod-security mode reads the level and version given for it and the general ones otherwise, and the name label reads the namespace's name |
| KubeUtils.LabelKeysDistinct | KubeUtils.py:20-33 | a namespace's label keys are pairwise distinct |
| KubeUtils.SameNamespaceSelectorSelects | KubeUtils.py:64-69 | the binding's selector matches a namespace exactly when the namespace has the given name |
| KubeUtils.CreateValidatingAdmissionPolicy | KubeUtils.py:37-76 | the policy and binding are named after `name`, the binding refers to the policy, the policy keeps the given failure policy, rules and validations, the binding the given actions, and it selects exactly the namespace with the given name |
| KubeUtils.CreateSecret | KubeUtils.py:79-98 | the secret is named `<name>-secret` in the given namespace and keeps the given type, data and labels |
| KubeUtils.CreateService | KubeUtils.py:101-121 | the service is named `<name>-service` in the given namespace and keeps the given selector and ports |
| KubeUtils.StripSuffixOf | KubeUtils.py:79-121 | the base name of an object can be recovered from its generated name by removing the suffix |
| KubeUtils.SuffixedNamesInjective | KubeUtils.py:79-121 | distinct base names give distinct generated names |
| KubeUtils.CreateIngressWith | KubeUtils.py:124-153 | the ingress is named `<name>-ingress`, keeps its class and labels, has one TLS entry for its host and secret under the given key, and one rule routing its host to the given paths |
| KubeUtils.CreateIngressAsWritten | KubeUtils.py:124-153 | the ingress as written routes its host and holds a TLS entry for it, yet no TLS entry is where the API reads it |
| KubeUtils.CreateIngress | KubeUtils.py:124-153 | with the key `tls` the ingress routes its host and terminates TLS for it with the given secret |
| KubeUtils.IngressAsWrittenHasNoTls | KubeUtils.py:133-138 | the ingress as written stores its TLS entry under a key Kubernetes does not read, so no host is served over TLS |
| KubeUtils.IngressServesTlsForItsHost | KubeUtils.py:133-144 | the corrected ingress serves TLS for its host from the given secret, and every host it routes is covered |
| KubeUtils.CreateNetworkPolicyWith | KubeUtils.py:156-206 | the policy is named `<name>-network-policy`, selects the given pods, governs ingress and egress, and allows the external address and its own namespace on the given ports in both directions |
| KubeUtils.CreateNetworkPolicyAsWritten | KubeUtils.py:156-206 | the policy as written restricts ingress to its two peers, but egress is unrestricted |
| KubeUtils.CreateNetworkPolicy | KubeUtils.py:156-206 | with the key `to` both ingress and egress are restricted to the two peers |
| KubeUtils.NetworkPolicyAsWrittenEgressOpen | KubeUtils.py:183-197 | the policy as written names its egress peers under a key Kubernetes does not read, so egress is not restricted |
| KubeUtils.NetworkPolicySymmetric | KubeUtils.py:166-197 | the corrected policy restricts egress to the same peers and ports as ingress, and its namespace peer matches exactly the policy's own namespace |
| Ring.DestIndex | use_case_one/GenerateCompose.py:54-59 | stage `i` below the count forwards to `i + 1`, the last stage to 1, and an index past the count has no destination |
| Ring.Hops | use_case_one/GenerateCompose.py:54-59 | following destinations from a stage always lands on a stage of the ring |
| Ring.HopsAroundRing | use_case_one/GenerateCompose.py:54-59 | `k` hops from stage `s` reach `s + k`, wrapping past the count |
| Ring.HopsCompose | use_case_one/GenerateCompose.py:54-59 | `a + b` hops are `a` hops followed by `b` hops |
| Ring.FullCircle | use_case_one/GenerateCompose.py:54-59 | `count` hops bring every stage back to itself |
| Ring.DestIndexIsPermutation | use_case_one/GenerateCompose.py:54-59 | different stages forward to different stages, and every stage is forwarded to by some stage |
| Ring.StageNameInjective | use_case_one/GenerateCompose.py:48 | distinct stage numbers give distinct stage names |
| Ring.StageHostInjective | use_case_one/GenerateCompose.py:50 | distinct stage numbers give distinct host names |
| Setup.HostMappings | use_case_one/GenerateCompose.py:40-43 | there is one host mapping per stage, mapping stage `k + 1`'s host to its address |
| Setup.StageSecretNamesDistinct | use_case_one/GenerateCompose.py:108-113 | stage secret names are equal only for the same stage and extension |
| Setup.CaSecretNameDistinct | use_case_one/GenerateCompose.py:99-113 | the authority's secret name is no stage's secret name |
| Setup.StageVariables | use_case_one/GenerateCompose.py:66-78 | a stage receives the configured variables, in order |
| Setup.StageEnvironmentReads | use_case_one/GenerateCompose.py:66-78 | a stage's environment gives the count, its index, throttle and bound as decimal text, its destination's host, the destination port and its own address |
| Setup.TlsSecrets | use_case_one/GenerateCompose.py:98-113 | there is one secret for the authority and two per stage |
| Setup.TlsSecretNames | use_case_one/GenerateCompose.py:98-113 | the first secret is the authority's certificate, and then each stage's key and certificate follow in stage order |
| Setup.TlsStageSecrets | use_case_one/GenerateCompose.py:108-113 | stage `i`'s key and certificate secrets point at the files the TLS generator wrote for stage `i` |
| Setup.TlsCaSecretFirst | use_case_one/GenerateCompose.py:99-102 | the first secret is the authority's certificate, pointing at its file |
| Compose.Put | use_case_one/GenerateCompose.py:100-113 | assigning an existing key keeps the dictionary's size, and assigning a new key appends it |
| Compose.CreateCompose | use_case_one/GenerateCompose.py:6-118 | the compose file has one service per stage |
| Compose.ServiceNamesDistinct | use_case_one/GenerateCompose.py:61 | no two services share a name |
| Compose.ServicesFormRing | use_case_one/GenerateCompose.py:54-78 | each service's destination address is the next service's host name, and the last one's is the first's |
| Compose.StageServiceAddress | use_case_one/GenerateCompose.py:40-88 | a service's network address and its own address variable are its stage's address, and its host mappings map its host name to that address |
| Compose.AddressesAgree | use_case_one/GenerateCompose.py:40-88 | every service's host mappings map each stage's host name to the address that stage's service has on the network |
| Compose.OnlyFirstStagePublishes | use_case_one/GenerateCompose.py:91-96 | a service publishes a port exactly when it is the first stage |
| Compose.NewStageSecretIsNew | use_case_one/GenerateCompose.py:108-113 | a stage's secret is not yet defined when it is added |
| Compose.SecretsAreExpected | use_case_one/GenerateCompose.py:98-113 | the secrets section built key by key is the authority's certificate followed by each stage's key and certificate |
| Compose.StageSecretDefined | use_case_one/GenerateCompose.py:79-113 | every secret a service uses is defined in the secrets section |
| Compose.SecretsResolve | use_case_one/GenerateCompose.py:79-113 | every secret a service of the compose file uses is defined in its secrets section |
| Compose.SecretNamesDistinct | use_case_one/GenerateCompose.py:98-113 | no secret name is defined twice |
| Compose.LastStageRefusedAsWritten | use_case_one/GenerateCompose.py:66-68 | with the server's start-up check as written, the last service refuses to start |
| Compose.EveryStageStarts | use_case_one/GenerateCompose.py:54-78 | with the corrected check, every service starts with its index, the count and the next service's host as destination |
| Podman.SavedTextRecoversCommand | use_case_two/GeneratePodman.py:177 | for arguments without spaces or line breaks, undoing the inserted line breaks and splitting at spaces gives the command back |
| Podman.SecretCommands | use_case_two/GeneratePodman.py:24-54 | there is one secret command for the authority's certificate and two per stage |
| Podman.ContainersJoinCreatedNetwork | use_case_two/GeneratePodman.py:10-116 | the containers join the network the network command creates (its last argument), and the network, every secret and every container carry the use-case label |
| Podman.ContainerReceives | use_case_two/GeneratePodman.py:112-172 | read as Podman reads options, a container command publishes a port only for stage 1 and gives the stage's secrets, its variables, every host mapping, its name, its host name and the image |
| Podman.ContainerEnvironment | use_case_two/GeneratePodman.py:134-148 | the container's environment is the stage's environment |
| Podman.OnlyFirstContainerPublishes | use_case_two/GeneratePodman.py:119-124 | a container publishes a port exactly when it is the first stage, and then the start port |
| Podman.ContainerSecretsCreated | use_case_two/GeneratePodman.py:126-132 | each of a container's three secrets is created by a secret command carrying the use-case label |
| Podman.ContainerResolvesRing | use_case_two/GeneratePodman.py:150-154 | every container maps each stage's host name to that stage's address |
| Charts.HelmTlsFileReads | use_case_three/GeneratePods.py:30-34 | the Helm expression inlines the file the TLS generator wrote, relative to the chart folder |
| Charts.ChartVariables | use_case_three/GeneratePods.py:107-120 | a chart container gets the variable names in order, each with its value |
| Charts.ChartEnvironmentReads | use_case_three/GeneratePods.py:107-120 | every chart variable reads back its value in the container's environment |
| Charts.ImagePolicyAdmitsOnly | use_case_three/GeneratePods.py:182-199 | the admission policy has one rule naming exactly the image, fails closed and denies, and its binding refers to it and applies to the chart's namespace and no other |
| Pods.SecretTemplates | use_case_three/GeneratePods.py:37-65 | the chart's secrets are the ingress secret followed by one secret per stage |
| Pods.StageSecretFiles | use_case_three/GeneratePods.py:50-62 | stage `i`'s secret lives in the chart's namespace and inlines stage `i`'s key, its certificate and the authority's certificate from the files the TLS generator wrote |
| Pods.StageSecretNamesDistinct | use_case_three/GeneratePods.py:53-62 | different stages get differently named secrets |
| Pods.DestPort | use_case_three/GeneratePods.py:98-104 | stage `i`'s destination port is the start port plus its destination's index, and an index past the count has none |
| Pods.CreateDeploymentTemplate | use_case_three/GeneratePods.py:68-135 | the deployment holds one container and one volume per stage, in stage order |
| Pods.PodEnvironmentReads | use_case_three/GeneratePods.py:106-120 | each container's environment gives the count, its index, its own port, the default host as destination, the destination's port, the throttle and the bound |
| Pods.PodsFormRing | use_case_three/GeneratePods.py:92-120 | each container listens on the port in its own port variable and sends to the port the next container listens on |
| Pods.PodPortsDistinct | use_case_three/GeneratePods.py:92-96 | no two containers listen on the same port |
| Pods.VolumesReferenceSecrets | use_case_three/GeneratePods.py:122-135 | each container mounts its own volume read-only at the TLS target, filled from its stage's secret in the same namespace |
| Pods.EveryPodStageStarts | use_case_three/GeneratePods.py:106-120 | with the corrected check, every container starts with its index and the count, and sends to the port the next container listens on |
| Pods.LastPodStageRefusedAsWritten | use_case_three/GeneratePods.py:108-109 | with the start-up check as written, the last container refuses to start |
| Pods.ChartInOneNamespace | use_case_three/GeneratePods.py:169-261 | every namespaced object of the chart (secrets, deployment, service, ingress, network policy) is in the namespace `<use case>-namespace`, and the admission policy applies there and nowhere else |
| Pods.DeploymentAdmitted | use_case_three/GeneratePods.py:171-219 | every container of the deployment runs the one image the admission policy admits |
| Pods.IngressReachesFirstStage | use_case_three/GeneratePods.py:221-248 | the ingress routes the start path to the service, whose port targets the first container's port and whose selector is the pods' labels |
| Pods.IngressTlsFromChartSecret | use_case_three/GeneratePods.py:245-248 | the generated ingress names the chart's ingress secret (built at lines 39-45) for its domain, but under the key `TLS`, so it terminates TLS for no host; the secret has type `kubernetes.io/TLS` and holds `tls.key` and `tls.crt` |
| Pods.NetworkPolicyGuardsFirstStage | use_case_three/GeneratePods.py:253-261 | the generated network policy selects the chart's pods and admits ingress from the external address and the namespace on the first container's port, but its egress rule names no peers under `to`, so egress is not restricted |
| Pods.CreateChart | use_case_three/GeneratePods.py:169-261 | the chart's namespace is `<use case>-namespace`; it has the ingress secret and one secret per stage, one container per stage, a service and a network policy selecting the deployment's pods, and the ingress and policy under the keys `TLS` and `_to` |
| Pods.CorrectedChart | use_case_three/GeneratePods.py:169-261 | with the keys `tls` and `to`, the chart keeps the generated chart's ingress rules, TLS entry and policy ingress |
| Pods.CorrectedIngressServesTls | use_case_three/GeneratePods.py:245-248 | with the key `tls`, the ingress terminates TLS for the chart's domain with the chart's ingress secret |
| Pods.CorrectedPolicyGuardsFirstStage | use_case_three/GeneratePods.py:253-261 | with the key `to`, the network policy restricts egress to the same peers and ports as ingress |
| Deployments.SecretTemplates | use_case_four/GenerateDeployments.py:32-67 | the chart's secrets are the ingress secret followed by one secret per stage |
| Deployments.DestService | use_case_four/GenerateDeployments.py:85-91 | stage `i` sends to its destination stage's service, and an index past the count has none |
| Deployments.CreateChart | use_case_four/GenerateDeployments.py:130-273 | the chart has one deployment and one service per stage, in stage order, and the ingress and network policy under the keys `TLS` and `_to` |
| Deployments.DeploymentEnvironmentReads | use_case_four/GenerateDeployments.py:93-107 | each deployment's environment gives the count, its index, its port, its three TLS file paths, its destination service, the port, the throttle and the bound |
| Deployments.StagesFormRing | use_case_four/GenerateDeployments.py:79-107 | each deployment sends to the next stage's service on the port that service exposes, which targets the port the next deployment listens on, and listens on its own port variable |
| Deployments.ServiceSelectsItsStage | use_case_four/GenerateDeployments.py:217-235 | stage `j`'s service selects stage `k`'s pods exactly when `j` is `k` |
| Deployments.NetworkPolicyCoversEveryStage | use_case_four/GenerateDeployments.py:261-273 | the generated network policy selects every stage's pods and admits ingress from the external address and the namespace on the port every deployment listens on, but its egress rule names no peers under `to`, so egress is not restricted |
| Deployments.CorrectedPolicyCoversEveryStage | use_case_four/GenerateDeployments.py:261-273 | with the key `to`, the network policy restricts every stage's egress to the same peers and ports as its ingress |
| Deployments.IngressReachesFirstStage | use_case_four/GenerateDeployments.py:240-256 | the generated ingress routes `/v<num><start path>` to the first stage's service and port and names the chart's ingress secret for its domain, but under the key `TLS`, so it terminates TLS for no host |
| Deployments.CorrectedIngressServesTls | use_case_four/GenerateDeployments.py:240-256 | with the key `tls`, the ingress terminates TLS for the chart's domain with the chart's ingress secret |
| Deployments.CorrectedChart | use_case_four/GenerateDeployments.py:130-273 | with the keys `tls` and `to`, the chart still has the generated stages |
| Deployments.StageReadsItsOwnFiles | use_case_four/GenerateDeployments.py:51-122 | for dot-free key and certificate extensions that differ, and a stage name other than the authority's, each deployment mounts its stage's secret, and its three TLS paths name files of that secret that inline its stage's key and certificate and the authority's certificate |
| Deployments.EveryDeploymentStageStarts | use_case_four/GenerateDeployments.py:93-107 | with the corrected check, every deployment starts with its index, the count and the next stage's service as destination |
| Deployments.LastDeploymentRefusedAsWritten | use_case_four/GenerateDeployments.py:95-96 | with the start-up check as written, the last deployment refuses to start |
| Deployments.ChartAdmitted | use_case_four/GenerateDeployments.py:156-235 | every object of the chart is in the namespace `<use case>-namespace`, every deployment runs only the image the policy admits, and the policy applies there and nowhere else |
| Strings.JoinSplit | fibonacci_image/components/server_init.py:232-233 | joining the pieces of a split with the separator gives the text back |
| Strings.SplitJoin | fibonacci_image/components/datastore_utils.py:72 | splitting a join of separator-free pieces gives the pieces back |
| Strings.ParseIntToString | fibonacci_image/server.py:10-15 | for texts of at most 4300 digits, `int()` of an integer's decimal text gives the integer back (the model has no digit limit; see "## Left out") |
| Strings.ReadGroups | fibonacci_image/server.py:10-15 | a run of digits is read exactly when it is digits grouped by single underscores |
| Strings.ParseIntStripsSpace | fibonacci_image/server.py:10-15 | `int()` skips a leading space and a trailing line break before reading |
| Strings.ParseIntIgnoresPadding | fibonacci_image/server.py:10-15 | `int()` reads a padded number with a plus sign as the number |
| Strings.ParseIntSkipsUnderscore | fibonacci_image/server.py:10-15 | `int()` reads an underscore between two runs of digits as if it were not there |
| Strings.ParseIntRefusesDoubleUnderscore | fibonacci_image/server.py:10-15 | `int()` refuses two underscores in a row |
| Strings.TrimEnd | fibonacci_image/server.py:10-15 | dropping trailing whitespace leaves a prefix of the text that does not end in whitespace |

## Left out

- Reading and writing files, the network, Flask, threads and the wait of `sleep` are not modelled. Handlers take their inputs as parameters and return what they would send or write. The `ValueError` that `sleep` raises on a negative interval is modelled.
- Key generation, RSA, SHA-512 signatures and PEM encoding are not modelled. Keys, serial numbers and clock readings come from a `Draws` parameter. A signature records its signer.
- Parsing of IP addresses is not modelled. Configured addresses are opaque text, so the `ValueError` of a malformed address does not arise.
- ServerTls.ServerTlsMaterials: does not model the checks `cryptography` makes when a name attribute is built. The subject's common name is the first entry of `TLS_SAN_NAMES` (fibonacci_image/components/server_init.py:233-236). An empty setting gives an empty common name, and a name longer than 64 UTF-8 bytes is over the limit. Depending on the release, such a name draws a warning or a `ValueError`. The model issues the certificate, so "Ok exactly when the authority has a Subject Key Identifier" does not cover that `ValueError`.
- TlsMaterials.IssueMaterials: does not model `cryptography`'s `ValueError` for a country name that is not exactly two characters, nor its check on the common-name length. The country comes from the `countryInitials` setting and the common names from the host names (GenerateTLS.py:93-94, :107-108, :155-156). `TlsMaterials.IssueCa`, `TlsMaterials.IssueLeaf`, `TlsMaterials.StageMaterial` and `TlsMaterials.ComposeMaterials` issue certificates for any such names.
- The `TypeError` the chart generators raise at their `hook` keyword (use_case_three/GeneratePods.py:175, use_case_four/GenerateDeployments.py:164) is not modelled, nor are the Helm hook annotations the keyword would add. The charts are modelled as if the call succeeded.
- `create_deployment`, `create_container` and `create_secret_volume` are called by the chart generators but not defined in KubeUtils.py, so they are not part of this model. They are records holding exactly the arguments the generators pass.
- The secret type `kubernetes.io/TLS` (use_case_three/GeneratePods.py:43) differs from Kubernetes' built-in `kubernetes.io/tls`. The model keeps the string as written and does not model how Kubernetes validates secret types.
- The Podman generator's `run(...)` subprocess calls (use_case_two/GeneratePodman.py:15, :76, :181), which create the secrets, the network and the containers, are not modelled. Neither are the generators' progress prints. The model returns the commands as text.
- Strings.ParseInt: reads ASCII decimal digits only. Python's `int()` also accepts the other Unicode decimal digits, such as Arabic-Indic ones. The whitespace it skips is exactly the set Python's `str.isspace` accepts.
- Strings.ParseInt: has no digit limit. Since Python 3.11, `int()` of decimal text longer than 4300 digits raises `ValueError`, and so does formatting such an integer as text (`Strings.IntToString`). This concerns the `int()` calls at fibonacci_image/components/rest.py:70, :76, :92, :98, :140-141 and fibonacci_image/server.py:10-15, and the f-strings at rest.py:143, :146-147 and :162. So `Strings.ParseIntToString` holds in the source only for texts of at most 4300 digits. The "exactly when" of `Relay.RestStartup` and `Relay.ServerStartupWith` likewise ignores that limit. So does `Relay.DeliveredIsFibonacci`: near a bound of thousands of digits, the source raises while formatting the last step's numbers.
- Relay.IntOf: a JSON number too large for a float becomes infinity in Python, and `int()` of it raises `OverflowError`. The model keeps floats as exact reals, so this error does not arise. Python's `json` also accepts the tokens `NaN`, `Infinity` and `-Infinity`, of which `int()` raises `ValueError` or `OverflowError`. `Json.Float` cannot hold them, so a body carrying them reads as a body that is not JSON.
- Settings.EnvName: upper-cases ASCII letters only. Python's `str.upper` is Unicode-aware and can change the length (`'ß'` becomes `'SS'`). For a setting path with such letters, the promise that the name matches the path letter for letter does not hold in the source.
- TlsMaterials.ComposeMaterials: uses one network record for both Compose generators. In the source they read different settings. The TLS generator reads `docker.network.prefix` and `docker.network.start` (use_case_one/GenerateTLS.py:78, :141). The Compose generator reads `platform.network.prefix` and `platform.network.startAddress` (use_case_one/GenerateCompose.py:8, :49). Stage certificates list the Compose address only when the two settings agree.
- Writing `Chart.yaml`, copying and removing directories, and dumping YAML or JSON are not modelled.
- The image name, read from a file in the source, is a parameter.
- `trigger_send` and its HTTP request are not modelled. The stage returns the pair it would forward.
- The print of `report_log` is not modelled.
- The `report_log` calls of start-up and of the other routes (fibonacci_image/components/rest.py:35-99, :120-226) are not modelled: `Relay.RestStartup`, `Relay.ProcessFibNumbers`, `Relay.Healthcheck` and `Relay.StartFib` carry no datastore, so the rows their reports add to the datastore files are not part of their results. Only `Relay.ProcessLog` reports its replies.
- Relay.ProcessLog: the report of a reply uses the same clock reading as the save before it; the code reads the clock again in `create_log`.
- Issuance.CreateKeyCert: takes both ends of the validity window from one clock reading. The code reads the clock twice (fibonacci_image/components/server_init.py:68-69, use_case_one/GenerateTLS.py:26-27, GenerateTLS.py:28-29, fibonacci_image/TestGenTLS.py:30-32), so the window can be longer than `cert_days` days by the time between the readings, and `TlsMaterials.ValidFor` states the exact length only for the model. For a negative `cert_days` the end of the window precedes its start and `cryptography` raises `ValueError`; the model returns a certificate with that inverted window instead. Every caller passes a day count from the settings.
- The SHA-256 digest, base64 encoding and `time()` used by `create_log` are inputs.
- use_case_two/Main.py calls its generators with a different number of arguments than they declare. The model follows the generators' signatures.
- The Compose TLS generator derives stage addresses from the network's start address. The model takes that address as `startAddress`.
- Podman.CommandsText: no property is stated about the commands file as a whole. Each command line's saved text round-trips by `Podman.SavedTextRecoversCommand`.
- TlsMaterials.ComposeMaterials: returns the generator's result dictionary as a tuple of its values.
- Stage certificates list the stage's address as a DNS name rather than an IP address, as the source does.
- The deployment chart generator mutates one shared pod-label dictionary across stages. The model builds each stage's labels afresh, with the values each stage ends up with.
- None of the four generators (Compose, Podman, Pods, Deployments) sets `SERVER_API` or `SERVER_DATASTORE` in a stage's environment, as in the source. The REST start-up requires both (fibonacci_image/components/rest.py:56-66), and gunicorn builds its application name from `SERVER_API` (fibonacci_image/components/gunicorn.conf.py:10), so the generated stages would not start the REST server. `Compose.EveryStageStarts`, `Pods.EveryPodStageStarts` and `Deployments.EveryDeploymentStageStarts` describe the start-up checks of server.py, which reads neither variable.

## Findings

| source | as written | input that shows it | evidently intended | confidence | as-written member | corrected member |
|---|---|---|---|---|---|---|
| fibonacci_image/server.py:16 | start-up asserts `0 < index < count` | a ring of 2 stages: stage 2 gets index 2 and count 2 and fails the assert | `0 < index <= count`, as the REST server checks, so the last stage starts | not executed | Relay.ServerStartupAsWritten | Relay.ServerStartup |
| KubeUtils.py:135 | the ingress spec puts its TLS list under the key `TLS` | any ingress with a host and a secret: the spec has no `tls` key, so no host is served over TLS | key `tls` | not executed | KubeUtils.CreateIngressAsWritten, Pods.IngressTlsFromChartSecret, Deployments.IngressReachesFirstStage | KubeUtils.CreateIngress, Pods.CorrectedIngressServesTls, Deployments.CorrectedIngressServesTls |
| KubeUtils.py:184 | the egress rule lists its peers under the key `_to` | any policy with egress peers: the rule has no `to` key, so egress to every destination is allowed | key `to` | not executed | KubeUtils.CreateNetworkPolicyAsWritten, Pods.NetworkPolicyGuardsFirstStage, Deployments.NetworkPolicyCoversEveryStage | KubeUtils.CreateNetworkPolicy, Pods.CorrectedPolicyGuardsFirstStage, Deployments.CorrectedPolicyCoversEveryStage |

In the first row, the as-written refusal is exhibited by `Relay.ServerReadsNumbers` and
`Compose.LastStageRefusedAsWritten`. The corrected start-up is proved for every stage by
`Compose.EveryStageStarts`, `Pods.EveryPodStageStarts` and `Deployments.EveryDeploymentStageStarts`.
The second row is exhibited by `KubeUtils.IngressAsWrittenHasNoTls` and proved corrected by
`KubeUtils.IngressServesTlsForItsHost`. The third is exhibited by
`KubeUtils.NetworkPolicyAsWrittenEgressOpen` and proved corrected by `KubeUtils.NetworkPolicySymmetric`.
Both charts, `Pods.CreateChart` and `Deployments.CreateChart`, are built with the builders as
written, and the chart lemmas named in the as-written cells show the consequence in each chart.
`Pods.CorrectedChart` and `Deployments.CorrectedChart` use the corrected builders, and the lemmas
in the corrected cells prove the intended TLS and egress behaviour of those charts.

=== FILE: charts.dfy ===
/**
 * What the two Helm chart generators share: the Helm expression that inlines a TLS file, the
 * variables a stage's container receives, the deployment records, and the admission policy that
 * lets only the project's image run in the chart's namespace.
 *
 * The deployment, container and volume builders are not part of this model; their records hold
 * exactly the arguments the generators pass them.
 */
module Charts {
  import opened Wrappers
  import opened Strings
  import opened Setup
  import opened KubeUtils

  /** `f'{useCasePrefix}-{use_case_num}'`: the base name of a chart's objects. */
  function UseCaseName(cfg: SetupConfig, num: nat): string {
    cfg.useCasePrefix + "-" + NatToString(num)
  }

  // ---------------------------------------------------------------------------------------------
  // TLS files

  const HelmGetOpen := "{{ .Files.Get \""
  const HelmGetClose := "\" | b64enc | quote }}"

  /** `create_helm_tls_file_function`: the Helm expression that inlines a chart file, base64-encoded. */
  function HelmTlsFile(folder: string, filename: string, ext: string): string {
    HelmGetOpen + folder + "/" + filename + "." + ext + HelmGetClose
  }

  /**
   * The file a Helm expression inlines is the one the TLS generator wrote, relative to the
   * chart folder the TLS folder is copied into.
   */
  lemma HelmTlsFileReads(cfg: SetupConfig, chartFolder: string, filename: string, ext: string)
    ensures var path := Enclosed(HelmTlsFile(cfg.tlsFolder, filename, ext), HelmGetOpen, HelmGetClose);
            && path == Some(cfg.tlsFolder + "/" + filename + "." + ext)
            && chartFolder + "/" + path.value == TlsFile(cfg, chartFolder, filename, ext)
  {
    var inner := cfg.tlsFolder + "/" + filename + "." + ext;
    assert HelmTlsFile(cfg.tlsFolder, filename, ext) == HelmGetOpen + inner + HelmGetClose;
    EnclosedOf(HelmGetOpen, inner, HelmGetClose);
  }

  // ---------------------------------------------------------------------------------------------
  // Container environment

  /** The names of the variables a chart's container gets, in the order both generators list them. */
  const ChartVariableNames: seq<string> := [
    "SERVER_STAGE_COUNT", "SERVER_STAGE_INDEX", "SELF_LISTENING_ADDRESS", "SELF_HEALTHCHECK_ADDRESS", "SELF_PORT",
    "SECRET_KEY_TARGET", "SECRET_CERT_TARGET", "SECRET_CA_CERT_TARGET", "DEST_ADDRESS", "DEST_PORT",
    "THROTTLE_INTERVAL", "UPPER_BOUND"]

  /** The variables with the given values, one per name. */
  function ChartVariables(values: seq<string>): (vars: seq<EnvVar>)
    requires |values| == |ChartVariableNames|
    ensures |vars| == |ChartVariableNames|
    ensures forall q :: 0 <= q < |vars| ==> vars[q] == EnvVar(ChartVariableNames[q], values[q])
  {
    seq(|ChartVariableNames|, q requires 0 <= q < |ChartVariableNames| => EnvVar(ChartVariableNames[q], values[q]))
  }

  /** No name is listed twice. */
  lemma ChartVariableNamesDistinct()
    ensures forall p, q :: 0 <= p < q < |ChartVariableNames| ==> ChartVariableNames[p] != ChartVariableNames[q]
  {
    var n := ChartVariableNames;
    assert n[0][13] != n[1][13] && n[0][2] != n[6][2] && n[1][2] != n[6][2];
    assert n[4][0] != n[9][0] && n[5][0] != n[10][0];
  }

  /** The names differ, so the container's environment holds every value under its own name. */
  lemma ChartEnvironmentReads(values: seq<string>)
    requires |values| == |ChartVariableNames|
    ensures var env := ToMap(ChartVariables(values));
            forall q :: 0 <= q < |ChartVariableNames| ==> ChartVariableNames[q] in env && env[ChartVariableNames[q]] == values[q]
  {
    ChartVariableNamesDistinct();
    var vars := ChartVariables(values);
    assert forall p :: 0 <= p < |vars| ==> vars[p].name == ChartVariableNames[p];
    ToMapOfDistinct(vars);
  }

  // ---------------------------------------------------------------------------------------------
  // Deployments

  datatype ContainerPort = ContainerPort(containerPort: int, protocol: string)

  datatype VolumeMount = VolumeMount(name: string, mountPath: string, readOnly: bool)

  /** The liveness probe of a container: the health-check command and fixed timings. */
  datatype Probe = Probe(command: seq<string>, initialDelaySeconds: int, periodSeconds: int, timeoutSeconds: int,
                         failureThreshold: int)

  /** The probe both generators give every container. */
  function ChartProbe(cfg: SetupConfig): Probe {
    Probe([cfg.healthcheckCmd], 10, 10, 5, 3)
  }

  datatype Container = Container(name: string, image: string, ports: seq<ContainerPort>, env: seq<EnvVar>,
                                 mounts: seq<VolumeMount>, probe: Probe)

  /** A volume filled from a secret. */
  datatype Volume = Volume(name: string, secretName: string)

  /** A deployment as `create_deployment` is asked for it, with the containers and volumes appended to it. */
  datatype Deployment = Deployment(name: string, namespaceName: string, replicas: int, podLabels: seq<KeyValue>,
                                   restartPolicy: string, containers: seq<Container>, volumes: seq<Volume>)

  // ---------------------------------------------------------------------------------------------
  // Admission policy

  /** One resource rule of the admission policy's match constraints. */
  datatype ResourceRule = ResourceRule(apiGroups: seq<string>, apiVersions: seq<string>, operations: seq<string>,
                                       resources: seq<string>)

  /** One validation of the admission policy: a CEL expression and the message shown on refusal. */
  datatype Validation = Validation(expression: string, message: string)

  const ImageRuleOpen := "object.spec.template.spec.containers.all(c, c.image == '"
  const ImageRuleClose := "')"

  /** The CEL rule admitting a deployment only when all its containers run `image`. */
  function ImageRule(image: string): string {
    ImageRuleOpen + image + ImageRuleClose
  }

  /** Every container of a deployment runs `image`: what the image rule demands. */
  predicate RunsOnly(d: Deployment, image: string) {
    forall k :: 0 <= k < |d.containers| ==> d.containers[k].image == image
  }

  /** The admission policy of a chart: deployments created or updated in its namespace must run `image`. */
  function ImagePolicy(name: string, image: string, namespaceName: string)
    : (AdmissionPolicy<seq<ResourceRule>, seq<Validation>>, PolicyBinding)
  {
    var constraints := [ResourceRule(["apps"], ["v1"], ["CREATE", "UPDATE"], ["deployments"])];
    var validations := [Validation(ImageRule(image), "Deployment containers can only use the image " + image + ".")];
    CreateValidatingAdmissionPolicy(name, "Fail", constraints, validations, ["Deny"], namespaceName)
  }

  /**
   * The policy has one rule, which names exactly `image`, it refuses what the rule rejects, and
   * its binding applies it to the namespace called `namespaceName` and no other.
   */
  lemma ImagePolicyAdmitsOnly(name: string, image: string, namespaceName: string, ns: Namespace)
    ensures var (policy, binding) := ImagePolicy(name, image, namespaceName);
            && |policy.validations| == 1
            && Enclosed(policy.validations[0].expression, ImageRuleOpen, ImageRuleClose) == Some(image)
            && policy.failurePolicy == "Fail" && binding.validationActions == ["Deny"]
            && binding.policyName == policy.metadata.name
            && (Selects(binding.namespaceSelector, NamespaceLabels(ns)) <==> ns.metadata.name == namespaceName)
  {
    EnclosedOf(ImageRuleOpen, image, ImageRuleClose);
  }
}

=== FILE: compose.dfy ===
/**
 * Use case one: `create_compose` writes a Docker Compose definition with one service per relay
 * stage, every service resolving every stage's host name, and the TLS files as Compose secrets.
 */
module Compose {
  import opened Wrappers
  import opened Strings
  import opened Ring
  import opened Setup
  import opened Relay

  /** One entry of a service's `secrets` list. */
  datatype SecretRef = SecretRef(source: string, target: string)

  /** A Compose service definition. */
  datatype Service = Service(
    hostname: string,
    extraHosts: seq<string>,
    image: string,
    restart: string,
    environment: map<string, string>,
    secrets: seq<SecretRef>,
    networks: map<string, string>,  // network name to `ipv4_address`
    ports: Option<seq<string>>)

  datatype NamedService = NamedService(name: string, service: Service)

  datatype ComposeFile = ComposeFile(
    name: string,
    network: Network,
    services: seq<NamedService>,
    secrets: seq<SecretFile>)

  /** True when some entry of `entries` is called `name`. */
  predicate HasSecret(entries: seq<SecretFile>, name: string) {
    exists k :: 0 <= k < |entries| && entries[k].name == name
  }

  /**
   * `d[name] = {'file': file}` on a dictionary kept in insertion order: an existing entry is
   * overwritten in place, a new one is appended.
   */
  function Put(entries: seq<SecretFile>, name: string, file: string): (r: seq<SecretFile>)
    ensures HasSecret(entries, name) ==> |r| == |entries|
    ensures !HasSecret(entries, name) ==> r == entries + [SecretFile(name, file)]
  {
    if |entries| == 0 then [SecretFile(name, file)]
    else if entries[0].name == name then [SecretFile(name, file)] + entries[1..]
    else
      assert HasSecret(entries, name) ==> HasSecret(entries[1..], name) by {
        if HasSecret(entries, name) {
          var k :| 0 <= k < |entries| && entries[k].name == name;
          assert entries[1..][k - 1].name == name;
        }
      }
      assert !HasSecret(entries, name) ==> !HasSecret(entries[1..], name) by {
        if HasSecret(entries[1..], name) {
          var k :| 0 <= k < |entries| - 1 && entries[1..][k].name == name;
          assert entries[k + 1].name == name;
        }
      }
      [entries[0]] + Put(entries[1..], name, file)
  }

  /** The service of stage `i`: its host name, address, secrets and, for stage 1 only, the published port. */
  function StageService(cfg: SetupConfig, image: string, i: nat): Service
    requires 1 <= i <= cfg.count
  {
    var name := StageName(cfg.namePrefix, i);
    var ip := StageIp(cfg.network.prefix, cfg.network.startAddress, i);
    Service(
      StageHost(cfg.namePrefix, i, cfg.domain),
      HostMappings(cfg, "="),
      image,
      cfg.restartPolicy,
      StageEnvironment(cfg, i),
      [ SecretRef(SecretName(name, cfg.keyExt), cfg.selfKeyTarget),
        SecretRef(SecretName(name, cfg.certExt), cfg.selfCertTarget),
        SecretRef(CaSecretName(cfg), cfg.caCertTarget) ],
      map[cfg.network.name := ip],
      if i == 1 then Some([IntToString(cfg.startPort) + ":" + IntToString(cfg.startPort)]) else None)
  }

  /** The secrets mapping after the certificate authority and stages `1..n` have been added. */
  function SecretsUpTo(cfg: SetupConfig, projectFolder: string, n: nat): seq<SecretFile>
    decreases n
  {
    if n == 0 then
      Put([], CaSecretName(cfg), TlsFile(cfg, projectFolder, cfg.caName, cfg.certExt))
    else
      var name := StageName(cfg.namePrefix, n);
      var withKey := Put(SecretsUpTo(cfg, projectFolder, n - 1), SecretName(name, cfg.keyExt),
                         TlsFile(cfg, projectFolder, name, cfg.keyExt));
      Put(withKey, SecretName(name, cfg.certExt), TlsFile(cfg, projectFolder, name, cfg.certExt))
  }

  /**
   * `create_compose`, with the image name (the contents of the image version file) as a
   * parameter; the generator's `IndexError` branch cannot be reached from its own loop.
   */
  function CreateCompose(cfg: SetupConfig, projectFolder: string, image: string): (c: ComposeFile)
    ensures |c.services| == cfg.count
  {
    ComposeFile(
      cfg.useCasePrefix + "-1-" + cfg.composeNameSuffix,
      cfg.network,
      seq(cfg.count, k requires 0 <= k < cfg.count =>
        NamedService(StageName(cfg.namePrefix, k + 1), StageService(cfg, image, k + 1))),
      SecretsUpTo(cfg, projectFolder, cfg.count))
  }

  // ---------------------------------------------------------------------------------------------
  // Properties of the generated file

  /** The parts of the generated file: the network, the secrets mapping and the `k`-th service. */
  lemma ComposeParts(cfg: SetupConfig, projectFolder: string, image: string, k: nat)
    requires k < cfg.count
    ensures var c := CreateCompose(cfg, projectFolder, image);
            && c.network == cfg.network
            && c.secrets == SecretsUpTo(cfg, projectFolder, cfg.count)
            && c.services[k] == NamedService(StageName(cfg.namePrefix, k + 1), StageService(cfg, image, k + 1))
  {
  }

  /** The host name and the environment of stage `i`'s service. */
  lemma StageServiceParts(cfg: SetupConfig, image: string, i: nat)
    requires 1 <= i <= cfg.count
    ensures StageService(cfg, image, i).hostname == StageHost(cfg.namePrefix, i, cfg.domain)
    ensures StageService(cfg, image, i).environment == StageEnvironment(cfg, i)
  {
  }

  /** Every service is named after a different stage. */
  lemma ServiceNamesDistinct(cfg: SetupConfig, projectFolder: string, image: string, k: nat, m: nat)
    requires k < m < cfg.count
    ensures CreateCompose(cfg, projectFolder, image).services[k].name
            != CreateCompose(cfg, projectFolder, image).services[m].name
  {
    ComposeParts(cfg, projectFolder, image, k);
    ComposeParts(cfg, projectFolder, image, m);
    if StageName(cfg.namePrefix, k + 1) == StageName(cfg.namePrefix, m + 1) {
      StageNameInjective(cfg.namePrefix, k + 1, m + 1);
    }
  }

  /**
   * The services form the ring: each one's `DEST_ADDRESS` is the host name of the next service,
   * the last one's that of the first.
   */
  lemma ServicesFormRing(cfg: SetupConfig, projectFolder: string, image: string, k: nat)
    requires k < cfg.count
    ensures var services := CreateCompose(cfg, projectFolder, image).services;
            var next := if k + 1 < cfg.count then k + 1 else 0;
            && "DEST_ADDRESS" in services[k].service.environment
            && services[k].service.environment["DEST_ADDRESS"] == services[next].service.hostname
  {
    var next := if k + 1 < cfg.count then k + 1 else 0;
    ServiceOfStage(cfg, projectFolder, image, k);
    ServiceOfStage(cfg, projectFolder, image, next);
    StageEnvironmentReads(cfg, k + 1);
    NextPosition(k, cfg.count);
  }

  /** Stage `i`'s service announces the address it is attached with, and is listed under it. */
  lemma StageServiceAddress(cfg: SetupConfig, image: string, i: nat)
    requires 1 <= i <= cfg.count
    ensures var s := StageService(cfg, image, i);
            var ip := StageIp(cfg.network.prefix, cfg.network.startAddress, i);
            && s.networks == map[cfg.network.name := ip]
            && "SELF_ADDRESS" in s.environment && s.environment["SELF_ADDRESS"] == ip
            && s.extraHosts == HostMappings(cfg, "=")
            && s.extraHosts[i - 1] == s.hostname + "=" + ip
  {
    StageEnvironmentReads(cfg, i);
  }

  /**
   * Names and addresses agree everywhere: every service's own address is the one it announces in
   * `SELF_ADDRESS`, and the `extra_hosts` of every service map each service's host name to that
   * service's address.
   */
  lemma AddressesAgree(cfg: SetupConfig, projectFolder: string, image: string, k: nat, m: nat)
    requires k < cfg.count && m < cfg.count
    ensures var c := CreateCompose(cfg, projectFolder, image);
            var s := c.services[k].service;
            && c.network.name in s.networks
            && "SELF_ADDRESS" in s.environment
            && s.environment["SELF_ADDRESS"] == s.networks[c.network.name]
            && |c.services[m].service.extraHosts| == cfg.count
            && c.services[m].service.extraHosts[k] == s.hostname + "=" + s.networks[c.network.name]
  {
    ComposeParts(cfg, projectFolder, image, k);
    ComposeParts(cfg, projectFolder, image, m);
    StageServiceAddress(cfg, image, k + 1);
    StageServiceAddress(cfg, image, m + 1);
  }

  /** Only the first stage publishes the relay's port to the host. */
  lemma OnlyFirstStagePublishes(cfg: SetupConfig, projectFolder: string, image: string, k: nat)
    requires k < cfg.count
    ensures var s := CreateCompose(cfg, projectFolder, image).services[k].service;
            s.ports.Some? <==> k == 0
  {
  }

  /** A stage `i` secret name does not occur among the first `n` stages' and the authority's when `n < i`. */
  lemma NewStageSecretIsNew(cfg: SetupConfig, projectFolder: string, n: nat, i: nat, ext: string)
    requires SecretNamesSeparable(cfg) && ext in {cfg.keyExt, cfg.certExt}
    requires n < i
    ensures !HasSecret(TlsSecrets(cfg, projectFolder, n), StageSecretName(cfg, i, ext))
  {
    var entries := TlsSecrets(cfg, projectFolder, n);
    if HasSecret(entries, StageSecretName(cfg, i, ext)) {
      var k :| 0 <= k < |entries| && entries[k].name == StageSecretName(cfg, i, ext);
      TlsSecretNames(cfg, projectFolder, n, k);
      if k == 0 {
        CaSecretNameDistinct(cfg, i, ext);
      } else {
        StageSecretNamesDistinct(cfg, (k + 1) / 2, if k % 2 == 1 then cfg.keyExt else cfg.certExt, i, ext);
      }
    }
  }

  /** With separable names no secret overwrites another, so the mapping holds exactly what was added. */
  lemma {:induction false} SecretsAreExpected(cfg: SetupConfig, projectFolder: string, n: nat)
    requires SecretNamesSeparable(cfg)
    ensures SecretsUpTo(cfg, projectFolder, n) == TlsSecrets(cfg, projectFolder, n)
    decreases n
  {
    if n > 0 {
      SecretsAreExpected(cfg, projectFolder, n - 1);
      var prev := TlsSecrets(cfg, projectFolder, n - 1);
      var name := StageName(cfg.namePrefix, n);
      var keyEntry := SecretFile(SecretName(name, cfg.keyExt), TlsFile(cfg, projectFolder, name, cfg.keyExt));
      var certEntry := SecretFile(SecretName(name, cfg.certExt), TlsFile(cfg, projectFolder, name, cfg.certExt));
      NewStageSecretIsNew(cfg, projectFolder, n - 1, n, cfg.keyExt);
      var withKey := Put(prev, keyEntry.name, keyEntry.file);
      assert withKey == prev + [keyEntry];
      KeyDoesNotHideCert(cfg, projectFolder, n);
      assert Put(withKey, certEntry.name, certEntry.file) == prev + [keyEntry] + [certEntry];
      assert prev + [keyEntry] + [certEntry] == prev + [keyEntry, certEntry];
    }
  }

  /** Stage `n`'s certificate is new even after its key has been added. */
  lemma KeyDoesNotHideCert(cfg: SetupConfig, projectFolder: string, n: nat)
    requires SecretNamesSeparable(cfg) && n > 0
    ensures var name := StageName(cfg.namePrefix, n);
            var keyEntry := SecretFile(SecretName(name, cfg.keyExt), TlsFile(cfg, projectFolder, name, cfg.keyExt));
            !HasSecret(TlsSecrets(cfg, projectFolder, n - 1) + [keyEntry], SecretName(name, cfg.certExt))
  {
    var prev := TlsSecrets(cfg, projectFolder, n - 1);
    var name := StageName(cfg.namePrefix, n);
    var keyEntry := SecretFile(SecretName(name, cfg.keyExt), TlsFile(cfg, projectFolder, name, cfg.keyExt));
    NewStageSecretIsNew(cfg, projectFolder, n - 1, n, cfg.certExt);
    if HasSecret(prev + [keyEntry], SecretName(name, cfg.certExt)) {
      var k :| 0 <= k < |prev| + 1 && (prev + [keyEntry])[k].name == SecretName(name, cfg.certExt);
      if k == |prev| {
        StageSecretNamesDistinct(cfg, n, cfg.keyExt, n, cfg.certExt);
      }
    }
  }

  /** Each of the three secrets stage `i`'s service refers to is the name of an entry of the secrets mapping. */
  lemma StageSecretDefined(cfg: SetupConfig, projectFolder: string, image: string, i: nat, r: nat) returns (j: nat)
    requires SecretNamesSeparable(cfg)
    requires 1 <= i <= cfg.count && r < 3
    ensures var secrets := SecretsUpTo(cfg, projectFolder, cfg.count);
            && |secrets| == 1 + 2 * cfg.count
            && j < |secrets|
            && secrets[j].name == StageService(cfg, image, i).secrets[r].source
  {
    SecretsAreExpected(cfg, projectFolder, cfg.count);
    TlsStageSecrets(cfg, projectFolder, cfg.count, i);
    TlsSecretNames(cfg, projectFolder, cfg.count, 0);
    var refs := StageService(cfg, image, i).secrets;
    assert refs[0].source == StageSecretName(cfg, i, cfg.keyExt);
    assert refs[1].source == StageSecretName(cfg, i, cfg.certExt);
    assert refs[2].source == CaSecretName(cfg);
    j := if r == 2 then 0 else if r == 0 then 2 * i - 1 else 2 * i;
  }

  /**
   * The secrets mapping holds `1 + 2 * count` secrets, and every secret a service refers to is
   * defined there.
   */
  lemma SecretsResolve(cfg: SetupConfig, projectFolder: string, image: string, k: nat, r: nat)
    requires SecretNamesSeparable(cfg)
    requires k < cfg.count && r < 3
    ensures var c := CreateCompose(cfg, projectFolder, image);
            && |c.secrets| == 1 + 2 * cfg.count
            && exists j :: 0 <= j < |c.secrets| && c.secrets[j].name == c.services[k].service.secrets[r].source
  {
    var c := CreateCompose(cfg, projectFolder, image);
    var j := StageSecretDefined(cfg, projectFolder, image, k + 1, r);
    assert c.services[k].service == StageService(cfg, image, k + 1);
    assert c.secrets[j].name == c.services[k].service.secrets[r].source;
  }

  /** The secrets mapping's names are pairwise distinct. */
  lemma SecretNamesDistinct(cfg: SetupConfig, projectFolder: string, image: string, j: nat, l: nat)
    requires SecretNamesSeparable(cfg)
    requires j < l < 1 + 2 * cfg.count
    ensures var c := CreateCompose(cfg, projectFolder, image);
            |c.secrets| == 1 + 2 * cfg.count && c.secrets[j].name != c.secrets[l].name
  {
    ComposeParts(cfg, projectFolder, image, 0);
    SecretsAreExpected(cfg, projectFolder, cfg.count);
    TlsSecretNamesDistinct(cfg, projectFolder, cfg.count, j, l);
  }

  /** Two positions of `TlsSecrets(n)` hold different names. */
  lemma TlsSecretNamesDistinct(cfg: SetupConfig, projectFolder: string, n: nat, j: nat, l: nat)
    requires SecretNamesSeparable(cfg)
    requires j < l < |TlsSecrets(cfg, projectFolder, n)|
    ensures TlsSecrets(cfg, projectFolder, n)[j].name != TlsSecrets(cfg, projectFolder, n)[l].name
  {
    var e := TlsSecrets(cfg, projectFolder, n);
    TlsSecretNames(cfg, projectFolder, n, j);
    TlsSecretNames(cfg, projectFolder, n, l);
    var el := if l % 2 == 1 then cfg.keyExt else cfg.certExt;
    if j == 0 {
      CaSecretNameDistinct(cfg, (l + 1) / 2, el);
    } else if e[j].name == e[l].name {
      StageSecretNamesDistinct(cfg, (j + 1) / 2, if j % 2 == 1 then cfg.keyExt else cfg.certExt, (l + 1) / 2, el);
    }
  }

  // ---------------------------------------------------------------------------------------------
  // The ring as `server.py` sees it

  /**
   * The last stage's service is refused by `server.py` as written: its environment carries
   * `SERVER_STAGE_INDEX == SERVER_STAGE_COUNT`, which the strict index assert rejects.
   */
  lemma LastStageRefusedAsWritten(cfg: SetupConfig, projectFolder: string, image: string)
    requires cfg.count >= 1
    ensures var c := CreateCompose(cfg, projectFolder, image);
            ServerStartupAsWritten(c.services[cfg.count - 1].service.environment).Err?
  {
    ServiceOfStage(cfg, projectFolder, image, cfg.count - 1);
    StageEnvironmentReads(cfg, cfg.count);
    ServerReadsNumbers(StageEnvironment(cfg, cfg.count), cfg.count, cfg.count, cfg.throttleInterval, cfg.upperBound);
  }

  /**
   * With the index check `rest.py` makes, every service starts as the stage it is named after
   * and sends to the host name of the next service.
   */
  lemma EveryStageStarts(cfg: SetupConfig, projectFolder: string, image: string, k: nat)
    requires k < cfg.count
    ensures var c := CreateCompose(cfg, projectFolder, image);
            var next := if k + 1 < cfg.count then k + 1 else 0;
            var r := ServerStartup(c.services[k].service.environment);
            && r.Ok?
            && r.value.stageIndex == k + 1
            && r.value.stageCount == cfg.count
            && r.value.destAddress == c.services[next].service.hostname
  {
    var next := if k + 1 < cfg.count then k + 1 else 0;
    ServiceOfStage(cfg, projectFolder, image, k);
    ServiceOfStage(cfg, projectFolder, image, next);
    var env := StageEnvironment(cfg, k + 1);
    StageEnvironmentReads(cfg, k + 1);
    NextPosition(k, cfg.count);
    assert env["DEST_ADDRESS"] == StageHost(cfg.namePrefix, next + 1, cfg.domain);
    ServerReadsNumbers(env, cfg.count, k + 1, cfg.throttleInterval, cfg.upperBound);
  }

  /** The host name and the environment of the service at position `k`. */
  lemma ServiceOfStage(cfg: SetupConfig, projectFolder: string, image: string, k: nat)
    requires k < cfg.count
    ensures var s := CreateCompose(cfg, projectFolder, image).services[k].service;
            && s.hostname == StageHost(cfg.namePrefix, k + 1, cfg.domain)
            && s.environment == StageEnvironment(cfg, k + 1)
  {
    ComposeParts(cfg, projectFolder, image, k);
    StageServiceParts(cfg, image, k + 1);
  }
}

=== FILE: datastore.dfy ===
/**
 * The log bookkeeping of a relay stage: logs are flat string records, saved as CSV rows into one
 * of three configured files, each row numbered by a per-file counter. The module globals holding
 * the paths and counters become an explicit `Store`; the file system is a map from path to the
 * lines written so far, together with the paths whose directory does not exist.
 */
module Datastore {
  import opened Wrappers
  import opened Strings

  datatype LogType = SendType | ReceiveType | OperationType

  /** The string values of the `LogType` enumeration. */
  function LogTypeValue(t: LogType): string {
    match t
    case SendType => "send"
    case ReceiveType => "receive"
    case OperationType => "operation"
  }

  datatype LogKind = OnStart | OnCall | OnLog | TriggerSend | MainKind | HealthcheckKind | StartKind | DatastoreKind

  /** The string values of the `LogKind` enumeration. */
  function LogKindValue(k: LogKind): (v: string)
    ensures |v| > 0 && ';' !in v && ',' !in v
  {
    match k
    case OnStart => "onstart"
    case OnCall => "oncall"
    case OnLog => "onlog"
    case TriggerSend => "triggersend"
    case MainKind => "main"
    case HealthcheckKind => "healthcheck"
    case StartKind => "start"
    case DatastoreKind => "datastore"
  }

  /** One field of a log; a log is a dictionary whose insertion order is the column order. */
  datatype Entry = Entry(key: string, value: string)

  type Log = seq<Entry>

  function LogKeys(log: Log): (ks: seq<string>)
    ensures |ks| == |log| && forall i :: 0 <= i < |log| ==> ks[i] == log[i].key
  {
    seq(|log|, i requires 0 <= i < |log| => log[i].key)
  }

  function LogValues(log: Log): (vs: seq<string>)
    ensures |vs| == |log| && forall i :: 0 <= i < |log| ==> vs[i] == log[i].value
  {
    seq(|log|, i requires 0 <= i < |log| => log[i].value)
  }

  function KindValues(kinds: seq<LogKind>): (vs: seq<string>)
    ensures |vs| == |kinds| && forall i :: 0 <= i < |kinds| ==> vs[i] == LogKindValue(kinds[i])
  {
    seq(|kinds|, i requires 0 <= i < |kinds| => LogKindValue(kinds[i]))
  }

  const LogFields: seq<string> := ["type", "kind", "time", "config", "details", "hash"]

  /**
   * `create_log`: the clock reading, the encoded server configuration and the digest function are
   * inputs; the digest covers the five fields before it.
   */
  function CreateLog(logType: LogType, kinds: seq<LogKind>, time: string, config: string, details: string,
                     digest: Log -> string): (log: Log)
    ensures LogKeys(log) == LogFields
    ensures log[0].value == LogTypeValue(logType)
    ensures log[1].value == Join(KindValues(kinds), ";")
    ensures log[2].value == time && log[3].value == config && log[4].value == details
    ensures log[5].value == digest(log[..5])
  {
    var body := [
      Entry("type", LogTypeValue(logType)),
      Entry("kind", Join(KindValues(kinds), ";")),
      Entry("time", time),
      Entry("config", config),
      Entry("details", details)];
    assert (body + [Entry("hash", digest(body))])[..5] == body;
    body + [Entry("hash", digest(body))]
  }

  /** The kinds of a log are read back from its `kind` field by splitting at `;`. */
  lemma KindsRecoverable(logType: LogType, kinds: seq<LogKind>, time: string, config: string, details: string,
                         digest: Log -> string)
    requires |kinds| > 0
    ensures Split(CreateLog(logType, kinds, time, config, details, digest)[1].value, ';') == KindValues(kinds)
  {
    SplitJoin(KindValues(kinds), ';');
  }

  // ---------------------------------------------------------------------------------------------
  // Paths and counters

  datatype Slot = MainSlot | DefaultSlot | OperationsSlot

  /** `DATASTORE_FILEPATH`, `DATASTORE_DEFAULT_FILEPATH` and `DATASTORE_OPERATIONS_FILEPATH`. */
  datatype Paths = Paths(main: string, default: string, operations: string)

  /** The three log counters, each starting at 0. */
  datatype Counts = Counts(main: nat, default: nat, operations: nat)

  function PathOf(paths: Paths, s: Slot): string {
    match s
    case MainSlot => paths.main
    case DefaultSlot => paths.default
    case OperationsSlot => paths.operations
  }

  /** The counter a file path uses: the first configured path it equals, in the order main, default, operations. */
  function SlotOf(paths: Paths, filepath: string): (r: Option<Slot>)
    ensures r.Some? ==> PathOf(paths, r.value) == filepath
    ensures r == Some(MainSlot) <==> filepath == paths.main
    ensures r == Some(DefaultSlot) <==> filepath != paths.main && filepath == paths.default
    ensures r == Some(OperationsSlot) <==> filepath != paths.main && filepath != paths.default && filepath == paths.operations
    ensures r.None? <==> forall s: Slot :: PathOf(paths, s) != filepath
  {
    if filepath == paths.main then Some(MainSlot)
    else if filepath == paths.default then Some(DefaultSlot)
    else if filepath == paths.operations then Some(OperationsSlot)
    else None
  }

  function CountOf(c: Counts, s: Slot): nat {
    match s
    case MainSlot => c.main
    case DefaultSlot => c.default
    case OperationsSlot => c.operations
  }

  /** `+= 1` on one counter; the others stay as they are. */
  function Bump(c: Counts, s: Slot): (c': Counts)
    ensures CountOf(c', s) == CountOf(c, s) + 1
    ensures forall t: Slot :: t != s ==> CountOf(c', t) == CountOf(c, t)
    ensures Total(c') == Total(c) + 1
  {
    match s
    case MainSlot => c.(main := c.main + 1)
    case DefaultSlot => c.(default := c.default + 1)
    case OperationsSlot => c.(operations := c.operations + 1)
  }

  function Total(c: Counts): nat {
    c.main + c.default + c.operations
  }

  // ---------------------------------------------------------------------------------------------
  // Saving

  /**
   * The paths and counters, the lines of every file that exists, and the paths that cannot be
   * opened because their directory is missing.
   */
  datatype Store = Store(paths: Paths, counts: Counts, files: map<string, seq<string>>, unreachable: set<string>)

  function InitialStore(paths: Paths, files: map<string, seq<string>>, unreachable: set<string>): Store {
    Store(paths, Counts(0, 0, 0), files, unreachable)
  }

  /** `'id,' + ','.join(keys)`. */
  function HeaderOf(keys: seq<string>): string {
    "id," + Join(keys, ",")
  }

  /** The header line of a log's file: its keys after `id`. */
  function Header(log: Log): string {
    HeaderOf(LogKeys(log))
  }

  /** `f'{count},' + ','.join(values)`. */
  function Row(count: nat, log: Log): string {
    NatToString(count) + "," + Join(LogValues(log), ",")
  }

  predicate CommaFree(log: Log) {
    forall i :: 0 <= i < |log| ==> ',' !in log[i].value && ',' !in log[i].key
  }

  /** Splitting a row at commas gives its number followed by the log's values. */
  lemma RowFields(count: nat, log: Log)
    requires |log| > 0 && CommaFree(log)
    ensures Split(Row(count, log), ',') == [NatToString(count)] + LogValues(log)
    ensures ParseNat(Split(Row(count, log), ',')[0]) == count
  {
    var parts := [NatToString(count)] + LogValues(log);
    JoinCons(NatToString(count), LogValues(log), ",");
    assert Row(count, log) == Join(parts, [',']);
    forall i | 0 <= i < |parts|
      ensures ',' !in parts[i]
    {
      if i == 0 {
        assert AllDigits(parts[0]);
      }
    }
    SplitJoin(parts, ',');
    ParseNatToString(count);
  }

  /** Splitting the header at commas gives `id` followed by the log's keys. */
  lemma HeaderFields(log: Log)
    requires |log| > 0 && CommaFree(log)
    ensures Split(Header(log), ',') == ["id"] + LogKeys(log)
  {
    var parts := ["id"] + LogKeys(log);
    JoinCons("id", LogKeys(log), ",");
    assert Header(log) == "id," + Join(LogKeys(log), ",");
    assert Header(log) == Join(parts, [',']);
    SplitJoin(parts, ',');
  }

  /** The outcome of a save that passed the path assertion. */
  datatype Saved = Saved(store: Store, success: bool)

  /**
   * `save_log(..., is_operation=True)`: bump the counter of the path, then write the header and
   * the row to a new file or append the row to an existing one. The counter is bumped even when
   * the file cannot be opened; a path matching no configured path fails the assertion.
   */
  function SaveOne(s: Store, filepath: string, log: Log): (r: Result<Saved, string>)
    ensures r.Err? <==> SlotOf(s.paths, filepath).None?
    ensures r.Ok? ==> r.value.store.paths == s.paths && r.value.store.unreachable == s.unreachable
    ensures r.Ok? ==> r.value.store.counts == Bump(s.counts, SlotOf(s.paths, filepath).value)
    ensures r.Ok? ==> (r.value.success <==> filepath !in s.unreachable)
    ensures r.Ok? && !r.value.success ==> r.value.store.files == s.files
    ensures r.Ok? && r.value.success ==>
              var n := CountOf(r.value.store.counts, SlotOf(s.paths, filepath).value);
              r.value.store.files == s.files[filepath :=
                if filepath in s.files then s.files[filepath] + [Row(n, log)] else [Header(log), Row(n, log)]]
  {
    match SlotOf(s.paths, filepath)
    case None => Err("File path should match one of the set paths.")
    case Some(slot) =>
      var counts := Bump(s.counts, slot);
      var n := CountOf(counts, slot);
      if filepath in s.unreachable then Ok(Saved(s.(counts := counts), false))
      else if filepath in s.files then
        Ok(Saved(s.(counts := counts, files := s.files[filepath := s.files[filepath] + [Row(n, log)]]), true))
      else
        Ok(Saved(s.(counts := counts, files := s.files[filepath := [Header(log), Row(n, log)]]), true))
  }

  const SavedDetails := "Log saving event successful."
  const NotFoundDetails := "Local Datastore location not found."

  /** What a stage needs to create a log itself: the clock reading, its encoded configuration and the digest. */
  datatype LogContext = LogContext(time: string, config: string, digest: Log -> string)

  /** A clock reading, a base64 text and a hex digest never contain a comma. */
  ghost predicate ContextCommaFree(ctx: LogContext) {
    NoComma(ctx.time) && NoComma(ctx.config) && forall log: Log :: NoComma(ctx.digest(log))
  }

  predicate NoComma(s: string) {
    ',' !in s
  }

  function OperationLogFor(ctx: LogContext, details: string): Log {
    CreateLog(OperationType, [OnLog], ctx.time, ctx.config, details, ctx.digest)
  }

  /** The result of a save that is not itself an operation-log save: both successes. */
  datatype SavedTwice = SavedTwice(store: Store, success: bool, opSuccess: bool)

  /**
   * `save_log(...)` for a log that is not an operation log: the log is saved, then an operation
   * log reporting the outcome is saved to the operations path.
   */
  function SaveLog(s: Store, filepath: string, log: Log, ctx: LogContext): (r: Result<SavedTwice, string>)
    ensures r.Err? <==> SlotOf(s.paths, filepath).None?
    ensures r.Ok? ==>
              var first := SaveOne(s, filepath, log).value;
              var details := if first.success then SavedDetails else NotFoundDetails;
              var second := SaveOne(first.store, s.paths.operations, OperationLogFor(ctx, details));
              second.Ok? && r.value == SavedTwice(second.value.store, first.success, second.value.success)
    ensures r.Ok? ==> r.value.store.paths == s.paths && Total(r.value.store.counts) == Total(s.counts) + 2
  {
    match SaveOne(s, filepath, log)
    case Err(e) => Err(e)
    case Ok(first) =>
      var details := if first.success then SavedDetails else NotFoundDetails;
      OperationsPathMatches(first.store.paths);
      var second := SaveOne(first.store, s.paths.operations, OperationLogFor(ctx, details)).value;
      Ok(SavedTwice(second.store, first.success, second.success))
  }

  /** The operations path always passes the path assertion, so the operation-log save never fails it. */
  lemma OperationsPathMatches(paths: Paths)
    ensures SlotOf(paths, paths.operations).Some?
  {
  }

  /**
   * A received body on which `','.join` raises: the keys of a dictionary holding a value that is
   * not a string (`join` fails on the values, after the header line of a new file was written), or
   * a body that is not a dictionary at all (`.keys()` fails before anything is written).
   */
  datatype Unjoinable = NonStringValues(keys: seq<string>) | NotADictionary

  /** A save of an unjoinable body either completes, when the file cannot be opened, or raises. */
  datatype Attempt = Completed(saved: SavedTwice) | Raised(store: Store)

  /**
   * `save_log(...)` on an unjoinable body. The counter is bumped first. An unreachable file raises
   * `FileNotFoundError` when it is opened, which is caught, so the save completes as a failed one
   * and the operation log reports it. Otherwise the `join` raises: an existing file is left as it
   * was, and a new file is left created, holding the header line of a dictionary or nothing at
   * all.
   */
  function SaveUnjoinable(s: Store, filepath: string, body: Unjoinable, ctx: LogContext): (r: Result<Attempt, string>)
    ensures r.Err? <==> SlotOf(s.paths, filepath).None?
    ensures r.Ok? ==> (r.value.Completed? <==> filepath in s.unreachable)
    ensures r.Ok? && r.value.Completed? ==>
              var first := s.(counts := Bump(s.counts, SlotOf(s.paths, filepath).value));
              var second := SaveOne(first, s.paths.operations, OperationLogFor(ctx, NotFoundDetails));
              second.Ok? && r.value.saved == SavedTwice(second.value.store, false, second.value.success)
    ensures r.Ok? && r.value.Raised? ==>
              && r.value.store.paths == s.paths && r.value.store.unreachable == s.unreachable
              && r.value.store.counts == Bump(s.counts, SlotOf(s.paths, filepath).value)
              && r.value.store.files ==
                   if filepath in s.files then s.files
                   else s.files[filepath := if body.NonStringValues? then [HeaderOf(body.keys)] else []]
  {
    match SlotOf(s.paths, filepath)
    case None => Err("File path should match one of the set paths.")
    case Some(slot) =>
      var bumped := s.(counts := Bump(s.counts, slot));
      if filepath in s.unreachable then
        OperationsPathMatches(bumped.paths);
        var second := SaveOne(bumped, s.paths.operations, OperationLogFor(ctx, NotFoundDetails)).value;
        Ok(Completed(SavedTwice(second.store, false, second.success)))
      else if filepath in s.files then Ok(Raised(bumped))
      else if body.NonStringValues? then Ok(Raised(bumped.(files := s.files[filepath := [HeaderOf(body.keys)]])))
      else Ok(Raised(bumped.(files := s.files[filepath := []])))
  }

  /**
   * On an unreachable file a body that cannot be joined is indistinguishable from a log: the
   * save fails at `open`, before the body is looked at.
   */
  lemma UnreachableIgnoresBody(s: Store, filepath: string, body: Unjoinable, log: Log, ctx: LogContext)
    requires SlotOf(s.paths, filepath).Some? && filepath in s.unreachable
    ensures SaveUnjoinable(s, filepath, body, ctx) == Ok(Completed(SaveLog(s, filepath, log, ctx).value))
  {
  }

  /**
   * A body that cannot be joined still consumes a row number of its file: the next log saved
   * there is numbered one higher than it would have been.
   */
  lemma UnjoinableConsumesRow(s: Store, filepath: string, body: Unjoinable, log: Log, ctx: LogContext)
    requires SlotOf(s.paths, filepath).Some? && filepath !in s.unreachable
    requires |log| > 0 && CommaFree(log)
    ensures
      var raised := SaveUnjoinable(s, filepath, body, ctx).value.store;
      var after := SaveOne(raised, filepath, log).value.store;
      RowNumber(Last(after.files[filepath])) == Some(CountOf(s.counts, SlotOf(s.paths, filepath).value) + 2)
  {
    var raised := SaveUnjoinable(s, filepath, body, ctx).value.store;
    SaveOneCounts(raised, filepath, log);
  }

  /** Column `k` of a CSV line, if the line has that many columns. */
  function ColumnOf(line: string, k: nat): Option<string> {
    var parts := Split(line, ',');
    if k < |parts| then Some(parts[k]) else None
  }

  /** The number in the first column of a row. */
  function RowNumber(line: string): Option<nat> {
    match ColumnOf(line, 0)
    case Some(f) => if AllDigits(f) then Some(ParseNat(f)) else None
    case None => None
  }

  function Last(lines: seq<string>): string {
    if |lines| == 0 then "" else lines[|lines| - 1]
  }

  /** The columns of a written row are the number and the log's values, read back. */
  lemma RowColumns(count: nat, log: Log, k: nat)
    requires |log| > 0 && CommaFree(log)
    ensures RowNumber(Row(count, log)) == Some(count)
    ensures k < |log| ==> ColumnOf(Row(count, log), k + 1) == Some(log[k].value)
  {
    RowFields(count, log);
  }

  /**
   * A save bumps exactly one counter, the one of the first configured path equal to the file
   * path, and the row it writes carries that counter's new value as its number.
   */
  lemma SaveOneCounts(s: Store, filepath: string, log: Log)
    requires SlotOf(s.paths, filepath).Some?
    requires filepath !in s.unreachable && |log| > 0 && CommaFree(log)
    ensures
      var after := SaveOne(s, filepath, log).value.store;
      && Total(after.counts) == Total(s.counts) + 1
      && filepath in after.files
      && RowNumber(Last(after.files[filepath])) == Some(CountOf(s.counts, SlotOf(s.paths, filepath).value) + 1)
  {
    var slot := SlotOf(s.paths, filepath).value;
    var after := SaveOne(s, filepath, log).value.store;
    assert Last(after.files[filepath]) == Row(CountOf(after.counts, slot), log);
    RowColumns(CountOf(after.counts, slot), log, 0);
  }

  /** The operation log a save reports its outcome with has no comma in any field. */
  lemma OperationLogCommaFree(ctx: LogContext, details: string)
    requires ContextCommaFree(ctx) && NoComma(details)
    ensures CommaFree(OperationLogFor(ctx, details))
  {
    CreatedLogCommaFree(OperationType, [OnLog], ctx, details);
  }

  /** A log created with a comma-free context and comma-free details has no comma in any field. */
  lemma CreatedLogCommaFree(logType: LogType, kinds: seq<LogKind>, ctx: LogContext, details: string)
    requires ContextCommaFree(ctx) && NoComma(details)
    ensures CommaFree(CreateLog(logType, kinds, ctx.time, ctx.config, details, ctx.digest))
  {
    var log := CreateLog(logType, kinds, ctx.time, ctx.config, details, ctx.digest);
    JoinAvoids(KindValues(kinds), ";", ',');
    assert NoComma(LogTypeValue(logType)) by {
      match logType
      case SendType =>
      case ReceiveType =>
      case OperationType =>
    }
    assert NoComma(ctx.digest(log[..5]));
    forall i | 0 <= i < |log|
      ensures ',' !in log[i].value && ',' !in log[i].key
    {
      assert log[i].key == LogFields[i];
      assert ',' !in LogFields[i] by { LogFieldsCommaFree(i); }
    }
  }

  lemma LogFieldsCommaFree(i: nat)
    requires i < |LogFields|
    ensures ',' !in LogFields[i]
  {
  }

  /** A save to a reachable path succeeds and ends the file with the row of the log. */
  lemma SaveOneAppends(s: Store, filepath: string, log: Log)
    requires SlotOf(s.paths, filepath).Some? && filepath !in s.unreachable
    ensures SaveOne(s, filepath, log).Ok?
    ensures
      var r := SaveOne(s, filepath, log).value;
      && r.success
      && Total(r.store.counts) == Total(s.counts) + 1
      && filepath in r.store.files
      && Last(r.store.files[filepath]) == Row(CountOf(r.store.counts, SlotOf(s.paths, filepath).value), log)
  {
  }

  /** The operation-log save writes a row whose details column is the reported outcome. */
  lemma OperationRowReportsDetails(st: Store, ctx: LogContext, details: string)
    requires SlotOf(st.paths, st.paths.operations).Some? && st.paths.operations !in st.unreachable
    requires ContextCommaFree(ctx) && NoComma(details)
    ensures
      var r := SaveOne(st, st.paths.operations, OperationLogFor(ctx, details));
      && r.Ok? && r.value.success
      && Total(r.value.store.counts) == Total(st.counts) + 1
      && st.paths.operations in r.value.store.files
      && ColumnOf(Last(r.value.store.files[st.paths.operations]), 5) == Some(details)
  {
    var opLog := OperationLogFor(ctx, details);
    SaveOneAppends(st, st.paths.operations, opLog);
    var second := SaveOne(st, st.paths.operations, opLog).value;
    var n := CountOf(second.store.counts, SlotOf(st.paths, st.paths.operations).value);
    OperationLogCommaFree(ctx, details);
    RowColumns(n, opLog, 4);
  }

  /**
   * A save of a log that is not an operation log performs exactly one further save, to the
   * operations file, whose row reports whether the first save succeeded.
   */
  lemma SaveLogWritesOneOperationRow(s: Store, filepath: string, log: Log, ctx: LogContext)
    requires SlotOf(s.paths, filepath).Some?
    requires s.paths.operations !in s.unreachable
    requires ContextCommaFree(ctx)
    ensures
      var r := SaveLog(s, filepath, log, ctx).value;
      && Total(r.store.counts) == Total(s.counts) + 2
      && r.opSuccess
      && s.paths.operations in r.store.files
      && ColumnOf(Last(r.store.files[s.paths.operations]), 5) ==
           Some(if r.success then SavedDetails else NotFoundDetails)
  {
    var first := SaveOne(s, filepath, log).value;
    var details := if first.success then SavedDetails else NotFoundDetails;
    OperationRowReportsDetails(first.store, ctx, details);
    var second := SaveOne(first.store, s.paths.operations, OperationLogFor(ctx, details)).value;
    assert SaveLog(s, filepath, log, ctx).value == SavedTwice(second.store, first.success, second.success);
  }

  /** The file at `p` is the same in `t` as in `s`: both lack it, or both hold the same lines. */
  predicate FileKept(s: Store, t: Store, p: string) {
    (p in t.files <==> p in s.files) && (p in s.files ==> t.files[p] == s.files[p])
  }

  /** The details of the operation log `send_log` writes after posting to the remote datastore. */
  const ReturnInfoPrefix := "Return info for datastore sending: "

  /**
   * `send_log`: datastore `none` saves locally to the default path, `file` posts the log to the
   * remote datastore (whose reply is an input) and records the reply in the operations log, and
   * every other datastore does nothing yet.
   */
  function SendLog(s: Store, datastore: string, log: Log, ctx: LogContext, reply: string): (r: Result<Store, string>)
    ensures r.Ok?
    ensures datastore != "none" && datastore != "file" ==> r.value == s
    ensures datastore == "none" ==> Total(r.value.counts) == Total(s.counts) + 2
    ensures datastore == "file" ==> Total(r.value.counts) == Total(s.counts) + 1
    ensures r.value.paths == s.paths
    ensures datastore == "none" ==> r.value == SaveLog(s, s.paths.default, log, ctx).value.store
    ensures datastore == "none" ==>
              forall p :: p != s.paths.default && p != s.paths.operations ==> FileKept(s, r.value, p)
    ensures datastore == "file" ==> forall p :: p != s.paths.operations ==> FileKept(s, r.value, p)
  {
    if datastore == "none" then
      SaveLogKeeps(s, s.paths.default, log, ctx);
      match SaveLog(s, s.paths.default, log, ctx)
      case Ok(saved) => Ok(saved.store)
      case Err(e) => Err(e)
    else if datastore == "file" then
      OperationsPathMatches(s.paths);
      SaveOneKeeps(s, s.paths.operations, OperationLogFor(ctx, ReturnInfoPrefix + reply));
      match SaveOne(s, s.paths.operations, OperationLogFor(ctx, ReturnInfoPrefix + reply))
      case Ok(saved) => Ok(saved.store)
      case Err(e) => Err(e)
    else Ok(s)
  }

  /** A save leaves every other file as it was. */
  lemma SaveOneKeeps(s: Store, filepath: string, log: Log)
    requires SlotOf(s.paths, filepath).Some?
    ensures forall p :: p != filepath ==> FileKept(s, SaveOne(s, filepath, log).value.store, p)
  {
  }

  /** A save with its operation log leaves every file other than the two it writes as it was. */
  lemma SaveLogKeeps(s: Store, filepath: string, log: Log, ctx: LogContext)
    requires SlotOf(s.paths, filepath).Some?
    ensures forall p :: p != filepath && p != s.paths.operations ==>
              FileKept(s, SaveLog(s, filepath, log, ctx).value.store, p)
  {
    var first := SaveOne(s, filepath, log).value;
    var details := if first.success then SavedDetails else NotFoundDetails;
    SaveOneKeeps(s, filepath, log);
    OperationsPathMatches(first.store.paths);
    SaveOneKeeps(first.store, s.paths.operations, OperationLogFor(ctx, details));
  }

  /** How many rows `send_log` adds to the datastore files of a stage with datastore type `datastore`. */
  function ReportedRows(datastore: string): nat {
    if datastore == "none" then 2 else if datastore == "file" then 1 else 0
  }

  /**
   * `report_log`: a log of the given type and kinds carrying `details` is created with the
   * stage's context and sent; the print to the console is not modelled.
   */
  function ReportLog(s: Store, datastore: string, logType: LogType, kinds: seq<LogKind>, details: string,
                     ctx: LogContext, remote: string): (r: Store)
    ensures Total(r.counts) == Total(s.counts) + ReportedRows(datastore)
    ensures ReportedRows(datastore) == 0 ==> r == s
    ensures r.paths == s.paths
    ensures datastore == "none" ==> forall p :: p != s.paths.default && p != s.paths.operations ==> FileKept(s, r, p)
    ensures datastore == "file" ==> forall p :: p != s.paths.operations ==> FileKept(s, r, p)
  {
    SendLog(s, datastore, CreateLog(logType, kinds, ctx.time, ctx.config, details, ctx.digest), ctx, remote).value
  }

  /**
   * With datastore `none` and a default file that can be opened, the log becomes the last row of
   * the default file, numbered by the counter of that file's path.
   */
  lemma SendLogNoneWritesDefault(s: Store, log: Log, ctx: LogContext, reply: string)
    requires s.paths.default !in s.unreachable && s.paths.default != s.paths.operations
    ensures
      var t := SendLog(s, "none", log, ctx, reply).value;
      && s.paths.default in t.files
      && Last(t.files[s.paths.default]) == Row(CountOf(t.counts, SlotOf(s.paths, s.paths.default).value), log)
  {
    var slot := SlotOf(s.paths, s.paths.default).value;
    SaveOneAppends(s, s.paths.default, log);
    var first := SaveOne(s, s.paths.default, log).value;
    OperationsPathMatches(first.store.paths);
    var opSlot := SlotOf(s.paths, s.paths.operations).value;
    assert opSlot != slot;
    var details := if first.success then SavedDetails else NotFoundDetails;
    var second := SaveOne(first.store, s.paths.operations, OperationLogFor(ctx, details)).value;
    assert second.store.files[s.paths.default] == first.store.files[s.paths.default];
    assert CountOf(second.store.counts, slot) == CountOf(first.store.counts, slot);
  }

  /**
   * With datastore `none` the operations file ends with the row reporting whether the log
   * reached the default file.
   */
  lemma SendLogNoneReportsSave(s: Store, log: Log, ctx: LogContext, reply: string)
    requires s.paths.operations !in s.unreachable && ContextCommaFree(ctx)
    ensures
      var t := SendLog(s, "none", log, ctx, reply).value;
      && s.paths.operations in t.files
      && ColumnOf(Last(t.files[s.paths.operations]), 5) ==
           Some(if s.paths.default in s.unreachable then NotFoundDetails else SavedDetails)
  {
    SaveLogWritesOneOperationRow(s, s.paths.default, log, ctx);
  }

  /**
   * With datastore `file` the operations file ends with a row whose details carry the remote
   * datastore's reply.
   */
  lemma SendLogFileRecordsReply(s: Store, log: Log, ctx: LogContext, reply: string)
    requires s.paths.operations !in s.unreachable && ContextCommaFree(ctx) && NoComma(reply)
    ensures
      var t := SendLog(s, "file", log, ctx, reply).value;
      && s.paths.operations in t.files
      && ColumnOf(Last(t.files[s.paths.operations]), 5) == Some(ReturnInfoPrefix + reply)
  {
    OperationsPathMatches(s.paths);
    assert NoComma(ReturnInfoPrefix);
    OperationRowReportsDetails(s, ctx, ReturnInfoPrefix + reply);
  }

  /**
   * With datastore `none` the details of a report are read back from the details column of the
   * default file's last row.
   */
  lemma ReportedDetailsReadBack(s: Store, logType: LogType, kinds: seq<LogKind>, details: string, ctx: LogContext,
                                remote: string)
    requires s.paths.default !in s.unreachable && s.paths.default != s.paths.operations
    requires ContextCommaFree(ctx) && NoComma(details)
    ensures
      var t := ReportLog(s, "none", logType, kinds, details, ctx, remote);
      && s.paths.default in t.files
      && ColumnOf(Last(t.files[s.paths.default]), 5) == Some(details)
  {
    var log := CreateLog(logType, kinds, ctx.time, ctx.config, details, ctx.digest);
    SendLogNoneWritesDefault(s, log, ctx, remote);
    CreatedLogCommaFree(logType, kinds, ctx, details);
    var t := SendLog(s, "none", log, ctx, remote).value;
    RowColumns(CountOf(t.counts, SlotOf(s.paths, s.paths.default).value), log, 4);
  }
}

=== FILE: deployments.dfy ===
/**
 * The Helm chart of the fourth use case: every stage is a deployment of its own with a service in
 * front of it, all listening on `startPort`, so the ring is closed over service names: stage `i`
 * sends to the service of the next stage. Each stage mounts its secret at the TLS target and is
 * told the paths of its key, its certificate and the authority's certificate inside that mount.
 * Stage 1's service is reachable from outside through the ingress.
 */
module Deployments {
  import opened Wrappers
  import opened Strings
  import opened Ring
  import opened Setup
  import opened KubeUtils
  import opened Relay
  import opened Charts

  // ---------------------------------------------------------------------------------------------
  // Secret templates

  /** The ingress secret's base name: `f'{use_case_name}-{ingressName}'`. */
  function IngressSecretBase(cfg: SetupConfig, num: nat): string {
    UseCaseName(cfg, num) + "-" + cfg.ingressName
  }

  /**
   * The secret holding the ingress's key and certificate under the keys `tls.key` and `tls.crt`.
   * Its type is `kubernetes.io/TLS`, which is not the built-in `kubernetes.io/tls` (type names are
   * case-sensitive), so Kubernetes treats it as a custom type and does not check its two keys.
   */
  function IngressSecret(cfg: SetupConfig, num: nat, namespaceName: string): Secret {
    CreateSecret(IngressSecretBase(cfg, num), namespaceName, "kubernetes.io/TLS",
                 [ KeyValue("tls.key", HelmTlsFile(cfg.tlsFolder, cfg.ingressName, cfg.keyExt)),
                   KeyValue("tls.crt", HelmTlsFile(cfg.tlsFolder, cfg.ingressName, cfg.certExt)) ],
                 None, true)
  }

  /** The names of the three files a stage's secret provides. */
  function SelfKeyFile(cfg: SetupConfig): string { cfg.selfName + "." + cfg.keyExt }
  function SelfCertFile(cfg: SetupConfig): string { cfg.selfName + "." + cfg.certExt }
  function CaCertFile(cfg: SetupConfig): string { cfg.caName + "." + cfg.certExt }

  /**
   * The data of stage `name`'s secret, a dict literal: its key and certificate under the stage's
   * own file names and the authority's certificate under the authority's.
   */
  function StageSecretData(cfg: SetupConfig, name: string): seq<KeyValue> {
    DictLiteral([ KeyValue(SelfKeyFile(cfg), HelmTlsFile(cfg.tlsFolder, name, cfg.keyExt)),
                  KeyValue(SelfCertFile(cfg), HelmTlsFile(cfg.tlsFolder, name, cfg.certExt)),
                  KeyValue(CaCertFile(cfg), HelmTlsFile(cfg.tlsFolder, cfg.caName, cfg.certExt)) ])
  }

  function StageSecret(cfg: SetupConfig, namespaceName: string, i: nat): Secret {
    var name := StageName(cfg.namePrefix, i);
    CreateSecret(name, namespaceName, "Opaque", StageSecretData(cfg, name), None, true)
  }

  /** `create_secret_templates`: the ingress secret, then one secret per stage in order. */
  function SecretTemplates(cfg: SetupConfig, num: nat, namespaceName: string): (r: seq<Secret>)
    ensures |r| == 1 + cfg.count
    ensures r[0] == IngressSecret(cfg, num, namespaceName)
    ensures forall i :: 1 <= i <= cfg.count ==> r[i] == StageSecret(cfg, namespaceName, i)
  {
    [IngressSecret(cfg, num, namespaceName)] + seq(cfg.count, k requires 0 <= k => StageSecret(cfg, namespaceName, k + 1))
  }

  // ---------------------------------------------------------------------------------------------
  // Stage deployments and services

  /** The service in front of stage `i`: `create_service(f'{namePrefix}-{i}', ...)`. */
  function StageServiceName(cfg: SetupConfig, i: nat): string {
    StageName(cfg.namePrefix, i) + "-service"
  }

  /**
   * The service stage `i` sends to, spelled as the generator spells it: the next stage's, and
   * `namePrefix-1-service` for the last stage; an index past the count raises `IndexError`.
   */
  function DestService(cfg: SetupConfig, i: nat): (r: Option<string>)
    ensures r.None? <==> i > cfg.count
    ensures 1 <= i <= cfg.count ==> r == Some(StageServiceName(cfg, DestIndex(i, cfg.count).value))
  {
    if i < cfg.count then Some(StageName(cfg.namePrefix, i + 1) + "-service")
    else if i == cfg.count then
      FirstServiceName(cfg);
      Some(cfg.namePrefix + "-1-service")
    else None
  }

  /** Stage 1's service is the one the generator names `namePrefix-1-service`. */
  lemma FirstServiceName(cfg: SetupConfig)
    ensures StageServiceName(cfg, 1) == cfg.namePrefix + "-1-service"
  {
    assert NatToString(1) == "1";
  }

  /** The values of stage `i`'s variables: the file targets lie inside the mounted secret. */
  function DeploymentVariableValues(cfg: SetupConfig, i: nat): (values: seq<string>)
    requires 1 <= i <= cfg.count
    ensures |values| == |ChartVariableNames|
  {
    [ IntToString(cfg.count),
      IntToString(i),
      cfg.defaultListeningIp,
      cfg.default,
      IntToString(cfg.startPort),
      cfg.tlsTarget + "/" + SelfKeyFile(cfg),
      cfg.tlsTarget + "/" + SelfCertFile(cfg),
      cfg.tlsTarget + "/" + CaCertFile(cfg),
      DestService(cfg, i).value,
      IntToString(cfg.startPort),
      IntToString(cfg.throttleInterval),
      IntToString(cfg.upperBound) ]
  }

  /** The variables of stage `i`'s container. */
  function DeploymentVariables(cfg: SetupConfig, i: nat): seq<EnvVar>
    requires 1 <= i <= cfg.count
  {
    ChartVariables(DeploymentVariableValues(cfg, i))
  }

  /** The pod labels of stage `i`: the chart's application and the stage as its component. */
  function StageLabels(cfg: SetupConfig, num: nat, i: nat): seq<KeyValue> {
    [ KeyValue("app.kubernetes.io/name", UseCaseName(cfg, num) + "-app"),
      KeyValue("app.kubernetes.io/component", StageName(cfg.namePrefix, i)) ]
  }

  /** `create_deployment_template` for stage `i`: one container and its secret volume. */
  function StageDeployment(cfg: SetupConfig, num: nat, namespaceName: string, image: string, i: nat): Deployment
    requires 1 <= i <= cfg.count
  {
    var name := StageName(cfg.namePrefix, i);
    Deployment(name, namespaceName, cfg.replicas, StageLabels(cfg, num, i), cfg.podRestartPolicy,
               [ Container(name, image, [ContainerPort(cfg.startPort, "TCP")], DeploymentVariables(cfg, i),
                           [VolumeMount(name + "-secret-mount", cfg.tlsTarget, true)], ChartProbe(cfg)) ],
               [ Volume(name + "-secret-mount", name + "-secret") ])
  }

  function StageService(cfg: SetupConfig, num: nat, namespaceName: string, i: nat): Service {
    CreateService(StageName(cfg.namePrefix, i), namespaceName, StageLabels(cfg, num, i),
                  [ServicePort(cfg.startPort, "TCP", Some(cfg.startPort))], None)
  }

  /** The objects generated for one stage. */
  datatype Stage = Stage(deployment: Deployment, service: Service)

  /** The stages of a chart, in order: the deployment and the service generated for each stage. */
  ghost predicate StagesOf(cfg: SetupConfig, num: nat, namespaceName: string, image: string, stages: seq<Stage>) {
    && |stages| == cfg.count
    && forall k :: 0 <= k < cfg.count ==>
         stages[k] == Stage(StageDeployment(cfg, num, namespaceName, image, k + 1), StageService(cfg, num, namespaceName, k + 1))
  }

  /** A deployment and a service for each stage, in stage order. */
  function ChartStages(cfg: SetupConfig, num: nat, namespaceName: string, image: string): (r: seq<Stage>)
    ensures StagesOf(cfg, num, namespaceName, image, r)
  {
    seq(cfg.count, k requires 0 <= k < cfg.count =>
      Stage(StageDeployment(cfg, num, namespaceName, image, k + 1), StageService(cfg, num, namespaceName, k + 1)))
  }

  /** The objects of the chart, in the order they are generated. */
  datatype Chart = Chart(
    namespace: Namespace,
    policy: AdmissionPolicy<seq<ResourceRule>, seq<Validation>>,
    binding: PolicyBinding,
    secrets: seq<Secret>,
    stages: seq<Stage>,
    ingress: Ingress,
    networkPolicy: NetworkPolicy)

  /**
   * `create_chart` after the files are copied, for use case number `num`: the namespace, the
   * admission policy and its binding, the secrets, a deployment and a service per stage, the
   * ingress in front of stage 1 and the network policy over all stages, the last two made by the
   * builders `b`.
   */
  function ChartWith(cfg: SetupConfig, num: nat, image: string, b: Builders): (c: Chart)
    ensures StagesOf(cfg, num, c.namespace.metadata.name, image, c.stages)
  {
    var name := UseCaseName(cfg, num);
    var namespace := CreateNamespace(name, cfg.namespacePolicy, DefaultVersion, NoOverrides);
    var namespaceName := namespace.metadata.name;
    var (policy, binding) := ImagePolicy(name, image, namespaceName);
    Chart(
      namespace, policy, binding,
      SecretTemplates(cfg, num, namespaceName),
      ChartStages(cfg, num, namespaceName, image),
      IngressBy(b, name, namespaceName, "nginx", cfg.domain, IngressSecretBase(cfg, num) + "-secret",
                [IngressPath("/v" + NatToString(num) + cfg.startApi, "Exact", cfg.namePrefix + "-1-service", cfg.startPort)],
                None),
      NetworkPolicyBy(b, name, namespaceName, [KeyValue("app.kubernetes.io/name", name + "-app")], cfg.defaultIp + "/32",
                      [ServicePort(cfg.startPort, "TCP", None)], None))
  }

  /**
   * The chart `create_chart` generates: a deployment and a service per stage, in stage order, and
   * the ingress and network policy as `create_ingress` and `create_network_policy` write them,
   * under the keys `TLS` and `_to`.
   */
  function CreateChart(cfg: SetupConfig, num: nat, image: string): (c: Chart)
    ensures |c.stages| == cfg.count
    ensures StagesOf(cfg, num, c.namespace.metadata.name, image, c.stages)
    ensures c.ingress.tlsField == "TLS" && |c.networkPolicy.egress| == 1 && c.networkPolicy.egress[0].peersField == "_to"
  {
    ChartWith(cfg, num, image, AsWrittenBuilders)
  }

  /** The chart with the ingress and network-policy keys the Kubernetes API reads, `tls` and `to`. */
  function CorrectedChart(cfg: SetupConfig, num: nat, image: string): (c: Chart)
    ensures StagesOf(cfg, num, c.namespace.metadata.name, image, c.stages)
    ensures c.ingress.tlsField == "tls" && |c.networkPolicy.egress| == 1 && c.networkPolicy.egress[0].peersField == "to"
  {
    ChartWith(cfg, num, image, CorrectedBuilders)
  }

  // ---------------------------------------------------------------------------------------------
  // Properties

  /** What a stage's environment hands to the relay. */
  lemma DeploymentEnvironmentReads(cfg: SetupConfig, i: nat)
    requires 1 <= i <= cfg.count
    ensures var env := ToMap(DeploymentVariables(cfg, i));
            && "SERVER_STAGE_COUNT" in env && env["SERVER_STAGE_COUNT"] == IntToString(cfg.count)
            && "SERVER_STAGE_INDEX" in env && env["SERVER_STAGE_INDEX"] == IntToString(i)
            && "SELF_PORT" in env && env["SELF_PORT"] == IntToString(cfg.startPort)
            && "SECRET_KEY_TARGET" in env && env["SECRET_KEY_TARGET"] == cfg.tlsTarget + "/" + SelfKeyFile(cfg)
            && "SECRET_CERT_TARGET" in env && env["SECRET_CERT_TARGET"] == cfg.tlsTarget + "/" + SelfCertFile(cfg)
            && "SECRET_CA_CERT_TARGET" in env && env["SECRET_CA_CERT_TARGET"] == cfg.tlsTarget + "/" + CaCertFile(cfg)
            && "DEST_ADDRESS" in env && env["DEST_ADDRESS"] == StageServiceName(cfg, DestIndex(i, cfg.count).value)
            && "DEST_PORT" in env && env["DEST_PORT"] == IntToString(cfg.startPort)
            && "THROTTLE_INTERVAL" in env && env["THROTTLE_INTERVAL"] == IntToString(cfg.throttleInterval)
            && "UPPER_BOUND" in env && env["UPPER_BOUND"] == IntToString(cfg.upperBound)
  {
    var values := DeploymentVariableValues(cfg, i);
    var env := ToMap(DeploymentVariables(cfg, i));
    ChartEnvironmentReads(values);
    assert env[ChartVariableNames[0]] == values[0] && env[ChartVariableNames[1]] == values[1];
    assert env[ChartVariableNames[4]] == values[4] && env[ChartVariableNames[5]] == values[5];
    assert env[ChartVariableNames[6]] == values[6] && env[ChartVariableNames[7]] == values[7];
    assert env[ChartVariableNames[8]] == values[8] && env[ChartVariableNames[9]] == values[9];
    assert env[ChartVariableNames[10]] == values[10] && env[ChartVariableNames[11]] == values[11];
  }

  /**
   * The ring over services: stage `k` sends to the service of the next stage, the last one to
   * stage 1's, on the port that service exposes, and that service forwards to the port its
   * stage's container listens on, which is the port the stage is told is its own.
   */
  lemma StagesFormRing(cfg: SetupConfig, num: nat, image: string, k: nat)
    requires k < cfg.count
    ensures var c := CreateChart(cfg, num, image);
            var env := ToMap(c.stages[k].deployment.containers[0].env);
            var next := if k + 1 < cfg.count then k + 1 else 0;
            var target := c.stages[next];
            && "DEST_ADDRESS" in env && env["DEST_ADDRESS"] == target.service.metadata.name
            && "DEST_PORT" in env && ParseInt(env["DEST_PORT"]) == Some(target.service.ports[0].port)
            && target.service.ports[0].targetPort == Some(target.deployment.containers[0].ports[0].containerPort)
            && "SELF_PORT" in env && ParseInt(env["SELF_PORT"]) == Some(c.stages[k].deployment.containers[0].ports[0].containerPort)
  {
    var c := CreateChart(cfg, num, image);
    RingForwards(cfg, num, c.namespace.metadata.name, image, c.stages, k);
  }

  /** Among the generated stages, stage `k` sends to the next stage's service, which forwards to that stage's port. */
  lemma RingForwards(cfg: SetupConfig, num: nat, namespaceName: string, image: string, stages: seq<Stage>, k: nat)
    requires StagesOf(cfg, num, namespaceName, image, stages)
    requires k < cfg.count
    ensures var env := ToMap(stages[k].deployment.containers[0].env);
            var next := if k + 1 < cfg.count then k + 1 else 0;
            var target := stages[next];
            && "DEST_ADDRESS" in env && env["DEST_ADDRESS"] == target.service.metadata.name
            && "DEST_PORT" in env && ParseInt(env["DEST_PORT"]) == Some(target.service.ports[0].port)
            && target.service.ports[0].targetPort == Some(target.deployment.containers[0].ports[0].containerPort)
            && "SELF_PORT" in env && ParseInt(env["SELF_PORT"]) == Some(stages[k].deployment.containers[0].ports[0].containerPort)
  {
    var next := if k + 1 < cfg.count then k + 1 else 0;
    assert stages[k].deployment == StageDeployment(cfg, num, namespaceName, image, k + 1);
    assert stages[next] == Stage(StageDeployment(cfg, num, namespaceName, image, next + 1), StageService(cfg, num, namespaceName, next + 1));
    DeploymentEnvironmentReads(cfg, k + 1);
    NextPosition(k, cfg.count);
    ParseIntToString(cfg.startPort);
  }

  /** The labels of stage `j` select the pods labelled for stage `i` exactly when the two stages share a name. */
  lemma StageLabelsMatch(cfg: SetupConfig, num: nat, i: nat, j: nat)
    ensures MatchLabels(StageLabels(cfg, num, i), StageLabels(cfg, num, j))
            <==> StageName(cfg.namePrefix, i) == StageName(cfg.namePrefix, j)
  {
    var selector := StageLabels(cfg, num, i);
    var labels := StageLabels(cfg, num, j);
    assert |"app.kubernetes.io/name"| != |"app.kubernetes.io/component"|;
    assert Lookup(labels, selector[0].key) == Some(selector[0].value);
    assert Lookup(labels, selector[1].key) == Some(StageName(cfg.namePrefix, j));
  }

  /** A stage's service selects the pods of that stage's deployment and of no other stage's. */
  lemma ServiceSelectsItsStage(cfg: SetupConfig, num: nat, image: string, j: nat, k: nat)
    requires j < cfg.count && k < cfg.count
    ensures var c := CreateChart(cfg, num, image);
            MatchLabels(c.stages[j].service.selector, c.stages[k].deployment.podLabels) <==> j == k
  {
    var c := CreateChart(cfg, num, image);
    RingSelectsStages(cfg, num, c.namespace.metadata.name, image, c.stages, j, k);
  }

  /** Among the generated stages, service `j` selects the pods of deployment `k` exactly when `j == k`. */
  lemma RingSelectsStages(cfg: SetupConfig, num: nat, namespaceName: string, image: string, stages: seq<Stage>, j: nat, k: nat)
    requires StagesOf(cfg, num, namespaceName, image, stages)
    requires j < cfg.count && k < cfg.count
    ensures MatchLabels(stages[j].service.selector, stages[k].deployment.podLabels) <==> j == k
  {
    assert stages[j].service == StageService(cfg, num, namespaceName, j + 1);
    assert stages[k].deployment == StageDeployment(cfg, num, namespaceName, image, k + 1);
    StageLabelsSelect(cfg, num, stages[j].service.selector, stages[k].deployment.podLabels, j + 1, k + 1);
  }

  /** The labels of stage `i` select the pods labelled for stage `j` exactly when `i == j`. */
  lemma StageLabelsSelect(cfg: SetupConfig, num: nat, selector: seq<KeyValue>, labels: seq<KeyValue>, i: nat, j: nat)
    requires selector == StageLabels(cfg, num, i) && labels == StageLabels(cfg, num, j)
    requires 1 <= i && 1 <= j
    ensures MatchLabels(selector, labels) <==> i == j
  {
    StageLabelsMatch(cfg, num, i, j);
    if StageName(cfg.namePrefix, i) == StageName(cfg.namePrefix, j) {
      StageNameInjective(cfg.namePrefix, i, j);
    }
  }

  /**
   * As generated, the network policy applies to every stage's pods and admits traffic into them
   * only from the external address and the chart's namespace, on the port every stage listens on;
   * its egress rule names no peers, so the pods may reach every destination on that port.
   */
  lemma NetworkPolicyCoversEveryStage(cfg: SetupConfig, num: nat, image: string, k: nat)
    requires k < cfg.count
    ensures var c := CreateChart(cfg, num, image);
            var np := c.networkPolicy;
            && MatchLabels(np.podSelector, c.stages[k].deployment.podLabels)
            && RulePeers(np.ingress[0], "from") == Some(PolicyPeers(c.namespace.metadata.name, cfg.defaultIp + "/32"))
            && |np.ingress[0].ports| == 1
            && np.ingress[0].ports[0].port == c.stages[k].deployment.containers[0].ports[0].containerPort
            && !EgressRestricted(np) && RulePeers(np.egress[0], "to").None?
  {
    var c := CreateChart(cfg, num, image);
    var name := UseCaseName(cfg, num);
    assert Lookup(c.stages[k].deployment.podLabels, "app.kubernetes.io/name") == Some(name + "-app");
    NetworkPolicyAsWrittenEgressOpen(name, c.namespace.metadata.name, [KeyValue("app.kubernetes.io/name", name + "-app")],
                                     cfg.defaultIp + "/32", [ServicePort(cfg.startPort, "TCP", None)], None);
  }

  /**
   * With the corrected key, the network policy restricts every stage's egress to the same two
   * peers and the same port as its ingress.
   */
  lemma CorrectedPolicyCoversEveryStage(cfg: SetupConfig, num: nat, image: string, k: nat)
    requires k < cfg.count
    ensures var c := CorrectedChart(cfg, num, image);
            var np := c.networkPolicy;
            && MatchLabels(np.podSelector, c.stages[k].deployment.podLabels)
            && EgressRestricted(np)
            && RulePeers(np.egress[0], "to") == RulePeers(np.ingress[0], "from")
            && np.ingress[0].ports == np.egress[0].ports
  {
    var c := CorrectedChart(cfg, num, image);
    var name := UseCaseName(cfg, num);
    assert Lookup(c.stages[k].deployment.podLabels, "app.kubernetes.io/name") == Some(name + "-app");
    NetworkPolicySymmetric(name, c.namespace.metadata.name, [KeyValue("app.kubernetes.io/name", name + "-app")],
                           cfg.defaultIp + "/32", [ServicePort(cfg.startPort, "TCP", None)], None, c.namespace);
  }

  /**
   * The ingress routes `/v{num}{startAPI}` to stage 1's service on the port it exposes. As
   * generated, its TLS entry names the chart's ingress secret for its host under the key `TLS`,
   * so it terminates TLS for no host.
   */
  lemma IngressReachesFirstStage(cfg: SetupConfig, num: nat, image: string)
    requires cfg.count >= 1
    ensures var c := CreateChart(cfg, num, image);
            var backend := c.ingress.rules[0].paths[0];
            && c.ingress.rules == [IngressRule(cfg.domain, [backend])]
            && backend.path == "/v" + NatToString(num) + cfg.startApi && backend.pathType == "Exact"
            && backend.serviceName == c.stages[0].service.metadata.name
            && backend.servicePort == c.stages[0].service.ports[0].port
            && c.ingress.tls == [IngressTls([cfg.domain], c.secrets[0].metadata.name)]
            && c.secrets[0].secretType == "kubernetes.io/TLS"
            && EffectiveTls(c.ingress) == []
  {
    var c := CreateChart(cfg, num, image);
    RingIngress(cfg, num, c.namespace.metadata.name, image, c.stages, c.secrets, "TLS", c.ingress);
  }

  /** With the corrected key, the ingress terminates TLS for its host with the chart's ingress secret. */
  lemma CorrectedIngressServesTls(cfg: SetupConfig, num: nat, image: string)
    requires cfg.count >= 1
    ensures var c := CorrectedChart(cfg, num, image);
            EffectiveTls(c.ingress) == [IngressTls([cfg.domain], c.secrets[0].metadata.name)]
  {
    var c := CorrectedChart(cfg, num, image);
    RingIngress(cfg, num, c.namespace.metadata.name, image, c.stages, c.secrets, "tls", c.ingress);
  }

  /** The ingress generated in front of the generated stages reaches stage 1 and names the generated ingress secret. */
  lemma RingIngress(cfg: SetupConfig, num: nat, namespaceName: string, image: string, stages: seq<Stage>,
                    secrets: seq<Secret>, tlsField: string, ingress: Ingress)
    requires StagesOf(cfg, num, namespaceName, image, stages) && cfg.count >= 1
    requires |secrets| >= 1 && secrets[0] == IngressSecret(cfg, num, namespaceName)
    requires ingress == CreateIngressWith(tlsField, UseCaseName(cfg, num), namespaceName, "nginx", cfg.domain,
                                          IngressSecretBase(cfg, num) + "-secret",
                                          [IngressPath("/v" + NatToString(num) + cfg.startApi, "Exact", cfg.namePrefix + "-1-service", cfg.startPort)],
                                          None)
    ensures var backend := ingress.rules[0].paths[0];
            && ingress.rules == [IngressRule(cfg.domain, [backend])]
            && backend.path == "/v" + NatToString(num) + cfg.startApi && backend.pathType == "Exact"
            && backend.serviceName == stages[0].service.metadata.name
            && backend.servicePort == stages[0].service.ports[0].port
            && ingress.tlsField == tlsField
            && ingress.tls == [IngressTls([cfg.domain], secrets[0].metadata.name)]
            && secrets[0].secretType == "kubernetes.io/TLS"
  {
    var paths := [IngressPath("/v" + NatToString(num) + cfg.startApi, "Exact", cfg.namePrefix + "-1-service", cfg.startPort)];
    assert stages[0].service == StageService(cfg, num, namespaceName, 1);
    assert stages[0].service.metadata.name == StageServiceName(cfg, 1);
    FirstServiceName(cfg);
    assert secrets[0].metadata.name == IngressSecretBase(cfg, num) + "-secret";
    assert secrets[0].secretType == "kubernetes.io/TLS";
    assert ingress.rules == [IngressRule(cfg.domain, paths)];
  }

  /**
   * Each stage reads its key, its certificate and the authority's certificate from files of the
   * volume it mounts, which is filled from its own secret: the three targets name the secret's three
   * entries, and those inline the stage's own key and certificate and the authority's certificate.
   * This needs the three file names to differ, which holds for dot-free, different extensions and
   * a stage file name other than the authority's: otherwise two entries of the dict literal share
   * a key and the later one wins.
   */
  lemma StageReadsItsOwnFiles(cfg: SetupConfig, num: nat, image: string, k: nat)
    requires k < cfg.count
    requires '.' !in cfg.keyExt && '.' !in cfg.certExt
    requires cfg.keyExt != cfg.certExt && cfg.selfName != cfg.caName
    ensures var c := CreateChart(cfg, num, image);
            var d := c.stages[k].deployment;
            var s := c.secrets[k + 1];
            var env := ToMap(d.containers[0].env);
            var mount := d.containers[0].mounts[0];
            var name := StageName(cfg.namePrefix, k + 1);
            && d.containers[0].mounts == [mount] && d.volumes == [Volume(mount.name, s.metadata.name)]
            && s.metadata.namespace == Some(d.namespaceName)
            && "SECRET_KEY_TARGET" in env && env["SECRET_KEY_TARGET"] == mount.mountPath + "/" + SelfKeyFile(cfg)
            && "SECRET_CERT_TARGET" in env && env["SECRET_CERT_TARGET"] == mount.mountPath + "/" + SelfCertFile(cfg)
            && "SECRET_CA_CERT_TARGET" in env && env["SECRET_CA_CERT_TARGET"] == mount.mountPath + "/" + CaCertFile(cfg)
            && Lookup(s.data, SelfKeyFile(cfg)) == Some(HelmTlsFile(cfg.tlsFolder, name, cfg.keyExt))
            && Lookup(s.data, SelfCertFile(cfg)) == Some(HelmTlsFile(cfg.tlsFolder, name, cfg.certExt))
            && Lookup(s.data, CaCertFile(cfg)) == Some(HelmTlsFile(cfg.tlsFolder, cfg.caName, cfg.certExt))
  {
    ChartStageMounts(cfg, num, image, k);
    ChartStageSecret(cfg, num, image, k);
  }

  /** Stage `k + 1`'s deployment mounts the chart's secret of that stage and is told the paths inside the mount. */
  lemma ChartStageMounts(cfg: SetupConfig, num: nat, image: string, k: nat)
    requires k < cfg.count
    ensures var c := CreateChart(cfg, num, image);
            var d := c.stages[k].deployment;
            var s := c.secrets[k + 1];
            var env := ToMap(d.containers[0].env);
            var mount := d.containers[0].mounts[0];
            && d.containers[0].mounts == [mount] && d.volumes == [Volume(mount.name, s.metadata.name)]
            && s.metadata.namespace == Some(d.namespaceName)
            && "SECRET_KEY_TARGET" in env && env["SECRET_KEY_TARGET"] == mount.mountPath + "/" + SelfKeyFile(cfg)
            && "SECRET_CERT_TARGET" in env && env["SECRET_CERT_TARGET"] == mount.mountPath + "/" + SelfCertFile(cfg)
            && "SECRET_CA_CERT_TARGET" in env && env["SECRET_CA_CERT_TARGET"] == mount.mountPath + "/" + CaCertFile(cfg)
  {
    var c := CreateChart(cfg, num, image);
    RingMountsSecrets(cfg, num, c.namespace.metadata.name, image, c.stages, c.secrets, k);
  }

  /** With three different file names, the chart's secret of stage `k + 1` holds that stage's files. */
  lemma ChartStageSecret(cfg: SetupConfig, num: nat, image: string, k: nat)
    requires k < cfg.count
    requires '.' !in cfg.keyExt && '.' !in cfg.certExt
    requires cfg.keyExt != cfg.certExt && cfg.selfName != cfg.caName
    ensures var s := CreateChart(cfg, num, image).secrets[k + 1];
            var name := StageName(cfg.namePrefix, k + 1);
            && Lookup(s.data, SelfKeyFile(cfg)) == Some(HelmTlsFile(cfg.tlsFolder, name, cfg.keyExt))
            && Lookup(s.data, SelfCertFile(cfg)) == Some(HelmTlsFile(cfg.tlsFolder, name, cfg.certExt))
            && Lookup(s.data, CaCertFile(cfg)) == Some(HelmTlsFile(cfg.tlsFolder, cfg.caName, cfg.certExt))
  {
    var c := CreateChart(cfg, num, image);
    RingSecretEntries(cfg, c.namespace.metadata.name, c.secrets, k);
  }

  /** Among the generated secrets, the one of stage `k + 1` holds that stage's files. */
  lemma RingSecretEntries(cfg: SetupConfig, namespaceName: string, secrets: seq<Secret>, k: nat)
    requires |secrets| == 1 + cfg.count
    requires forall i :: 1 <= i <= cfg.count ==> secrets[i] == StageSecret(cfg, namespaceName, i)
    requires k < cfg.count
    requires '.' !in cfg.keyExt && '.' !in cfg.certExt
    requires cfg.keyExt != cfg.certExt && cfg.selfName != cfg.caName
    ensures var name := StageName(cfg.namePrefix, k + 1);
            && Lookup(secrets[k + 1].data, SelfKeyFile(cfg)) == Some(HelmTlsFile(cfg.tlsFolder, name, cfg.keyExt))
            && Lookup(secrets[k + 1].data, SelfCertFile(cfg)) == Some(HelmTlsFile(cfg.tlsFolder, name, cfg.certExt))
            && Lookup(secrets[k + 1].data, CaCertFile(cfg)) == Some(HelmTlsFile(cfg.tlsFolder, cfg.caName, cfg.certExt))
  {
    assert secrets[k + 1] == StageSecret(cfg, namespaceName, k + 1);
    StageSecretEntries(cfg, namespaceName, k + 1);
  }

  /** Among the generated stages and secrets, stage `k` mounts its own secret and reads the files inside the mount. */
  lemma RingMountsSecrets(cfg: SetupConfig, num: nat, namespaceName: string, image: string, stages: seq<Stage>,
                          secrets: seq<Secret>, k: nat)
    requires StagesOf(cfg, num, namespaceName, image, stages)
    requires |secrets| == 1 + cfg.count
    requires forall i :: 1 <= i <= cfg.count ==> secrets[i] == StageSecret(cfg, namespaceName, i)
    requires k < cfg.count
    ensures var d := stages[k].deployment;
            var s := secrets[k + 1];
            var env := ToMap(d.containers[0].env);
            var mount := d.containers[0].mounts[0];
            && d.containers[0].mounts == [mount] && d.volumes == [Volume(mount.name, s.metadata.name)]
            && s.metadata.namespace == Some(d.namespaceName)
            && "SECRET_KEY_TARGET" in env && env["SECRET_KEY_TARGET"] == mount.mountPath + "/" + SelfKeyFile(cfg)
            && "SECRET_CERT_TARGET" in env && env["SECRET_CERT_TARGET"] == mount.mountPath + "/" + SelfCertFile(cfg)
            && "SECRET_CA_CERT_TARGET" in env && env["SECRET_CA_CERT_TARGET"] == mount.mountPath + "/" + CaCertFile(cfg)
  {
    assert stages[k].deployment == StageDeployment(cfg, num, namespaceName, image, k + 1);
    assert secrets[k + 1] == StageSecret(cfg, namespaceName, k + 1);
    StageMountsItsSecret(cfg, num, namespaceName, image, k + 1);
  }

  /** Stage `i`'s deployment mounts stage `i`'s secret and is told the three file paths inside the mount. */
  lemma StageMountsItsSecret(cfg: SetupConfig, num: nat, namespaceName: string, image: string, i: nat)
    requires 1 <= i <= cfg.count
    ensures var d := StageDeployment(cfg, num, namespaceName, image, i);
            var s := StageSecret(cfg, namespaceName, i);
            var env := ToMap(d.containers[0].env);
            var mount := d.containers[0].mounts[0];
            && d.containers[0].mounts == [mount] && d.volumes == [Volume(mount.name, s.metadata.name)]
            && s.metadata.namespace == Some(d.namespaceName)
            && "SECRET_KEY_TARGET" in env && env["SECRET_KEY_TARGET"] == mount.mountPath + "/" + SelfKeyFile(cfg)
            && "SECRET_CERT_TARGET" in env && env["SECRET_CERT_TARGET"] == mount.mountPath + "/" + SelfCertFile(cfg)
            && "SECRET_CA_CERT_TARGET" in env && env["SECRET_CA_CERT_TARGET"] == mount.mountPath + "/" + CaCertFile(cfg)
  {
    DeploymentEnvironmentReads(cfg, i);
  }

  /** With three different file names, stage `i`'s secret holds its own key and certificate and the authority's certificate. */
  lemma StageSecretEntries(cfg: SetupConfig, namespaceName: string, i: nat)
    requires '.' !in cfg.keyExt && '.' !in cfg.certExt
    requires cfg.keyExt != cfg.certExt && cfg.selfName != cfg.caName
    ensures var s := StageSecret(cfg, namespaceName, i);
            var name := StageName(cfg.namePrefix, i);
            && Lookup(s.data, SelfKeyFile(cfg)) == Some(HelmTlsFile(cfg.tlsFolder, name, cfg.keyExt))
            && Lookup(s.data, SelfCertFile(cfg)) == Some(HelmTlsFile(cfg.tlsFolder, name, cfg.certExt))
            && Lookup(s.data, CaCertFile(cfg)) == Some(HelmTlsFile(cfg.tlsFolder, cfg.caName, cfg.certExt))
  {
    var name := StageName(cfg.namePrefix, i);
    var entries := [ KeyValue(SelfKeyFile(cfg), HelmTlsFile(cfg.tlsFolder, name, cfg.keyExt)),
                     KeyValue(SelfCertFile(cfg), HelmTlsFile(cfg.tlsFolder, name, cfg.certExt)),
                     KeyValue(CaCertFile(cfg), HelmTlsFile(cfg.tlsFolder, cfg.caName, cfg.certExt)) ];
    FileNamesDistinct(cfg.selfName, cfg.keyExt, cfg.selfName, cfg.certExt);
    FileNamesDistinct(cfg.selfName, cfg.keyExt, cfg.caName, cfg.certExt);
    FileNamesDistinct(cfg.selfName, cfg.certExt, cfg.caName, cfg.certExt);
    DictLiteralLookup(entries, 0);
    DictLiteralLookup(entries, 1);
    DictLiteralLookup(entries, 2);
  }

  /** With the index check `rest.py` makes, every stage starts, as its own index, sending to the next stage's service. */
  lemma EveryDeploymentStageStarts(cfg: SetupConfig, num: nat, image: string, k: nat)
    requires k < cfg.count
    ensures var c := CreateChart(cfg, num, image);
            var next := if k + 1 < cfg.count then k + 1 else 0;
            var r := ServerStartup(ToMap(c.stages[k].deployment.containers[0].env));
            && r.Ok?
            && r.value.stageIndex == k + 1 && r.value.stageCount == cfg.count
            && r.value.destAddress == c.stages[next].service.metadata.name
  {
    var c := CreateChart(cfg, num, image);
    RingStarts(cfg, num, c.namespace.metadata.name, image, c.stages, k);
  }

  /** Among the generated stages, stage `k` starts as itself and sends to the service of the next one. */
  lemma RingStarts(cfg: SetupConfig, num: nat, namespaceName: string, image: string, stages: seq<Stage>, k: nat)
    requires StagesOf(cfg, num, namespaceName, image, stages)
    requires k < cfg.count
    ensures var next := if k + 1 < cfg.count then k + 1 else 0;
            var r := ServerStartup(ToMap(stages[k].deployment.containers[0].env));
            && r.Ok?
            && r.value.stageIndex == k + 1 && r.value.stageCount == cfg.count
            && r.value.destAddress == stages[next].service.metadata.name
  {
    var next := if k + 1 < cfg.count then k + 1 else 0;
    assert stages[k].deployment == StageDeployment(cfg, num, namespaceName, image, k + 1);
    assert stages[next].service == StageService(cfg, num, namespaceName, next + 1);
    NextPosition(k, cfg.count);
    DeploymentStarts(cfg, num, namespaceName, image, k + 1);
  }

  /** Stage `i`'s deployment starts as stage `i` of the ring and sends to the service of the stage after it. */
  lemma DeploymentStarts(cfg: SetupConfig, num: nat, namespaceName: string, image: string, i: nat)
    requires 1 <= i <= cfg.count
    ensures var r := ServerStartup(ToMap(StageDeployment(cfg, num, namespaceName, image, i).containers[0].env));
            && r.Ok?
            && r.value.stageIndex == i && r.value.stageCount == cfg.count
            && r.value.destAddress == StageService(cfg, num, namespaceName, DestIndex(i, cfg.count).value).metadata.name
  {
    DeploymentEnvironmentReads(cfg, i);
    ServerReadsNumbers(ToMap(DeploymentVariables(cfg, i)), cfg.count, i, cfg.throttleInterval, cfg.upperBound);
  }

  /** With the start-up assert as written, the last stage's deployment refuses to start. */
  lemma LastDeploymentRefusedAsWritten(cfg: SetupConfig, num: nat, image: string)
    requires cfg.count >= 1
    ensures var c := CreateChart(cfg, num, image);
            ServerStartupAsWritten(ToMap(c.stages[cfg.count - 1].deployment.containers[0].env)).Err?
  {
    var c := CreateChart(cfg, num, image);
    RingLastRefused(cfg, num, c.namespace.metadata.name, image, c.stages);
  }

  /** Among the generated stages, the last one is refused by the start-up assert as written. */
  lemma RingLastRefused(cfg: SetupConfig, num: nat, namespaceName: string, image: string, stages: seq<Stage>)
    requires StagesOf(cfg, num, namespaceName, image, stages)
    requires cfg.count >= 1
    ensures ServerStartupAsWritten(ToMap(stages[cfg.count - 1].deployment.containers[0].env)).Err?
  {
    assert stages[cfg.count - 1].deployment == StageDeployment(cfg, num, namespaceName, image, cfg.count);
    DeploymentEnvironmentReads(cfg, cfg.count);
    ServerReadsNumbers(ToMap(DeploymentVariables(cfg, cfg.count)), cfg.count, cfg.count, cfg.throttleInterval,
                       cfg.upperBound);
  }

  /**
   * Every namespaced object lives in the chart's namespace, the admission policy applies there and
   * nowhere else, and every stage's deployment runs only the image the policy admits.
   */
  lemma ChartAdmitted(cfg: SetupConfig, num: nat, image: string, other: Namespace)
    ensures var c := CreateChart(cfg, num, image);
            var ns := c.namespace.metadata.name;
            && ns == UseCaseName(cfg, num) + "-namespace"
            && (forall k :: 0 <= k < |c.secrets| ==> c.secrets[k].metadata.namespace == Some(ns))
            && (forall k :: 0 <= k < |c.stages| ==>
                  c.stages[k].deployment.namespaceName == ns && c.stages[k].service.metadata.namespace == Some(ns)
                  && RunsOnly(c.stages[k].deployment, image))
            && Enclosed(c.policy.validations[0].expression, ImageRuleOpen, ImageRuleClose) == Some(image)
            && Selects(c.binding.namespaceSelector, NamespaceLabels(c.namespace))
            && (Selects(c.binding.namespaceSelector, NamespaceLabels(other)) <==> other.metadata.name == ns)
  {
    var c := CreateChart(cfg, num, image);
    RingInNamespace(cfg, num, c.namespace.metadata.name, image, c.stages, c.secrets);
    ImagePolicyAdmitsOnly(UseCaseName(cfg, num), image, c.namespace.metadata.name, other);
    ImagePolicyAdmitsOnly(UseCaseName(cfg, num), image, c.namespace.metadata.name, c.namespace);
  }

  /** The generated secrets and stages live in the namespace they are generated for, and every deployment runs `image`. */
  lemma RingInNamespace(cfg: SetupConfig, num: nat, namespaceName: string, image: string, stages: seq<Stage>,
                        secrets: seq<Secret>)
    requires StagesOf(cfg, num, namespaceName, image, stages)
    requires secrets == SecretTemplates(cfg, num, namespaceName)
    ensures forall k :: 0 <= k < |secrets| ==> secrets[k].metadata.namespace == Some(namespaceName)
    ensures forall k :: 0 <= k < |stages| ==>
              stages[k].deployment.namespaceName == namespaceName && stages[k].service.metadata.namespace == Some(namespaceName)
              && RunsOnly(stages[k].deployment, image)
  {
    forall k | 0 <= k < |secrets|
      ensures secrets[k].metadata.namespace == Some(namespaceName)
    {
      if k > 0 {
        assert secrets[k] == StageSecret(cfg, namespaceName, k);
      }
    }
    forall k | 0 <= k < |stages|
      ensures stages[k].deployment.namespaceName == namespaceName
      ensures stages[k].service.metadata.namespace == Some(namespaceName)
      ensures RunsOnly(stages[k].deployment, image)
    {
      assert stages[k] == Stage(StageDeployment(cfg, num, namespaceName, image, k + 1), StageService(cfg, num, namespaceName, k + 1));
    }
  }
}

=== FILE: issuance.dfy ===
/**
 * `create_key_cert`, present in four near-identical copies (the server image's start-up, the
 * top-level TLS generator, the first use case's generator and the image's test generator): which
 * name issues the certificate, which key signs it, which extensions it carries, and, in the
 * server image's copy, which files are written.
 */
module Issuance {
  import opened Wrappers
  import opened X509

  const SecondsPerDay: nat := 86400

  /** The issuing CA handed to `create_key_cert` as `issuer_key` and `issuer_cert`. */
  datatype Issuer = Issuer(key: PrivateKey, cert: Certificate)

  /** The flags `is_ca`, `is_key_encrypter` and `is_cert_signer`. */
  datatype Role = Role(isCa: bool, isKeyEncrypter: bool, isCertSigner: bool)

  /**
   * What the body needs from its caller: a certificate that is not a CA needs an issuer whose
   * certificate has a Subject Key Identifier (otherwise `issuer_cert.subject` or
   * `get_extension_for_class` raises).
   */
  predicate CanIssue(role: Role, issuer: Option<Issuer>) {
    role.isCa || (issuer.Some? && SubjectKeyId(issuer.value.cert).Some?)
  }

  function KeyUsageFor(role: Role): KeyUsageBits {
    KeyUsageBits(
      digitalSignature := true,
      contentCommitment := false,
      keyEncipherment := role.isKeyEncrypter,
      dataEncipherment := false,
      keyAgreement := false,
      keyCertSign := role.isCertSigner,
      cRLSign := true,
      encipherOnly := false,
      decipherOnly := false)
  }

  /** The extensions in the order they are added. */
  function ExtensionsFor(san: seq<GeneralName>, role: Role, key: PrivateKey, issuer: Option<Issuer>): seq<Extension>
    requires CanIssue(role, issuer)
  {
    [ Extension(false, SubjectAltName(san)),
      Extension(true, BasicConstraints(role.isCa, None)),
      Extension(true, KeyUsage(KeyUsageFor(role))),
      Extension(false, SubjectKeyIdentifier(KeyIdOf(PublicKeyOf(key)))) ]
    + (if role.isCa then []
       else [ Extension(false, ExtendedKeyUsage([ClientAuth, ServerAuth])),
              Extension(false, AuthorityKeyIdentifier(SubjectKeyId(issuer.value.cert).value)) ])
  }

  /** Each kind of extension is added once. */
  lemma ExtensionsUnique(san: seq<GeneralName>, role: Role, key: PrivateKey, issuer: Option<Issuer>)
    requires CanIssue(role, issuer)
    ensures UniqueExtensions(ExtensionsFor(san, role, key, issuer))
  {
    var exts := ExtensionsFor(san, role, key, issuer);
    var kinds := [SanKind, BasicConstraintsKind, KeyUsageKind, SkiKind, EkuKind, AkiKind];
    assert |exts| <= |kinds|;
    assert forall i :: 0 <= i < |exts| ==> KindOf(exts[i].value) == kinds[i];
  }

  /** The four extensions every certificate carries sit at the head of the list. */
  lemma CommonExtensionsLookup(san: seq<GeneralName>, role: Role, key: PrivateKey, issuer: Option<Issuer>)
    requires CanIssue(role, issuer)
    ensures var exts := ExtensionsFor(san, role, key, issuer);
            && FindExtension(exts, SanKind) == Some(exts[0])
            && FindExtension(exts, BasicConstraintsKind) == Some(exts[1])
            && FindExtension(exts, KeyUsageKind) == Some(exts[2])
            && FindExtension(exts, SkiKind) == Some(exts[3])
  {
    var exts := ExtensionsFor(san, role, key, issuer);
    assert KindOf(exts[0].value) == SanKind && KindOf(exts[1].value) == BasicConstraintsKind;
    assert KindOf(exts[2].value) == KeyUsageKind && KindOf(exts[3].value) == SkiKind;
    LeadingKindsFound(exts);
  }

  /** Extensions whose first four kinds are the common ones are found at those positions. */
  lemma LeadingKindsFound(exts: seq<Extension>)
    requires |exts| >= 4
    requires KindOf(exts[0].value) == SanKind && KindOf(exts[1].value) == BasicConstraintsKind
    requires KindOf(exts[2].value) == KeyUsageKind && KindOf(exts[3].value) == SkiKind
    ensures FindExtension(exts, SanKind) == Some(exts[0])
    ensures FindExtension(exts, BasicConstraintsKind) == Some(exts[1])
    ensures FindExtension(exts, KeyUsageKind) == Some(exts[2])
    ensures FindExtension(exts, SkiKind) == Some(exts[3])
  {
    FindFirstOfKind(exts, 1, BasicConstraintsKind);
    FindFirstOfKind(exts, 2, KeyUsageKind);
    FindFirstOfKind(exts, 3, SkiKind);
  }

  /** Extended Key Usage and Authority Key Identifier follow, for a certificate that is not a CA only. */
  lemma LeafExtensionsLookup(san: seq<GeneralName>, role: Role, key: PrivateKey, issuer: Option<Issuer>)
    requires CanIssue(role, issuer)
    ensures var exts := ExtensionsFor(san, role, key, issuer);
            && FindExtension(exts, EkuKind) == (if role.isCa then None else Some(exts[4]))
            && FindExtension(exts, AkiKind) == (if role.isCa then None else Some(exts[5]))
  {
    var exts := ExtensionsFor(san, role, key, issuer);
    if !role.isCa {
      FindFirstOfKind(exts, 4, EkuKind);
      FindFirstOfKind(exts, 5, AkiKind);
    }
  }

  /**
   * The certificate `create_key_cert` signs for `subject`, given the freshly generated `key`,
   * the random serial number and the clock reading `now` (in seconds).
   */
  function CreateKeyCert(subject: Name, san: seq<GeneralName>, certDays: int, key: PrivateKey, serial: nat, now: int,
                         issuer: Option<Issuer>, role: Role): (c: Certificate)
    requires CanIssue(role, issuer)
    ensures c.subject == subject && c.publicKey == PublicKeyOf(key) && c.serial == serial && c.hash == Sha512
    ensures c.notBefore == now && c.notAfter == now + certDays * SecondsPerDay
    ensures role.isCa ==> SelfSigned(c)
    ensures !role.isCa ==>
              && c.issuer == issuer.value.cert.subject
              && c.signer == issuer.value.key
              && AuthorityKeyId(c) == SubjectKeyId(issuer.value.cert)
    ensures UniqueExtensions(c.extensions)
    ensures ExtensionOf(c, SanKind) == Some(Extension(false, SubjectAltName(san)))
    ensures ExtensionOf(c, BasicConstraintsKind) == Some(Extension(true, BasicConstraints(role.isCa, None)))
    ensures ExtensionOf(c, KeyUsageKind).Some? && ExtensionOf(c, KeyUsageKind).value.critical
    ensures ExtensionOf(c, KeyUsageKind).value.value.KeyUsage?
    ensures var bits := ExtensionOf(c, KeyUsageKind).value.value.bits;
              && bits.digitalSignature && bits.cRLSign
              && bits.keyEncipherment == role.isKeyEncrypter
              && bits.keyCertSign == role.isCertSigner
              && !bits.contentCommitment && !bits.dataEncipherment && !bits.keyAgreement
              && !bits.encipherOnly && !bits.decipherOnly
    ensures SubjectKeyId(c) == Some(KeyIdOf(c.publicKey))
    ensures ExtensionOf(c, EkuKind) == (if role.isCa then None else Some(Extension(false, ExtendedKeyUsage([ClientAuth, ServerAuth]))))
    ensures ExtensionOf(c, AkiKind).Some? <==> !role.isCa
    ensures ExtensionOf(c, SkiKind).Some? && !ExtensionOf(c, SkiKind).value.critical
    ensures !role.isCa ==> !ExtensionOf(c, AkiKind).value.critical
    // The function does not enforce the rule of section 4.2.1.3 of RFC 5280 that keyCertSign
    // needs the cA bit; the profile holds exactly when the caller respects it.
    ensures ConformsToProfile(c) <==> (role.isCertSigner ==> role.isCa)
  {
    var exts := ExtensionsFor(san, role, key, issuer);
    var validUntil := now + certDays * SecondsPerDay;
    var c := if role.isCa then
      Certificate(subject, subject, PublicKeyOf(key), serial, now, validUntil, exts, key, Sha512)
    else
      Certificate(subject, issuer.value.cert.subject, PublicKeyOf(key), serial, now, validUntil, exts, issuer.value.key, Sha512);
    IssuedExtensions(c, san, role, key, issuer);
    IssuedProfile(c, role);
    c
  }

  /** The extensions of a certificate that carries those `create_key_cert` adds, looked up by kind. */
  lemma IssuedExtensions(c: Certificate, san: seq<GeneralName>, role: Role, key: PrivateKey, issuer: Option<Issuer>)
    requires CanIssue(role, issuer)
    requires c.extensions == ExtensionsFor(san, role, key, issuer) && c.publicKey == PublicKeyOf(key)
    ensures UniqueExtensions(c.extensions)
    ensures ExtensionOf(c, SanKind) == Some(Extension(false, SubjectAltName(san)))
    ensures ExtensionOf(c, BasicConstraintsKind) == Some(Extension(true, BasicConstraints(role.isCa, None)))
    ensures ExtensionOf(c, KeyUsageKind) == Some(Extension(true, KeyUsage(KeyUsageFor(role))))
    ensures ExtensionOf(c, SkiKind) == Some(Extension(false, SubjectKeyIdentifier(KeyIdOf(c.publicKey))))
    ensures SubjectKeyId(c) == Some(KeyIdOf(c.publicKey))
    ensures ExtensionOf(c, EkuKind) == (if role.isCa then None else Some(Extension(false, ExtendedKeyUsage([ClientAuth, ServerAuth]))))
    ensures ExtensionOf(c, AkiKind)
            == (if role.isCa then None else Some(Extension(false, AuthorityKeyIdentifier(SubjectKeyId(issuer.value.cert).value))))
    ensures !role.isCa ==> AuthorityKeyId(c) == SubjectKeyId(issuer.value.cert)
  {
    ExtensionsUnique(san, role, key, issuer);
    ExtensionsLookup(san, role, key, issuer);
  }

  /**
   * A certificate carrying those extensions, self-signed when it is a CA, conforms to the
   * profile exactly when it asserts keyCertSign only as a CA.
   */
  lemma IssuedProfile(c: Certificate, role: Role)
    requires UniqueExtensions(c.extensions)
    requires ExtensionOf(c, SanKind).Some? && !ExtensionOf(c, SanKind).value.critical
    requires ExtensionOf(c, BasicConstraintsKind) == Some(Extension(true, BasicConstraints(role.isCa, None)))
    requires ExtensionOf(c, KeyUsageKind) == Some(Extension(true, KeyUsage(KeyUsageFor(role))))
    requires ExtensionOf(c, SkiKind) == Some(Extension(false, SubjectKeyIdentifier(KeyIdOf(c.publicKey))))
    requires role.isCa ==> SelfSigned(c)
    requires !role.isCa ==> ExtensionOf(c, AkiKind).Some? && !ExtensionOf(c, AkiKind).value.critical
    ensures ConformsToProfile(c) <==> (role.isCertSigner ==> role.isCa)
  {
    assert IsCaCertificate(c) == role.isCa;
  }

  /** What a lookup of each kind finds in the extensions `create_key_cert` adds. */
  lemma ExtensionsLookup(san: seq<GeneralName>, role: Role, key: PrivateKey, issuer: Option<Issuer>)
    requires CanIssue(role, issuer)
    ensures var exts := ExtensionsFor(san, role, key, issuer);
            && FindExtension(exts, SanKind) == Some(Extension(false, SubjectAltName(san)))
            && FindExtension(exts, BasicConstraintsKind) == Some(Extension(true, BasicConstraints(role.isCa, None)))
            && FindExtension(exts, KeyUsageKind) == Some(Extension(true, KeyUsage(KeyUsageFor(role))))
            && FindExtension(exts, SkiKind) == Some(Extension(false, SubjectKeyIdentifier(KeyIdOf(PublicKeyOf(key)))))
            && FindExtension(exts, EkuKind)
               == (if role.isCa then None else Some(Extension(false, ExtendedKeyUsage([ClientAuth, ServerAuth]))))
            && FindExtension(exts, AkiKind)
               == (if role.isCa then None else Some(Extension(false, AuthorityKeyIdentifier(SubjectKeyId(issuer.value.cert).value))))
  {
    CommonExtensionsLookup(san, role, key, issuer);
    LeafExtensionsLookup(san, role, key, issuer);
  }

  /**
   * A certificate issued under a CA certificate that was itself issued as a certificate-signing
   * CA is linked to it: issuer name, signing key and key identifiers all agree.
   */
  lemma LeafChainsToIssuer(caSubject: Name, caSan: seq<GeneralName>, caDays: int, caKey: PrivateKey, caSerial: nat, caNow: int,
                           subject: Name, san: seq<GeneralName>, certDays: int, key: PrivateKey, serial: nat, now: int,
                           isKeyEncrypter: bool)
    ensures var ca := CreateKeyCert(caSubject, caSan, caDays, caKey, caSerial, caNow, None, Role(true, false, true));
            var leaf := CreateKeyCert(subject, san, certDays, key, serial, now, Some(Issuer(caKey, ca)), Role(false, isKeyEncrypter, false));
            && ConformsToProfile(ca) && SelfSigned(ca)
            && ConformsToProfile(leaf)
            && ChainLink(leaf, ca)
  {
  }

  /** The Subject Alternative Name of the server image: every name as DNS, then every address as IP. */
  function ServerSan(names: seq<string>, ips: seq<string>): (san: seq<GeneralName>)
    ensures |san| == |names| + |ips|
    ensures forall i :: 0 <= i < |names| ==> san[i] == DnsName(names[i])
    ensures forall i :: 0 <= i < |ips| ==> san[|names| + i] == IpAddress(ips[i])
  {
    seq(|names|, i requires 0 <= i < |names| => DnsName(names[i]))
    + seq(|ips|, i requires 0 <= i < |ips| => IpAddress(ips[i]))
  }

  /** The Subject Alternative Name of the generators: every alternative name as a DNS name, in order. */
  function DnsSan(altNames: seq<string>): (san: seq<GeneralName>)
    ensures |san| == |altNames|
    ensures forall i :: 0 <= i < |altNames| ==> san[i] == DnsName(altNames[i])
  {
    seq(|altNames|, i requires 0 <= i < |altNames| => DnsName(altNames[i]))
  }

  /** Contents of a written file: PEM blocks and the newline between them. */
  datatype PemPart = KeyPem(key: PrivateKey) | CertPem(cert: Certificate) | Newline

  datatype Artifact = Artifact(path: string, content: seq<PemPart>)

  /** `f'{filename}.{ext}'`. */
  function FilePath(filename: string, ext: string): string {
    filename + "." + ext
  }

  /**
   * The files the server image's `create_key_cert` writes: key, certificate, the certificate
   * followed by the key, and for a certificate that is not a CA the certificate followed by the
   * issuer's certificate under `filename-ca_suffix`.
   */
  function KeyCertArtifacts(filename: string, keyExt: string, certExt: string, pemExt: string, caSuffix: string,
                            key: PrivateKey, cert: Certificate, isCa: bool, issuer: Option<Issuer>): (files: seq<Artifact>)
    requires isCa || issuer.Some?
    ensures |files| == (if isCa then 3 else 4)
    ensures files[2].content == [CertPem(cert), Newline, KeyPem(key)]
    ensures !isCa ==> files[3].content == [CertPem(cert), Newline, CertPem(issuer.value.cert)]
  {
    [ Artifact(FilePath(filename, keyExt), [KeyPem(key)]),
      Artifact(FilePath(filename, certExt), [CertPem(cert)]),
      Artifact(FilePath(filename, pemExt), [CertPem(cert), Newline, KeyPem(key)]) ]
    + (if isCa then []
       else [Artifact(FilePath(filename + "-" + caSuffix, certExt), [CertPem(cert), Newline, CertPem(issuer.value.cert)])])
  }

  lemma FilePathsDiffer(filename: string, ext: string, ext': string)
    requires ext != ext'
    ensures FilePath(filename, ext) != FilePath(filename, ext')
  {
    assert FilePath(filename, ext)[|filename| + 1..] == ext;
    assert FilePath(filename, ext')[|filename| + 1..] == ext';
  }

  lemma ChainPathDiffers(filename: string, caSuffix: string, ext: string, ext': string)
    ensures FilePath(filename + "-" + caSuffix, ext) != FilePath(filename, ext')
  {
    assert FilePath(filename + "-" + caSuffix, ext)[|filename|] == '-';
    assert FilePath(filename, ext')[|filename|] == '.';
  }

  /**
   * With three distinct extensions no written file overwrites another; the key, the certificate,
   * the certificate followed by the key, and for a certificate that is not a CA the certificate
   * followed by its issuer's certificate each land in their own file, and the chain file exists
   * exactly for a certificate that is not a CA.
   */
  lemma ArtifactsAreSeparateFiles(filename: string, keyExt: string, certExt: string, pemExt: string, caSuffix: string,
                                  key: PrivateKey, cert: Certificate, isCa: bool, issuer: Option<Issuer>)
    requires isCa || issuer.Some?
    requires keyExt != certExt && certExt != pemExt && keyExt != pemExt
    ensures var files := KeyCertArtifacts(filename, keyExt, certExt, pemExt, caSuffix, key, cert, isCa, issuer);
            && (forall i, j :: 0 <= i < j < |files| ==> files[i].path != files[j].path)
            && (forall i :: 0 <= i < |files| ==> files[i].content[0] in {KeyPem(key), CertPem(cert)})
            && files[0] == Artifact(FilePath(filename, keyExt), [KeyPem(key)])
            && files[1] == Artifact(FilePath(filename, certExt), [CertPem(cert)])
            && files[2] == Artifact(FilePath(filename, pemExt), [CertPem(cert), Newline, KeyPem(key)])
            && (!isCa ==>
                  files[3] == Artifact(FilePath(filename + "-" + caSuffix, certExt),
                                       [CertPem(cert), Newline, CertPem(issuer.value.cert)]))
            && ((exists i :: 0 <= i < |files| && files[i].path == FilePath(filename + "-" + caSuffix, certExt)) <==> !isCa)
  {
    var files := KeyCertArtifacts(filename, keyExt, certExt, pemExt, caSuffix, key, cert, isCa, issuer);
    FilePathsDiffer(filename, keyExt, certExt);
    FilePathsDiffer(filename, certExt, pemExt);
    FilePathsDiffer(filename, keyExt, pemExt);
    ChainPathDiffers(filename, caSuffix, certExt, keyExt);
    ChainPathDiffers(filename, caSuffix, certExt, certExt);
    ChainPathDiffers(filename, caSuffix, certExt, pemExt);
    if !isCa {
      assert files[3].path == FilePath(filename + "-" + caSuffix, certExt);
    }
  }
}

=== FILE: json_value.dfy ===
/**
 * Values loaded from the JSON configuration files, and the navigation the repository performs on
 * them: indexing a dictionary by key, following a sequence of keys, and overwriting the value at
 * the end of such a sequence.
 *
 * A Python dictionary is an insertion-ordered mapping with unique keys; it is modelled as an
 * ordered sequence of fields in which lookup and update use the first field carrying the key.
 */
module JsonValue {
  import opened Wrappers

  datatype Json =
    | Null
    | Bool(b: bool)
    | Num(n: int)
    | Float(x: real)  // a number with a fraction or an exponent, which Python loads as a `float`
    | Str(s: string)
    | Arr(items: seq<Json>)
    | Obj(fields: seq<Field>)

  datatype Field = Field(key: string, val: Json)

  /**
   * Position of the field that `d[k]` reads, or `None` when `d[k]` raises `KeyError`. Objects are
   * taken to have distinct keys: for a repeated key Python's `json` keeps the last value, while
   * this reads the first.
   */
  function FindKey(fs: seq<Field>, k: string): (r: Option<nat>)
    ensures r.Some? ==> r.value < |fs| && fs[r.value].key == k
    ensures r.Some? ==> forall j :: 0 <= j < r.value ==> fs[j].key != k
    ensures r.None? <==> forall j :: 0 <= j < |fs| ==> fs[j].key != k
    decreases |fs|
  {
    if |fs| == 0 then None
    else if fs[0].key == k then Some(0)
    else
      match FindKey(fs[1..], k)
      case None => None
      case Some(i) => Some(i + 1)
  }

  /** Keys of a field sequence, in order. */
  function Keys(fs: seq<Field>): (ks: seq<string>)
    ensures |ks| == |fs|
    ensures forall i :: 0 <= i < |fs| ==> ks[i] == fs[i].key
  {
    seq(|fs|, i requires 0 <= i < |fs| => fs[i].key)
  }

  lemma {:induction false} FindKeyDependsOnKeysOnly(fs: seq<Field>, gs: seq<Field>, k: string)
    requires Keys(fs) == Keys(gs)
    ensures FindKey(fs, k) == FindKey(gs, k)
    decreases |fs|
  {
    if |fs| > 0 && fs[0].key != k {
      assert Keys(fs[1..]) == Keys(fs)[1..];
      assert Keys(gs[1..]) == Keys(gs)[1..];
      FindKeyDependsOnKeysOnly(fs[1..], gs[1..], k);
    }
  }

  /**
   * `c[ks[0]][ks[1]]...`: `None` as soon as a key is missing (`KeyError`) or a value that is not
   * a dictionary is indexed (`TypeError`).
   */
  function Walk(c: Json, ks: seq<string>): Option<Json>
    decreases |ks|
  {
    if |ks| == 0 then Some(c)
    else
      match c
      case Obj(fs) =>
        (match FindKey(fs, ks[0])
         case None => None
         case Some(i) => Walk(fs[i].val, ks[1..]))
      case _ => None
  }

  /** `ks` leads to a value that is not a dictionary. */
  predicate IsLeafAddress(c: Json, ks: seq<string>) {
    Walk(c, ks).Some? && !Walk(c, ks).value.Obj?
  }

  /**
   * `parent[ks[|ks|-1]] = v`, where `parent` is reached by the other keys, performed only when
   * every key, the last one included, is present; otherwise the value is returned unchanged.
   */
  function WriteAt(c: Json, ks: seq<string>, v: Json): Json
    requires |ks| > 0
    decreases |ks|
  {
    match c
    case Obj(fs) =>
      (match FindKey(fs, ks[0])
       case None => c
       case Some(i) =>
         if |ks| == 1 then Obj(fs[i := Field(ks[0], v)])
         else Obj(fs[i := Field(ks[0], WriteAt(fs[i].val, ks[1..], v))]))
    case _ => c
  }

  /** A write along a path that does not exist changes nothing. */
  lemma {:induction false} WriteAtMissingPath(c: Json, ks: seq<string>, v: Json)
    requires |ks| > 0
    requires Walk(c, ks).None?
    ensures WriteAt(c, ks, v) == c
    decreases |ks|
  {
    if c.Obj? {
      var fs := c.fields;
      match FindKey(fs, ks[0])
      case None =>
      case Some(i) =>
        WriteAtMissingPath(fs[i].val, ks[1..], v);
        assert fs[i := Field(ks[0], fs[i].val)] == fs;
    }
  }

  /** After a write along an existing path, the path leads to the written value. */
  lemma {:induction false} WalkAfterWrite(c: Json, ks: seq<string>, v: Json)
    requires |ks| > 0
    requires Walk(c, ks).Some?
    ensures Walk(WriteAt(c, ks, v), ks) == Some(v)
    decreases |ks|
  {
    var fs := c.fields;
    var i := FindKey(fs, ks[0]).value;
    if |ks| == 1 {
      var fs' := fs[i := Field(ks[0], v)];
      FindKeyDependsOnKeysOnly(fs, fs', ks[0]);
    } else {
      var fs' := fs[i := Field(ks[0], WriteAt(fs[i].val, ks[1..], v))];
      FindKeyDependsOnKeysOnly(fs, fs', ks[0]);
      WalkAfterWrite(fs[i].val, ks[1..], v);
    }
  }

  /** Two key paths that agree up to position `n` and differ there. */
  predicate DivergeAt(ks: seq<string>, ks': seq<string>, n: nat) {
    n < |ks| && n < |ks'| && ks[..n] == ks'[..n] && ks[n] != ks'[n]
  }

  /** A walk from a dictionary continues in the field its first key selects. */
  lemma WalkThroughField(fs: seq<Field>, ks: seq<string>, j: nat)
    requires |ks| > 0 && FindKey(fs, ks[0]) == Some(j)
    ensures Walk(Obj(fs), ks) == Walk(fs[j].val, ks[1..])
  {
  }

  /** Paths that branch off below their first key share that key, and their tails branch off one level higher. */
  lemma DivergeLater(ks: seq<string>, ks': seq<string>, n: nat)
    requires DivergeAt(ks, ks', n) && n > 0
    ensures ks[0] == ks'[0] && DivergeAt(ks[1..], ks'[1..], n - 1)
  {
    assert ks[0] == ks[..n][0] && ks'[0] == ks'[..n][0];
    assert ks[1..][..n - 1] == ks[..n][1..];
    assert ks'[1..][..n - 1] == ks'[..n][1..];
  }

  /** The dictionary a write along an existing first key produces. */
  lemma WriteAtUnfold(fs: seq<Field>, ks: seq<string>, v: Json, i: nat)
    requires |ks| > 0 && FindKey(fs, ks[0]) == Some(i)
    ensures WriteAt(Obj(fs), ks, v)
            == Obj(fs[i := Field(ks[0], if |ks| == 1 then v else WriteAt(fs[i].val, ks[1..], v))])
  {
  }

  /** A write leaves every path that branches off the written one untouched. */
  lemma {:induction false} WalkAfterWriteElsewhere(c: Json, ks: seq<string>, ks': seq<string>, n: nat, v: Json)
    requires DivergeAt(ks, ks', n)
    ensures Walk(WriteAt(c, ks, v), ks') == Walk(c, ks')
    decreases n
  {
    if c.Obj? && FindKey(c.fields, ks[0]).Some? {
      var fs := c.fields;
      var i := FindKey(fs, ks[0]).value;
      var child := if |ks| == 1 then v else WriteAt(fs[i].val, ks[1..], v);
      var fs' := fs[i := Field(ks[0], child)];
      WriteAtUnfold(fs, ks, v, i);
      FindKeyDependsOnKeysOnly(fs, fs', ks'[0]);
      match FindKey(fs, ks'[0])
      case None =>
      case Some(j) =>
        WalkThroughField(fs, ks', j);
        WalkThroughField(fs', ks', j);
        if n > 0 {
          DivergeLater(ks, ks', n);
          WalkAfterWriteElsewhere(fs[i].val, ks[1..], ks'[1..], n - 1, v);
        } else {
          assert fs'[j] == fs[j];
        }
    }
  }

  /** Length of the longest common prefix of two key paths. */
  function CommonPrefix(ks: seq<string>, ks': seq<string>): (n: nat)
    ensures n <= |ks| && n <= |ks'| && ks[..n] == ks'[..n]
    ensures n < |ks| && n < |ks'| ==> ks[n] != ks'[n]
    decreases |ks|
  {
    if |ks| == 0 || |ks'| == 0 || ks[0] != ks'[0] then 0
    else
      var n := CommonPrefix(ks[1..], ks'[1..]);
      assert ks[..n + 1] == [ks[0]] + ks[1..][..n];
      assert ks'[..n + 1] == [ks'[0]] + ks'[1..][..n];
      n + 1
  }

  /** Nothing lies below a value that is not a dictionary. */
  lemma {:induction false} NothingBelowLeaf(c: Json, ks: seq<string>, ks': seq<string>)
    requires IsLeafAddress(c, ks)
    requires |ks| < |ks'| && ks'[..|ks|] == ks
    ensures Walk(c, ks').None?
    decreases |ks|
  {
    if |ks| > 0 {
      var i := FindKey(c.fields, ks[0]).value;
      assert ks'[1..][..|ks| - 1] == ks[1..];
      NothingBelowLeaf(c.fields[i].val, ks[1..], ks'[1..]);
    }
  }

  /** Two different paths that both end at non-dictionary values branch off somewhere. */
  lemma DistinctLeafAddressesDiverge(c: Json, ks: seq<string>, ks': seq<string>)
    requires IsLeafAddress(c, ks) && IsLeafAddress(c, ks') && ks != ks'
    ensures DivergeAt(ks, ks', CommonPrefix(ks, ks'))
  {
    var n := CommonPrefix(ks, ks');
    if n == |ks| && |ks| < |ks'| {
      NothingBelowLeaf(c, ks, ks');
    } else if n == |ks'| && |ks'| < |ks| {
      NothingBelowLeaf(c, ks', ks);
    }
  }

  /**
   * `rt` still has every dictionary of `d`, with the same keys in the same order; only values
   * that are not dictionaries in `d` may have been replaced.
   */
  ghost predicate SameShape(rt: Json, d: Json)
    decreases d
  {
    match d
    case Obj(fs) =>
      && rt.Obj?
      && Keys(rt.fields) == Keys(fs)
      && forall i :: 0 <= i < |fs| ==> SameShape(rt.fields[i].val, fs[i].val)
    case _ => true
  }

  lemma {:induction false} SameShapeReflexive(d: Json)
    ensures SameShape(d, d)
    decreases d
  {
    if d.Obj? {
      forall i | 0 <= i < |d.fields|
        ensures SameShape(d.fields[i].val, d.fields[i].val)
      {
        SameShapeReflexive(d.fields[i].val);
      }
    }
  }

  /** A path that exists in `d` also exists in anything of the same shape. */
  lemma {:induction false} SameShapeWalk(rt: Json, d: Json, ks: seq<string>)
    requires SameShape(rt, d) && Walk(d, ks).Some?
    ensures Walk(rt, ks).Some?
    ensures SameShape(Walk(rt, ks).value, Walk(d, ks).value)
    decreases |ks|
  {
    if |ks| > 0 {
      FindKeyDependsOnKeysOnly(rt.fields, d.fields, ks[0]);
      var i := FindKey(d.fields, ks[0]).value;
      SameShapeWalk(rt.fields[i].val, d.fields[i].val, ks[1..]);
    }
  }

  /** Overwriting a value that is not a dictionary in `d` keeps the shape of `d`. */
  lemma {:induction false} SameShapeWrite(rt: Json, d: Json, ks: seq<string>, v: Json)
    requires |ks| > 0
    requires SameShape(rt, d) && IsLeafAddress(d, ks)
    ensures SameShape(WriteAt(rt, ks, v), d)
    decreases |ks|
  {
    FindKeyDependsOnKeysOnly(rt.fields, d.fields, ks[0]);
    var i := FindKey(d.fields, ks[0]).value;
    var fs := rt.fields;
    var child := if |ks| == 1 then v else WriteAt(fs[i].val, ks[1..], v);
    if |ks| > 1 {
      SameShapeWrite(fs[i].val, d.fields[i].val, ks[1..], v);
    }
    var fs' := fs[i := Field(ks[0], child)];
    assert Keys(fs') == Keys(fs);
    forall j | 0 <= j < |d.fields|
      ensures SameShape(fs'[j].val, d.fields[j].val)
    {
      if j != i {
        assert fs'[j] == fs[j];
      } else if |ks| == 1 {
        assert Walk(d.fields[i].val, ks[1..]) == Walk(d, ks);
      }
    }
  }
}

=== FILE: kube_utils.dfy ===
/**
 * Builders of Kubernetes objects shared by the Helm chart generators: a namespace with its
 * pod-security labels, a validating admission policy and its binding, secrets, services, ingresses
 * and network policies. Each object is a typed record holding what the generated YAML holds.
 *
 * Two fields of the Kubernetes API are written under a key the API does not define; the records
 * keep that key (`tlsField`, `peersField`) so that the effect of the misspelling can be stated,
 * and `EffectiveTls` and `RulePeers` read an object the way the API server does.
 */
module KubeUtils {
  import opened Wrappers

  datatype KeyValue = KeyValue(key: string, value: string)

  /** `metadata`: the name, the namespace (absent for cluster-scoped objects) and the optional labels. */
  datatype Metadata = Metadata(name: string, namespace: Option<string>, labels: Option<seq<KeyValue>>)

  function Lookup(kvs: seq<KeyValue>, key: string): (r: Option<string>)
    ensures r.Some? <==> exists i :: 0 <= i < |kvs| && kvs[i].key == key
    ensures r.Some? ==> exists i :: 0 <= i < |kvs| && kvs[i] == KeyValue(key, r.value)
    decreases |kvs|
  {
    if |kvs| == 0 then None
    else if kvs[0].key == key then Some(kvs[0].value)
    else
      var r := Lookup(kvs[1..], key);
      assert forall i :: 0 <= i < |kvs[1..]| ==> kvs[1..][i] == kvs[i + 1];
      r
  }

  /** Assigning `d[key] = value` in a Python dict: an existing key keeps its place and takes the new value. */
  function PutKey(d: seq<KeyValue>, key: string, value: string): seq<KeyValue>
    decreases |d|
  {
    if |d| == 0 then [KeyValue(key, value)]
    else if d[0].key == key then [KeyValue(key, value)] + d[1..]
    else [d[0]] + PutKey(d[1..], key, value)
  }

  /** After the assignment the key reads the new value and every other key what it read before. */
  lemma {:induction false} PutKeyLookup(d: seq<KeyValue>, key: string, value: string, k: string)
    ensures Lookup(PutKey(d, key, value), k) == if k == key then Some(value) else Lookup(d, k)
    decreases |d|
  {
    if |d| > 0 && d[0].key != key {
      PutKeyLookup(d[1..], key, value, k);
      assert ([d[0]] + PutKey(d[1..], key, value))[1..] == PutKey(d[1..], key, value);
    } else if |d| > 0 {
      assert ([KeyValue(key, value)] + d[1..])[1..] == d[1..];
    }
  }

  /** A Python dict literal `{k1: v1, k2: v2, ...}`: entries assigned in order, so a repeated key keeps the last value. */
  function DictLiteral(kvs: seq<KeyValue>): seq<KeyValue>
    decreases |kvs|
  {
    if |kvs| == 0 then []
    else PutKey(DictLiteral(kvs[..|kvs| - 1]), kvs[|kvs| - 1].key, kvs[|kvs| - 1].value)
  }

  /** An entry of a dict literal that no later entry repeats is read back with its own value. */
  lemma {:induction false} DictLiteralLookup(kvs: seq<KeyValue>, p: nat)
    requires p < |kvs|
    requires forall q :: p < q < |kvs| ==> kvs[q].key != kvs[p].key
    ensures Lookup(DictLiteral(kvs), kvs[p].key) == Some(kvs[p].value)
    decreases |kvs|
  {
    var init := kvs[..|kvs| - 1];
    var last := kvs[|kvs| - 1];
    PutKeyLookup(DictLiteral(init), last.key, last.value, kvs[p].key);
    if p < |kvs| - 1 {
      assert forall q :: p < q < |init| ==> init[q] == kvs[q];
      DictLiteralLookup(init, p);
    }
  }

  /** A `matchLabels` selector: every label it names carries the same value among the object's labels. */
  predicate MatchLabels(selector: seq<KeyValue>, labels: seq<KeyValue>) {
    forall i :: 0 <= i < |selector| ==> Lookup(labels, selector[i].key) == Some(selector[i].value)
  }

  // ---------------------------------------------------------------------------------------------
  // Namespace

  const DefaultLevel := "privileged"
  const DefaultVersion := "v1.34"

  const EnforceKey := "pod-security.kubernetes.io/enforce"
  const EnforceVersionKey := "pod-security.kubernetes.io/enforce-version"
  const AuditKey := "pod-security.kubernetes.io/audit"
  const AuditVersionKey := "pod-security.kubernetes.io/audit-version"
  const WarnKey := "pod-security.kubernetes.io/warn"
  const WarnVersionKey := "pod-security.kubernetes.io/warn-version"

  const PodSecurityKeys: seq<string> :=
    [EnforceKey, EnforceVersionKey, AuditKey, AuditVersionKey, WarnKey, WarnVersionKey]

  /** The label Kubernetes puts on every namespace, holding its name. */
  const MetadataNameKey := "kubernetes.io/metadata.name"

  datatype Namespace = Namespace(metadata: Metadata)

  /** The pod-security levels and versions a namespace asks for; `None` takes the general one. */
  datatype PodSecurity = PodSecurity(
    enforceLevel: Option<string>, enforceVersion: Option<string>,
    auditLevel: Option<string>, auditVersion: Option<string>,
    warnLevel: Option<string>, warnVersion: Option<string>)

  const NoOverrides := PodSecurity(None, None, None, None, None, None)

  /** `create_namespace`. */
  function CreateNamespace(name: string, generalLevel: string, generalVersion: string, ps: PodSecurity): (ns: Namespace)
    ensures ns.metadata.name == name + "-namespace" && ns.metadata.namespace.None?
    ensures ns.metadata.labels.Some?
    ensures |ns.metadata.labels.value| == 6
    ensures forall i :: 0 <= i < 6 ==> ns.metadata.labels.value[i].key == PodSecurityKeys[i]
  {
    var labels := [
      KeyValue(EnforceKey, ps.enforceLevel.GetOr(generalLevel)),
      KeyValue(EnforceVersionKey, ps.enforceVersion.GetOr(generalVersion)),
      KeyValue(AuditKey, ps.auditLevel.GetOr(generalLevel)),
      KeyValue(AuditVersionKey, ps.auditVersion.GetOr(generalVersion)),
      KeyValue(WarnKey, ps.warnLevel.GetOr(generalLevel)),
      KeyValue(WarnVersionKey, ps.warnVersion.GetOr(generalVersion))];
    Namespace(Metadata(name + "-namespace", None, Some(labels)))
  }

  /** The labels a namespace carries once created: the automatic name label, then its own. */
  function NamespaceLabels(ns: Namespace): seq<KeyValue> {
    [KeyValue(MetadataNameKey, ns.metadata.name)] + ns.metadata.labels.GetOr([])
  }

  /**
   * Each pod-security mode reads the level and version it was given explicitly, and the general
   * level and version otherwise; the automatic label reads the namespace's name.
   */
  lemma NamespaceLevels(name: string, generalLevel: string, generalVersion: string, ps: PodSecurity)
    ensures
      var labels := NamespaceLabels(CreateNamespace(name, generalLevel, generalVersion, ps));
      && Lookup(labels, MetadataNameKey) == Some(name + "-namespace")
      && Lookup(labels, EnforceKey) == Some(if ps.enforceLevel.Some? then ps.enforceLevel.value else generalLevel)
      && Lookup(labels, EnforceVersionKey) == Some(if ps.enforceVersion.Some? then ps.enforceVersion.value else generalVersion)
      && Lookup(labels, AuditKey) == Some(if ps.auditLevel.Some? then ps.auditLevel.value else generalLevel)
      && Lookup(labels, AuditVersionKey) == Some(if ps.auditVersion.Some? then ps.auditVersion.value else generalVersion)
      && Lookup(labels, WarnKey) == Some(if ps.warnLevel.Some? then ps.warnLevel.value else generalLevel)
      && Lookup(labels, WarnVersionKey) == Some(if ps.warnVersion.Some? then ps.warnVersion.value else generalVersion)
  {
    var labels := NamespaceLabels(CreateNamespace(name, generalLevel, generalVersion, ps));
    LabelKeysDistinct();
    LookupEach(labels, 0);
    LookupEach(labels, 1);
    LookupEach(labels, 2);
    LookupEach(labels, 3);
    LookupEach(labels, 4);
    LookupEach(labels, 5);
    LookupEach(labels, 6);
  }

  /** Entry `i` is read when no entry before it carries its key. */
  lemma LookupEach(kvs: seq<KeyValue>, i: nat)
    requires i < |kvs|
    requires forall j, k :: 0 <= j < k < |kvs| ==> kvs[j].key != kvs[k].key
    ensures Lookup(kvs, kvs[i].key) == Some(kvs[i].value)
  {
    LookupAt(kvs, i, kvs[i].key);
  }

  /** The seven labels of a created namespace carry seven different keys. */
  lemma LabelKeysDistinct()
    ensures forall name, gl, gv, ps ::
      var labels := NamespaceLabels(CreateNamespace(name, gl, gv, ps));
      forall j, k :: 0 <= j < k < |labels| ==> labels[j].key != labels[k].key
  {
    LabelKeyLengths();
  }

  /** The seven label keys of a namespace have different lengths, hence are different. */
  lemma LabelKeyLengths()
    ensures |MetadataNameKey| == 27
    ensures |EnforceKey| == 34 && |EnforceVersionKey| == 42
    ensures |AuditKey| == 32 && |AuditVersionKey| == 40
    ensures |WarnKey| == 31 && |WarnVersionKey| == 39
  {
  }

  /** The first entry with the key is the one read. */
  lemma {:induction false} LookupAt(kvs: seq<KeyValue>, i: nat, key: string)
    requires i < |kvs| && kvs[i].key == key
    requires forall j :: 0 <= j < i ==> kvs[j].key != key
    ensures Lookup(kvs, key) == Some(kvs[i].value)
    decreases i
  {
    if i > 0 {
      LookupAt(kvs[1..], i - 1, key);
    }
  }

  // ---------------------------------------------------------------------------------------------
  // Label selectors

  /** One requirement of a label selector (`matchExpressions`). */
  datatype MatchExpression = MatchExpression(key: string, operator: string, values: seq<string>)

  /** Whether a set of labels meets one requirement, for the four operators of the Kubernetes API. */
  predicate Meets(labels: seq<KeyValue>, e: MatchExpression) {
    match Lookup(labels, e.key)
    case Some(v) =>
      (e.operator == "In" && v in e.values) || (e.operator == "NotIn" && v !in e.values) || e.operator == "Exists"
    case None => e.operator == "NotIn" || e.operator == "DoesNotExist"
  }

  /** A selector matches when every requirement is met. */
  predicate Selects(exprs: seq<MatchExpression>, labels: seq<KeyValue>) {
    forall i :: 0 <= i < |exprs| ==> Meets(labels, exprs[i])
  }

  /** The selector both the policy binding and the network policy use: the namespace called `namespaceName`. */
  function SameNamespaceSelector(namespaceName: string): seq<MatchExpression> {
    [MatchExpression(MetadataNameKey, "In", [namespaceName])]
  }

  /** The selector matches a namespace exactly when the namespace has that name. */
  lemma SameNamespaceSelectorSelects(namespaceName: string, ns: Namespace)
    ensures Selects(SameNamespaceSelector(namespaceName), NamespaceLabels(ns)) <==> ns.metadata.name == namespaceName
  {
    assert Lookup(NamespaceLabels(ns), MetadataNameKey) == Some(ns.metadata.name);
    assert Meets(NamespaceLabels(ns), SameNamespaceSelector(namespaceName)[0]) <==> ns.metadata.name == namespaceName;
  }

  // ---------------------------------------------------------------------------------------------
  // Validating admission policy

  /** The policy; its match constraints and validations are passed through from the caller. */
  datatype AdmissionPolicy<C, V> = AdmissionPolicy(metadata: Metadata, failurePolicy: string, matchConstraints: C, validations: V)

  datatype PolicyBinding = PolicyBinding(
    metadata: Metadata, policyName: string, validationActions: seq<string>, namespaceSelector: seq<MatchExpression>)

  /** `create_validating_admission_policy`: the policy and the binding that applies it to one namespace. */
  function CreateValidatingAdmissionPolicy<C, V>(name: string, failurePolicy: string, constraints: C, validations: V,
                                                 actions: seq<string>, namespaceName: string): (r: (AdmissionPolicy<C, V>, PolicyBinding))
    ensures r.0.metadata.name == name + "-admission-policy"
    ensures r.1.metadata.name == name + "-admission-policy-binding"
    ensures r.1.policyName == r.0.metadata.name
    ensures r.0.failurePolicy == failurePolicy && r.0.matchConstraints == constraints && r.0.validations == validations
    ensures r.1.validationActions == actions
    ensures forall ns: Namespace :: Selects(r.1.namespaceSelector, NamespaceLabels(ns)) <==> ns.metadata.name == namespaceName
  {
    var policy := AdmissionPolicy(Metadata(name + "-admission-policy", None, None), failurePolicy, constraints, validations);
    var binding := PolicyBinding(Metadata(name + "-admission-policy-binding", None, None), name + "-admission-policy",
                                 actions, SameNamespaceSelector(namespaceName));
    forall ns: Namespace
      ensures Selects(binding.namespaceSelector, NamespaceLabels(ns)) <==> ns.metadata.name == namespaceName
    {
      SameNamespaceSelectorSelects(namespaceName, ns);
    }
    (policy, binding)
  }

  // ---------------------------------------------------------------------------------------------
  // Secret and service

  datatype Secret = Secret(metadata: Metadata, secretType: string, immutable: bool, data: seq<KeyValue>)

  /** `create_secret`; the generators leave `is_immutable` at its default, `true`. */
  function CreateSecret(name: string, namespaceName: string, secretType: string, data: seq<KeyValue>,
                        labels: Option<seq<KeyValue>>, immutable: bool): (s: Secret)
    ensures s.metadata == Metadata(name + "-secret", Some(namespaceName), labels)
    ensures s.secretType == secretType && s.immutable == immutable && s.data == data
  {
    Secret(Metadata(name + "-secret", Some(namespaceName), labels), secretType, immutable, data)
  }

  /** A port entry of a service or a network policy; `targetPort` only for a service. */
  datatype ServicePort = ServicePort(port: int, protocol: string, targetPort: Option<int>)

  datatype Service = Service(metadata: Metadata, selector: seq<KeyValue>, ports: seq<ServicePort>)

  /** `create_service`. */
  function CreateService(name: string, namespaceName: string, selector: seq<KeyValue>, ports: seq<ServicePort>,
                         labels: Option<seq<KeyValue>>): (s: Service)
    ensures s.metadata == Metadata(name + "-service", Some(namespaceName), labels)
    ensures s.selector == selector && s.ports == ports
  {
    Service(Metadata(name + "-service", Some(namespaceName), labels), selector, ports)
  }

  /** The object name of a builder is the name it was given followed by the builder's suffix, so the given name is recovered. */
  function StripSuffix(full: string, suffix: string): (r: Option<string>)
    ensures r.Some? ==> full == r.value + suffix
    ensures r.None? ==> forall base :: full != base + suffix
  {
    if |suffix| <= |full| && full[|full| - |suffix|..] == suffix then Some(full[..|full| - |suffix|])
    else
      assert forall base :: (base + suffix)[|base + suffix| - |suffix|..] == suffix;
      None
  }

  lemma StripSuffixOf(base: string, suffix: string)
    ensures StripSuffix(base + suffix, suffix) == Some(base)
  {
    assert (base + suffix)[|base + suffix| - |suffix|..] == suffix;
    assert (base + suffix)[..|base + suffix| - |suffix|] == base;
  }

  /** Different names give differently named objects of each kind. */
  lemma SuffixedNamesInjective(a: string, b: string, suffix: string)
    requires a + suffix == b + suffix
    ensures a == b
  {
    StripSuffixOf(a, suffix);
    StripSuffixOf(b, suffix);
  }

  // ---------------------------------------------------------------------------------------------
  // Ingress

  datatype IngressTls = IngressTls(hosts: seq<string>, secretName: string)

  /** A path entry: the path, its match type and the service port it routes to. */
  datatype IngressPath = IngressPath(path: string, pathType: string, serviceName: string, servicePort: int)

  datatype IngressRule = IngressRule(host: string, paths: seq<IngressPath>)

  /** An ingress; `tlsField` is the key its TLS entries are written under. */
  datatype Ingress = Ingress(metadata: Metadata, className: string, tlsField: string, tls: seq<IngressTls>, rules: seq<IngressRule>)

  /** The TLS entries the API server sees: only those under the `tls` key of the ingress specification. */
  function EffectiveTls(ing: Ingress): seq<IngressTls> {
    if ing.tlsField == "tls" then ing.tls else []
  }

  function CreateIngressWith(tlsField: string, name: string, namespaceName: string, className: string, hostname: string,
                             secretName: string, paths: seq<IngressPath>, labels: Option<seq<KeyValue>>): (ing: Ingress)
    ensures ing.metadata == Metadata(name + "-ingress", Some(namespaceName), labels)
    ensures ing.className == className && ing.tlsField == tlsField
    ensures ing.tls == [IngressTls([hostname], secretName)]
    ensures ing.rules == [IngressRule(hostname, paths)]
  {
    Ingress(Metadata(name + "-ingress", Some(namespaceName), labels), className, tlsField,
            [IngressTls([hostname], secretName)], [IngressRule(hostname, paths)])
  }

  /** `create_ingress` as written: the TLS entries go under the key `TLS`. */
  function CreateIngressAsWritten(name: string, namespaceName: string, className: string, hostname: string,
                                  secretName: string, paths: seq<IngressPath>, labels: Option<seq<KeyValue>>): (ing: Ingress)
    ensures ing.rules == [IngressRule(hostname, paths)] && ing.tls == [IngressTls([hostname], secretName)]
    ensures EffectiveTls(ing) == []
  {
    CreateIngressWith("TLS", name, namespaceName, className, hostname, secretName, paths, labels)
  }

  /** `create_ingress` with the TLS entries under `tls`, the key the Ingress API defines. */
  function CreateIngress(name: string, namespaceName: string, className: string, hostname: string,
                         secretName: string, paths: seq<IngressPath>, labels: Option<seq<KeyValue>>): (ing: Ingress)
    ensures ing.rules == [IngressRule(hostname, paths)]
    ensures EffectiveTls(ing) == [IngressTls([hostname], secretName)]
  {
    CreateIngressWith("tls", name, namespaceName, className, hostname, secretName, paths, labels)
  }

  /** As written, the ingress terminates TLS for no host: its TLS entry is not under the API's key. */
  lemma IngressAsWrittenHasNoTls(name: string, namespaceName: string, className: string, hostname: string,
                                 secretName: string, paths: seq<IngressPath>, labels: Option<seq<KeyValue>>)
    ensures EffectiveTls(CreateIngressAsWritten(name, namespaceName, className, hostname, secretName, paths, labels)) == []
  {
  }

  /**
   * The corrected ingress terminates TLS for exactly the host it routes, with the named secret:
   * every routed host is covered by a TLS entry.
   */
  lemma IngressServesTlsForItsHost(name: string, namespaceName: string, className: string, hostname: string,
                                   secretName: string, paths: seq<IngressPath>, labels: Option<seq<KeyValue>>)
    ensures
      var ing := CreateIngress(name, namespaceName, className, hostname, secretName, paths, labels);
      && EffectiveTls(ing) == [IngressTls([hostname], secretName)]
      && forall r :: r in ing.rules ==> exists t :: t in EffectiveTls(ing) && r.host in t.hosts
  {
    var ing := CreateIngress(name, namespaceName, className, hostname, secretName, paths, labels);
    assert EffectiveTls(ing)[0] in EffectiveTls(ing);
  }

  // ---------------------------------------------------------------------------------------------
  // Network policy

  datatype Peer = IpBlock(cidr: string) | NamespaceSelector(exprs: seq<MatchExpression>)

  /** One ingress or egress rule; `peersField` is the key its peers are written under. */
  datatype PolicyRule = PolicyRule(peersField: string, peers: seq<Peer>, ports: seq<ServicePort>)

  datatype NetworkPolicy = NetworkPolicy(
    metadata: Metadata, podSelector: seq<KeyValue>, policyTypes: seq<string>,
    ingress: seq<PolicyRule>, egress: seq<PolicyRule>)

  /**
   * The peers the API server sees in a rule whose peers belong under `field` (`from` for ingress,
   * `to` for egress); `None` when that key is missing, which the API reads as every peer.
   */
  function RulePeers(rule: PolicyRule, field: string): Option<seq<Peer>> {
    if rule.peersField == field then Some(rule.peers) else None
  }

  /** Every egress rule names its peers, so the pods may only reach those. */
  predicate EgressRestricted(np: NetworkPolicy) {
    forall i :: 0 <= i < |np.egress| ==> RulePeers(np.egress[i], "to").Some?
  }

  /** The two peers of both rules: the external address and the policy's own namespace. */
  function PolicyPeers(namespaceName: string, externalIp: string): seq<Peer> {
    [IpBlock(externalIp), NamespaceSelector(SameNamespaceSelector(namespaceName))]
  }

  function CreateNetworkPolicyWith(egressField: string, name: string, namespaceName: string, podSelector: seq<KeyValue>,
                                   externalIp: string, ports: seq<ServicePort>, labels: Option<seq<KeyValue>>): (np: NetworkPolicy)
    ensures np.metadata == Metadata(name + "-network-policy", Some(namespaceName), labels)
    ensures np.podSelector == podSelector && np.policyTypes == ["Ingress", "Egress"]
    ensures np.ingress == [PolicyRule("from", PolicyPeers(namespaceName, externalIp), ports)]
    ensures np.egress == [PolicyRule(egressField, PolicyPeers(namespaceName, externalIp), ports)]
  {
    var peers := PolicyPeers(namespaceName, externalIp);
    NetworkPolicy(Metadata(name + "-network-policy", Some(namespaceName), labels), podSelector, ["Ingress", "Egress"],
                  [PolicyRule("from", peers, ports)], [PolicyRule(egressField, peers, ports)])
  }

  /** `create_network_policy` as written: the egress peers go under the key `_to`. */
  function CreateNetworkPolicyAsWritten(name: string, namespaceName: string, podSelector: seq<KeyValue>,
                                        externalIp: string, ports: seq<ServicePort>, labels: Option<seq<KeyValue>>)
    : (np: NetworkPolicy)
    ensures |np.ingress| == 1 && RulePeers(np.ingress[0], "from") == Some(PolicyPeers(namespaceName, externalIp))
    ensures !EgressRestricted(np)
  {
    var np := CreateNetworkPolicyWith("_to", name, namespaceName, podSelector, externalIp, ports, labels);
    assert RulePeers(np.egress[0], "to").None?;
    np
  }

  /** `create_network_policy` with the egress peers under `to`, the key the NetworkPolicy API defines. */
  function CreateNetworkPolicy(name: string, namespaceName: string, podSelector: seq<KeyValue>,
                               externalIp: string, ports: seq<ServicePort>, labels: Option<seq<KeyValue>>)
    : (np: NetworkPolicy)
    ensures |np.ingress| == 1 && RulePeers(np.ingress[0], "from") == Some(PolicyPeers(namespaceName, externalIp))
    ensures EgressRestricted(np)
    ensures |np.egress| == 1 && RulePeers(np.egress[0], "to") == Some(PolicyPeers(namespaceName, externalIp))
  {
    CreateNetworkPolicyWith("to", name, namespaceName, podSelector, externalIp, ports, labels)
  }

  /** As written, the egress rule names no peers, so it lets the pods reach every destination on those ports. */
  lemma NetworkPolicyAsWrittenEgressOpen(name: string, namespaceName: string, podSelector: seq<KeyValue>,
                                         externalIp: string, ports: seq<ServicePort>, labels: Option<seq<KeyValue>>)
    ensures
      var np := CreateNetworkPolicyAsWritten(name, namespaceName, podSelector, externalIp, ports, labels);
      !EgressRestricted(np) && RulePeers(np.egress[0], "to").None?
  {
    var np := CreateNetworkPolicyAsWritten(name, namespaceName, podSelector, externalIp, ports, labels);
    assert np.egress[0].peersField == "_to";
    assert RulePeers(np.egress[0], "to").None?;
  }

  /**
   * The corrected policy admits traffic from and to the same two peers on the same ports, and the
   * namespace peer is exactly the policy's own namespace.
   */
  lemma NetworkPolicySymmetric(name: string, namespaceName: string, podSelector: seq<KeyValue>,
                               externalIp: string, ports: seq<ServicePort>, labels: Option<seq<KeyValue>>, ns: Namespace)
    ensures
      var np := CreateNetworkPolicy(name, namespaceName, podSelector, externalIp, ports, labels);
      && EgressRestricted(np)
      && RulePeers(np.ingress[0], "from") == RulePeers(np.egress[0], "to") == Some(PolicyPeers(namespaceName, externalIp))
      && np.ingress[0].ports == np.egress[0].ports == ports
      && (Selects(PolicyPeers(namespaceName, externalIp)[1].exprs, NamespaceLabels(ns)) <==> ns.metadata.name == namespaceName)
  {
    SameNamespaceSelectorSelects(namespaceName, ns);
  }

  // ---------------------------------------------------------------------------------------------
  // The two builder variants

  /**
   * The keys the ingress and network-policy builders write the TLS entries and the egress peers
   * under: `TLS` and `_to`, as `create_ingress` and `create_network_policy` are written, or `tls`
   * and `to`, the fields the Kubernetes API reads. The charts are generated with the former.
   */
  datatype Builders = AsWrittenBuilders | CorrectedBuilders

  function IngressBy(b: Builders, name: string, namespaceName: string, className: string, hostname: string,
                     secretName: string, paths: seq<IngressPath>, labels: Option<seq<KeyValue>>): Ingress
  {
    match b
    case AsWrittenBuilders => CreateIngressAsWritten(name, namespaceName, className, hostname, secretName, paths, labels)
    case CorrectedBuilders => CreateIngress(name, namespaceName, className, hostname, secretName, paths, labels)
  }

  function NetworkPolicyBy(b: Builders, name: string, namespaceName: string, podSelector: seq<KeyValue>,
                           externalIp: string, ports: seq<ServicePort>, labels: Option<seq<KeyValue>>): NetworkPolicy
  {
    match b
    case AsWrittenBuilders => CreateNetworkPolicyAsWritten(name, namespaceName, podSelector, externalIp, ports, labels)
    case CorrectedBuilders => CreateNetworkPolicy(name, namespaceName, podSelector, externalIp, ports, labels)
  }
}

=== FILE: podman.dfy ===
/**
 * Use case two: `create_containers` creates the network, one Podman secret per TLS file and one
 * container per relay stage through `podman` command lines, and saves every command line as text.
 * The command lines are modelled as argument lists; `ParseRun` reads a `podman run` argument list
 * back the way Podman does, so the properties are stated about what the container receives.
 */
module Podman {
  import opened Wrappers
  import opened Strings
  import opened Ring
  import opened Setup

  /** `USE_CASE_NUM`. */
  const UseCaseNum: nat := 2

  /** `f'{useCasePrefix}={USE_CASE_NUM}'`: the label on everything the use case creates. */
  function UseCaseLabel(cfg: SetupConfig): string {
    cfg.useCasePrefix + "=" + NatToString(UseCaseNum)
  }

  // ---------------------------------------------------------------------------------------------
  // Saved command text

  /** `' '.join(cmd).replace('--', '\n\t--')`: the command as written to its text file. */
  function SavedText(cmd: seq<string>): string {
    Replace(Join(cmd, " "), "--", "\n\t--")
  }

  /**
   * The saved text loses nothing: removing the inserted line breaks and splitting at the spaces
   * gives the command back, as long as no argument holds a space or a line break.
   */
  lemma SavedTextRecoversCommand(cmd: seq<string>)
    requires |cmd| > 0
    requires forall i :: 0 <= i < |cmd| ==> ' ' !in cmd[i] && '\n' !in cmd[i]
    ensures Split(Replace(SavedText(cmd), "\n\t--", "--"), ' ') == cmd
  {
    var joined := Join(cmd, " ");
    JoinAvoids(cmd, " ", '\n');
    ReplaceInsertionUndone(joined, "--", "\n\t");
    assert "\n\t" + "--" == "\n\t--";
    SplitJoin(cmd, ' ');
  }

  // ---------------------------------------------------------------------------------------------
  // Network and secrets

  function NetworkCommand(cfg: SetupConfig): seq<string> {
    [ "podman", "network", "create", "--label", UseCaseLabel(cfg),
      "--driver", cfg.network.driver, "--subnet", cfg.network.subnet, "--ip-range", cfg.network.range,
      "--gateway", cfg.network.gateway, cfg.network.name ]
  }

  /**
   * The containers join the network the first command creates, and the network, the secrets and
   * the containers all carry the use case's label.
   */
  lemma ContainersJoinCreatedNetwork(cfg: SetupConfig, projectFolder: string, image: string, i: nat, k: nat)
    requires 1 <= i <= cfg.count && k < 1 + 2 * cfg.count
    ensures var net := NetworkCommand(cfg);
            var run := ContainerCommand(cfg, image, i);
            && net[..3] == ["podman", "network", "create"]
            && run[..2] == ["podman", "run"]
            && run[3] == "--network" && run[4] == net[|net| - 1] == cfg.network.name
            && net[3] == run[6] == SecretCommands(cfg, projectFolder)[k][4] == "--label"
            && net[4] == run[7] == SecretCommands(cfg, projectFolder)[k][5] == UseCaseLabel(cfg)
  {
  }

  /** `run_secret_command`'s command line. */
  function SecretCommand(secretLabel: string, name: string, location: string): seq<string> {
    ["podman", "secret", "create", "--replace=true", "--label", secretLabel, name, location]
  }

  /** `create_secrets`: the certificate authority's certificate, then every stage's key and certificate. */
  function SecretCommands(cfg: SetupConfig, projectFolder: string): (cmds: seq<seq<string>>)
    ensures |cmds| == 1 + 2 * cfg.count
  {
    var secrets := TlsSecrets(cfg, projectFolder, cfg.count);
    seq(|secrets|, k requires 0 <= k < |secrets| =>
      SecretCommand(UseCaseLabel(cfg), secrets[k].name, secrets[k].file))
  }

  /** The general commands file: the network command, then each secret command on a new line. */
  function CommandsText(cfg: SetupConfig, projectFolder: string): string {
    var secretTexts := SecretCommands(cfg, projectFolder);
    Join([SavedText(NetworkCommand(cfg))] + seq(|secretTexts|, k requires 0 <= k < |secretTexts| => SavedText(secretTexts[k])), "\n")
  }

  // ---------------------------------------------------------------------------------------------
  // Containers

  /** `f'{name},target={target}'`: a `--secret` option value. */
  function SecretOption(name: string, target: string): string {
    name + ",target=" + target
  }

  /** `'--env', f'{name}={value}'` for every variable, in order. */
  function EnvArgs(vars: seq<EnvVar>): (args: seq<string>)
    ensures |args| == 2 * |vars|
    decreases |vars|
  {
    if |vars| == 0 then [] else ["--env", vars[0].name + "=" + vars[0].value] + EnvArgs(vars[1..])
  }

  /** `f'--add-host={mapping}'` for every host mapping, in order. */
  function HostArgs(hosts: seq<string>): (args: seq<string>)
    ensures |args| == |hosts|
    decreases |hosts|
  {
    if |hosts| == 0 then [] else ["--add-host=" + hosts[0]] + HostArgs(hosts[1..])
  }

  function BaseArgs(cfg: SetupConfig, i: nat): seq<string> {
    [ "--detach", "--network", cfg.network.name, "--ip=" + StageIp(cfg.network.prefix, cfg.network.startAddress, i),
      "--label", UseCaseLabel(cfg) ]
  }

  function PublishedPort(cfg: SetupConfig): string {
    IntToString(cfg.startPort) + ":" + IntToString(cfg.startPort)
  }

  function PublishArgs(cfg: SetupConfig, i: nat): seq<string> {
    if i == 1 then ["--publish", PublishedPort(cfg)] else []
  }

  /** The three secrets a stage mounts: its key, its certificate and the authority's certificate. */
  function StageSecretOptions(cfg: SetupConfig, i: nat): seq<string> {
    [ SecretOption(StageSecretName(cfg, i, cfg.keyExt), cfg.selfKeyTarget),
      SecretOption(StageSecretName(cfg, i, cfg.certExt), cfg.selfCertTarget),
      SecretOption(CaSecretName(cfg), cfg.caCertTarget) ]
  }

  function SecretArgs(cfg: SetupConfig, i: nat): seq<string> {
    var opts := StageSecretOptions(cfg, i);
    ["--secret", opts[0], "--secret", opts[1], "--secret", opts[2]]
  }

  /** Health check, the failure policy (given twice, as the generator does), name, host name and image. */
  function TailArgs(cfg: SetupConfig, image: string, i: nat): seq<string> {
    [ "--health-cmd=" + cfg.healthcheckCmd,
      "--health-on-failure=" + cfg.containerFailPolicy,
      "--health-on-failure=" + cfg.containerFailPolicy,
      "--name=" + StageName(cfg.namePrefix, i),
      "--hostname=" + StageHost(cfg.namePrefix, i, cfg.domain),
      image ]
  }

  /** The arguments after `podman run` for stage `i`, the image name being the image version file's contents. */
  function RunArgs(cfg: SetupConfig, image: string, i: nat): seq<string>
    requires 1 <= i <= cfg.count
  {
    BaseArgs(cfg, i) + (PublishArgs(cfg, i) + (SecretArgs(cfg, i)
      + (EnvArgs(StageVariables(cfg, i)) + (HostArgs(HostMappings(cfg, ":")) + TailArgs(cfg, image, i)))))
  }

  /** The container command of stage `i`. */
  function ContainerCommand(cfg: SetupConfig, image: string, i: nat): (cmd: seq<string>)
    requires 1 <= i <= cfg.count
  {
    ["podman", "run"] + RunArgs(cfg, image, i)
  }

  // ---------------------------------------------------------------------------------------------
  // Reading a `podman run` argument list

  /** What a container receives from its command line; options the relay does not see are dropped. */
  datatype RunOptions = RunOptions(
    publish: seq<string>,
    secrets: seq<string>,
    env: seq<EnvVar>,
    hosts: seq<string>,
    name: Option<string>,
    hostname: Option<string>,
    image: Option<string>)

  const NoOptions := RunOptions([], [], [], [], None, None, None)

  predicate IsOption(a: string) {
    |a| >= 2 && a[0] == '-' && a[1] == '-'
  }

  /** The options used here that take their value from the next argument. */
  predicate TakesValue(a: string) {
    a == "--network" || a == "--label" || a == "--publish" || a == "--secret" || a == "--env"
  }

  function WithValue(o: RunOptions, option: string, v: string): RunOptions {
    if option == "--publish" then o.(publish := o.publish + [v])
    else if option == "--secret" then o.(secrets := o.secrets + [v])
    else if option == "--env" then
      var kv := SplitAtFirst(v, '=');
      o.(env := o.env + [EnvVar(kv.0, kv.1)])
    else o
  }

  function WithInline(o: RunOptions, a: string): RunOptions {
    if StartsWith(a, "--add-host=") then o.(hosts := o.hosts + [a[|"--add-host="|..]])
    else if StartsWith(a, "--name=") then o.(name := Some(a[|"--name="|..]))
    else if StartsWith(a, "--hostname=") then o.(hostname := Some(a[|"--hostname="|..]))
    else o
  }

  /**
   * Podman's reading of the arguments after `run`: options with a separate value, options with
   * an inline value, and the first argument that is not an option names the image.
   */
  function ParseRun(args: seq<string>, o: RunOptions): RunOptions
    decreases |args|
  {
    if |args| == 0 then o
    else if TakesValue(args[0]) then
      if |args| == 1 then o else ParseRun(args[2..], WithValue(o, args[0], args[1]))
    else if IsOption(args[0]) then ParseRun(args[1..], WithInline(o, args[0]))
    else o.(image := Some(args[0]))
  }

  /** The argument list is options only, each with its value: reading it leaves nothing pending. */
  predicate Consumes(args: seq<string>)
    decreases |args|
  {
    || |args| == 0
    || (TakesValue(args[0]) && |args| >= 2 && Consumes(args[2..]))
    || (!TakesValue(args[0]) && IsOption(args[0]) && Consumes(args[1..]))
  }

  lemma {:induction false} ParseAppend(a: seq<string>, b: seq<string>, o: RunOptions)
    requires Consumes(a)
    ensures ParseRun(a + b, o) == ParseRun(b, ParseRun(a, o))
    decreases |a|
  {
    if |a| > 0 {
      if TakesValue(a[0]) {
        assert (a + b)[2..] == a[2..] + b;
        ParseAppend(a[2..], b, WithValue(o, a[0], a[1]));
      } else {
        assert (a + b)[1..] == a[1..] + b;
        ParseAppend(a[1..], b, WithInline(o, a[0]));
      }
    } else {
      assert a + b == b;
    }
  }

  /** An argument whose third character rules out every option that takes a separate value. */
  lemma NotValueOption(a: string)
    requires |a| >= 4
    requires a[2] !in "nlpse" || (a[2] == 'n' && a[3] != 'e')
    ensures !TakesValue(a)
  {
  }

  /** An option none of whose first four characters match `--add-host=`, `--name=` or `--hostname=` is ignored. */
  lemma IgnoredInline(o: RunOptions, a: string)
    requires |a| >= 4
    requires a[2] != 'a' && a[2] != 'n' && (a[2] != 'h' || a[3] != 'o')
    ensures WithInline(o, a) == o
  {
    assert !StartsWith(a, "--add-host=") by { assert "--add-host="[2] == 'a'; }
    assert !StartsWith(a, "--name=") by { assert "--name="[2] == 'n'; }
    assert !StartsWith(a, "--hostname=") by { assert "--hostname="[2] == 'h' && "--hostname="[3] == 'o'; }
  }

  /** The health-check options are read and dropped. */
  lemma HealthOptionIgnored(o: RunOptions, option: string, v: string)
    requires option == "--health-cmd=" || option == "--health-on-failure="
    ensures IsOption(option + v) && !TakesValue(option + v) && WithInline(o, option + v) == o
  {
    var a := option + v;
    assert a[2] == 'h' && a[3] == 'e';
    NotValueOption(a);
    IgnoredInline(o, a);
  }

  lemma InlineHost(o: RunOptions, h: string)
    ensures WithInline(o, "--add-host=" + h) == o.(hosts := o.hosts + [h])
  {
    var a := "--add-host=" + h;
    assert a[..|"--add-host="|] == "--add-host=";
    assert a[|"--add-host="|..] == h;
  }

  lemma InlineName(o: RunOptions, n: string)
    ensures IsOption("--name=" + n) && !TakesValue("--name=" + n)
    ensures WithInline(o, "--name=" + n) == o.(name := Some(n))
  {
    var a := "--name=" + n;
    assert a[2] == 'n' && a[3] == 'a';
    NotValueOption(a);
    assert !StartsWith(a, "--add-host=") by { assert a[2] == 'n' && "--add-host="[2] == 'a'; }
    assert a[..|"--name="|] == "--name=";
    assert a[|"--name="|..] == n;
  }

  lemma InlineHostname(o: RunOptions, h: string)
    ensures IsOption("--hostname=" + h) && !TakesValue("--hostname=" + h)
    ensures WithInline(o, "--hostname=" + h) == o.(hostname := Some(h))
  {
    var a := "--hostname=" + h;
    assert a[2] == 'h';
    NotValueOption(a);
    assert !StartsWith(a, "--add-host=") by { assert a[2] == 'h' && "--add-host="[2] == 'a'; }
    assert !StartsWith(a, "--name=") by { assert a[2] == 'h' && "--name="[2] == 'n'; }
    assert a[..|"--hostname="|] == "--hostname=";
    assert a[|"--hostname="|..] == h;
  }

  lemma BaseArgsRead(cfg: SetupConfig, i: nat, o: RunOptions)
    ensures Consumes(BaseArgs(cfg, i)) && ParseRun(BaseArgs(cfg, i), o) == o
  {
    var a := BaseArgs(cfg, i);
    var ip := "--ip=" + StageIp(cfg.network.prefix, cfg.network.startAddress, i);
    NotValueOption("--detach");
    IgnoredInline(o, "--detach");
    assert ip[2] == 'i' && ip[3] == 'p';
    NotValueOption(ip);
    IgnoredInline(o, ip);
    var a1 := a[1..];
    var a2 := a1[2..];
    var a3 := a2[1..];
    assert a1 == ["--network", cfg.network.name, ip, "--label", UseCaseLabel(cfg)];
    assert a2 == [ip, "--label", UseCaseLabel(cfg)];
    assert a3 == ["--label", UseCaseLabel(cfg)];
    assert a3[2..] == [];
    assert WithValue(o, "--label", UseCaseLabel(cfg)) == o;
    assert ParseRun(a3[2..], o) == o;
    assert TakesValue(a3[0]);
    assert |a3| == 2;
    assert ParseRun(a3, o) == ParseRun(a3[2..], WithValue(o, a3[0], a3[1]));
    assert Consumes(a3);
    assert ParseRun(a3, o) == o;
    assert Consumes(a2) && ParseRun(a2, o) == o;
    assert Consumes(a1) && ParseRun(a1, o) == o;
  }

  lemma PublishArgsRead(cfg: SetupConfig, i: nat, o: RunOptions)
    ensures Consumes(PublishArgs(cfg, i))
    ensures ParseRun(PublishArgs(cfg, i), o) == o.(publish := o.publish + if i == 1 then [PublishedPort(cfg)] else [])
  {
    if i == 1 {
      assert PublishArgs(cfg, i)[2..] == [];
    }
  }

  lemma SecretArgsRead(cfg: SetupConfig, i: nat, o: RunOptions)
    ensures Consumes(SecretArgs(cfg, i))
    ensures ParseRun(SecretArgs(cfg, i), o) == o.(secrets := o.secrets + StageSecretOptions(cfg, i))
  {
    var opts := StageSecretOptions(cfg, i);
    var a := SecretArgs(cfg, i);
    var a1 := a[2..];
    var a2 := a1[2..];
    assert a1 == ["--secret", opts[1], "--secret", opts[2]];
    assert a2 == ["--secret", opts[2]];
    assert a2[2..] == [];
    var o1 := WithValue(o, "--secret", opts[0]);
    var o2 := WithValue(o1, "--secret", opts[1]);
    var o3 := WithValue(o2, "--secret", opts[2]);
    assert ParseRun(a2[2..], o3) == o3;
    assert TakesValue(a2[0]) && |a2| == 2;
    assert ParseRun(a2, o2) == ParseRun(a2[2..], WithValue(o2, a2[0], a2[1]));
    assert Consumes(a2) && ParseRun(a2, o2) == o3;
    assert Consumes(a1) && ParseRun(a1, o1) == o3;
    assert o3.secrets == o.secrets + opts;
  }

  /** `--env name=value` gives the container exactly that variable, as long as the name holds no `=`. */
  lemma {:induction false} EnvArgsRead(vars: seq<EnvVar>, o: RunOptions)
    requires forall q :: 0 <= q < |vars| ==> '=' !in vars[q].name
    ensures Consumes(EnvArgs(vars))
    ensures ParseRun(EnvArgs(vars), o) == o.(env := o.env + vars)
    decreases |vars|
  {
    if |vars| > 0 {
      var a := EnvArgs(vars);
      SplitAtFirstKey(vars[0].name, vars[0].value, '=');
      assert vars[0].name + "=" + vars[0].value == vars[0].name + ['='] + vars[0].value;
      var o' := o.(env := o.env + [vars[0]]);
      assert a[2..] == EnvArgs(vars[1..]);
      EnvArgsRead(vars[1..], o');
      assert o.env + [vars[0]] + vars[1..] == o.env + vars;
    }
  }

  lemma {:induction false} HostArgsRead(hosts: seq<string>, o: RunOptions)
    ensures Consumes(HostArgs(hosts))
    ensures ParseRun(HostArgs(hosts), o) == o.(hosts := o.hosts + hosts)
    decreases |hosts|
  {
    if |hosts| > 0 {
      var a := HostArgs(hosts);
      var h := "--add-host=" + hosts[0];
      assert h[2] == 'a';
      NotValueOption(h);
      InlineHost(o, hosts[0]);
      assert a[1..] == HostArgs(hosts[1..]);
      HostArgsRead(hosts[1..], o.(hosts := o.hosts + [hosts[0]]));
      assert o.hosts + [hosts[0]] + hosts[1..] == o.hosts + hosts;
    }
  }

  lemma TailArgsRead(cfg: SetupConfig, image: string, i: nat, o: RunOptions)
    requires !IsOption(image)
    ensures ParseRun(TailArgs(cfg, image, i), o)
            == o.(name := Some(StageName(cfg.namePrefix, i)),
                  hostname := Some(StageHost(cfg.namePrefix, i, cfg.domain)),
                  image := Some(image))
  {
    var c := "--health-cmd=" + cfg.healthcheckCmd;
    var f := "--health-on-failure=" + cfg.containerFailPolicy;
    var t2 := IdentityArgs(cfg, image, i);
    var t1 := [f] + t2;
    var t0 := [f] + t1;
    assert TailArgs(cfg, image, i) == [c] + t0;
    HealthOptionIgnored(o, "--health-cmd=", cfg.healthcheckCmd);
    HealthOptionIgnored(o, "--health-on-failure=", cfg.containerFailPolicy);
    ReadInline(c, t0, o);
    ReadInline(f, t1, o);
    ReadInline(f, t2, o);
    IdentityArgsRead(cfg, image, i, o);
  }

  /** The last three arguments: the container's name, its host name and the image. */
  function IdentityArgs(cfg: SetupConfig, image: string, i: nat): seq<string> {
    ["--name=" + StageName(cfg.namePrefix, i), "--hostname=" + StageHost(cfg.namePrefix, i, cfg.domain), image]
  }

  lemma IdentityArgsRead(cfg: SetupConfig, image: string, i: nat, o: RunOptions)
    requires !IsOption(image)
    ensures ParseRun(IdentityArgs(cfg, image, i), o)
            == o.(name := Some(StageName(cfg.namePrefix, i)),
                  hostname := Some(StageHost(cfg.namePrefix, i, cfg.domain)),
                  image := Some(image))
  {
    var n := "--name=" + StageName(cfg.namePrefix, i);
    var h := "--hostname=" + StageHost(cfg.namePrefix, i, cfg.domain);
    InlineName(o, StageName(cfg.namePrefix, i));
    var o' := o.(name := Some(StageName(cfg.namePrefix, i)));
    InlineHostname(o', StageHost(cfg.namePrefix, i, cfg.domain));
    var t4 := [image];
    var t3 := [h] + t4;
    assert IdentityArgs(cfg, image, i) == [n] + t3;
    ReadInline(n, t3, o);
    ReadInline(h, t4, o');
    assert !TakesValue(image);
  }

  /** An option with an inline value is read and the rest follows. */
  lemma ReadInline(a: string, rest: seq<string>, o: RunOptions)
    requires IsOption(a) && !TakesValue(a)
    ensures ParseRun([a] + rest, o) == ParseRun(rest, WithInline(o, a))
  {
    assert ([a] + rest)[1..] == rest;
  }

  /**
   * What Podman hands the container of stage `i`: the published port for stage 1 only, the
   * stage's three secrets, the ring's variables in order, every stage's host mapping, the stage's
   * name and host name, and the image.
   */
  lemma ContainerReceives(cfg: SetupConfig, image: string, i: nat)
    requires 1 <= i <= cfg.count
    requires !IsOption(image)
    ensures ParseRun(RunArgs(cfg, image, i), NoOptions)
            == RunOptions(
                 if i == 1 then [PublishedPort(cfg)] else [],
                 StageSecretOptions(cfg, i),
                 StageVariables(cfg, i),
                 HostMappings(cfg, ":"),
                 Some(StageName(cfg.namePrefix, i)),
                 Some(StageHost(cfg.namePrefix, i, cfg.domain)),
                 Some(image))
  {
    var envTail := EnvArgs(StageVariables(cfg, i)) + (HostArgs(HostMappings(cfg, ":")) + TailArgs(cfg, image, i));
    assert RunArgs(cfg, image, i) == BaseArgs(cfg, i) + (PublishArgs(cfg, i) + (SecretArgs(cfg, i) + envTail));
    FrontArgsRead(cfg, i, envTail, NoOptions);
    var o := NoOptions.(publish := NoOptions.publish + (if i == 1 then [PublishedPort(cfg)] else []),
                        secrets := NoOptions.secrets + StageSecretOptions(cfg, i));
    StageArgsRead(cfg, image, i, o);
    assert o.env + StageVariables(cfg, i) == StageVariables(cfg, i);
    assert o.hosts + HostMappings(cfg, ":") == HostMappings(cfg, ":");
    assert o.publish == (if i == 1 then [PublishedPort(cfg)] else []);
    assert o.secrets == StageSecretOptions(cfg, i);
  }

  /** The options before the variables: the network settings, the published port and the secrets. */
  lemma FrontArgsRead(cfg: SetupConfig, i: nat, rest: seq<string>, o: RunOptions)
    ensures ParseRun(BaseArgs(cfg, i) + (PublishArgs(cfg, i) + (SecretArgs(cfg, i) + rest)), o)
            == ParseRun(rest, o.(publish := o.publish + (if i == 1 then [PublishedPort(cfg)] else []),
                                 secrets := o.secrets + StageSecretOptions(cfg, i)))
  {
    var secretTail := SecretArgs(cfg, i) + rest;
    var publishTail := PublishArgs(cfg, i) + secretTail;
    BaseArgsRead(cfg, i, o);
    ParseAppend(BaseArgs(cfg, i), publishTail, o);
    PublishArgsRead(cfg, i, o);
    var o1 := ParseRun(PublishArgs(cfg, i), o);
    ParseAppend(PublishArgs(cfg, i), secretTail, o);
    SecretArgsRead(cfg, i, o1);
    ParseAppend(SecretArgs(cfg, i), rest, o1);
  }

  /** The variables, the host mappings and the container's identity, read after the other options. */
  lemma StageArgsRead(cfg: SetupConfig, image: string, i: nat, o: RunOptions)
    requires 1 <= i <= cfg.count
    requires !IsOption(image)
    ensures ParseRun(EnvArgs(StageVariables(cfg, i)) + (HostArgs(HostMappings(cfg, ":")) + TailArgs(cfg, image, i)), o)
            == o.(env := o.env + StageVariables(cfg, i),
                  hosts := o.hosts + HostMappings(cfg, ":"),
                  name := Some(StageName(cfg.namePrefix, i)),
                  hostname := Some(StageHost(cfg.namePrefix, i, cfg.domain)),
                  image := Some(image))
  {
    var vars := StageVariables(cfg, i);
    var hosts := HostMappings(cfg, ":");
    var tail := TailArgs(cfg, image, i);
    StageVariableNamesPlain();
    EnvArgsRead(vars, o);
    var o3 := ParseRun(EnvArgs(vars), o);
    ParseAppend(EnvArgs(vars), HostArgs(hosts) + tail, o);
    HostArgsRead(hosts, o3);
    var o4 := ParseRun(HostArgs(hosts), o3);
    ParseAppend(HostArgs(hosts), tail, o3);
    TailArgsRead(cfg, image, i, o4);
  }

  // ---------------------------------------------------------------------------------------------
  // Properties of the generated commands

  /**
   * The container of stage `i` gets the same environment the Compose service of that stage
   * gets, so `server.py` and `rest.py` start it exactly as they would under Compose.
   */
  lemma ContainerEnvironment(cfg: SetupConfig, image: string, i: nat)
    requires 1 <= i <= cfg.count
    requires !IsOption(image)
    ensures ToMap(ParseRun(RunArgs(cfg, image, i), NoOptions).env) == StageEnvironment(cfg, i)
  {
    ContainerReceives(cfg, image, i);
  }

  /** Only the first container publishes the relay's port, as `start:start`. */
  lemma OnlyFirstContainerPublishes(cfg: SetupConfig, image: string, i: nat)
    requires 1 <= i <= cfg.count
    requires !IsOption(image)
    ensures var o := ParseRun(RunArgs(cfg, image, i), NoOptions);
            && (|o.publish| > 0 <==> i == 1)
            && (i == 1 ==> o.publish == [PublishedPort(cfg)])
  {
    ContainerReceives(cfg, image, i);
  }

  /**
   * Every secret a container mounts was created by `create_secrets` under the use case's label,
   * from the TLS file of the same name.
   */
  lemma ContainerSecretsCreated(cfg: SetupConfig, projectFolder: string, image: string, i: nat, r: nat) returns (k: nat)
    requires 1 <= i <= cfg.count && r < 3
    requires !IsOption(image)
    ensures var o := ParseRun(RunArgs(cfg, image, i), NoOptions);
            var cmds := SecretCommands(cfg, projectFolder);
            && |o.secrets| == 3
            && k < |cmds|
            && o.secrets[r] == SecretOption(cmds[k][6], [cfg.selfKeyTarget, cfg.selfCertTarget, cfg.caCertTarget][r])
            && cmds[k][5] == UseCaseLabel(cfg)
  {
    ContainerReceives(cfg, image, i);
    TlsStageSecrets(cfg, projectFolder, cfg.count, i);
    TlsSecretNames(cfg, projectFolder, cfg.count, 0);
    k := if r == 2 then 0 else if r == 0 then 2 * i - 1 else 2 * i;
  }

  /** Each container resolves every stage's host name to that stage's address. */
  lemma ContainerResolvesRing(cfg: SetupConfig, image: string, i: nat, j: nat)
    requires 1 <= i <= cfg.count && 1 <= j <= cfg.count
    requires !IsOption(image)
    ensures var o := ParseRun(RunArgs(cfg, image, i), NoOptions);
            && |o.hosts| == cfg.count
            && o.hosts[j - 1] == StageHost(cfg.namePrefix, j, cfg.domain) + ":"
                                 + StageIp(cfg.network.prefix, cfg.network.startAddress, j)
  {
    ContainerReceives(cfg, image, i);
  }
}

=== FILE: pods.dfy ===
/**
 * The Helm chart of the third use case: all stages run as containers of one pod, which share the
 * pod's network, so the ring is closed over ports rather than host names. Stage `i` listens on
 * `startPort + i` and sends to the port of the next stage; only stage 1 is reachable from outside,
 * through a service, an ingress and a network policy on `startPort + 1`.
 *
 * The chart's objects are typed records.
 */
module Pods {
  import opened Wrappers
  import opened Strings
  import opened Ring
  import opened Setup
  import opened KubeUtils
  import opened Relay
  import opened Charts

  const UseCaseNum: nat := 3

  // ---------------------------------------------------------------------------------------------
  // Secret templates

  /**
   * The secret holding the ingress's key and certificate under the keys `tls.key` and `tls.crt`.
   * Its type is `kubernetes.io/TLS`, which is not the built-in `kubernetes.io/tls` (type names are
   * case-sensitive), so Kubernetes treats it as a custom type and does not check its two keys.
   */
  function IngressSecret(cfg: SetupConfig, namespaceName: string): Secret {
    CreateSecret(cfg.ingressName, namespaceName, "kubernetes.io/TLS",
                 [ KeyValue("tls.key", HelmTlsFile(cfg.tlsFolder, cfg.ingressName, cfg.keyExt)),
                   KeyValue("tls.crt", HelmTlsFile(cfg.tlsFolder, cfg.ingressName, cfg.certExt)) ],
                 None, true)
  }

  /** The secret of stage `i`: its own key and certificate and the certificate authority's certificate. */
  function StageSecret(cfg: SetupConfig, namespaceName: string, i: nat): Secret {
    var name := StageName(cfg.namePrefix, i);
    CreateSecret(name, namespaceName, "Opaque",
                 [ KeyValue("self.key", HelmTlsFile(cfg.tlsFolder, name, cfg.keyExt)),
                   KeyValue("self.crt", HelmTlsFile(cfg.tlsFolder, name, cfg.certExt)),
                   KeyValue("ca.crt", HelmTlsFile(cfg.tlsFolder, cfg.caName, cfg.certExt)) ],
                 None, true)
  }

  /** `create_secret_templates`: the ingress secret, then one secret per stage in order. */
  function SecretTemplates(cfg: SetupConfig, namespaceName: string): (r: seq<Secret>)
    ensures |r| == 1 + cfg.count
    ensures r[0] == IngressSecret(cfg, namespaceName)
    ensures forall i :: 1 <= i <= cfg.count ==> r[i] == StageSecret(cfg, namespaceName, i)
  {
    [IngressSecret(cfg, namespaceName)] + seq(cfg.count, k requires 0 <= k => StageSecret(cfg, namespaceName, k + 1))
  }

  /**
   * Stage `i`'s secret is named after the stage and holds exactly the files `self.key`, `self.crt`
   * and `ca.crt`, read from the stage's key and certificate and the authority's certificate.
   */
  lemma StageSecretFiles(cfg: SetupConfig, namespaceName: string, chartFolder: string, i: nat)
    ensures var s := StageSecret(cfg, namespaceName, i);
            var name := StageName(cfg.namePrefix, i);
            && s.metadata.name == name + "-secret"
            && s.metadata.namespace == Some(namespaceName)
            && |s.data| == 3
            && s.data[0].key == "self.key" && s.data[1].key == "self.crt" && s.data[2].key == "ca.crt"
            && chartFolder + "/" + Enclosed(s.data[0].value, HelmGetOpen, HelmGetClose).value
               == TlsFile(cfg, chartFolder, name, cfg.keyExt)
            && chartFolder + "/" + Enclosed(s.data[1].value, HelmGetOpen, HelmGetClose).value
               == TlsFile(cfg, chartFolder, name, cfg.certExt)
            && chartFolder + "/" + Enclosed(s.data[2].value, HelmGetOpen, HelmGetClose).value
               == TlsFile(cfg, chartFolder, cfg.caName, cfg.certExt)
  {
    var name := StageName(cfg.namePrefix, i);
    HelmTlsFileReads(cfg, chartFolder, name, cfg.keyExt);
    HelmTlsFileReads(cfg, chartFolder, name, cfg.certExt);
    HelmTlsFileReads(cfg, chartFolder, cfg.caName, cfg.certExt);
  }

  /** Different stages' secrets have different names. */
  lemma StageSecretNamesDistinct(cfg: SetupConfig, namespaceName: string, i: nat, j: nat)
    requires StageSecret(cfg, namespaceName, i).metadata.name == StageSecret(cfg, namespaceName, j).metadata.name
    ensures i == j
  {
    assert StageName(cfg.namePrefix, i) + "-secret" == StageName(cfg.namePrefix, i) + ['-'] + "secret";
    assert StageName(cfg.namePrefix, j) + "-secret" == StageName(cfg.namePrefix, j) + ['-'] + "secret";
    StageNameBeforeSeparator(cfg.namePrefix, i, j, '-', "secret", "secret");
  }

  // ---------------------------------------------------------------------------------------------
  // Deployment

  /**
   * The port stage `i` sends to: the next stage's, and stage 1's for the last stage; an index past
   * the count raises `IndexError`.
   */
  function DestPort(startPort: int, i: nat, count: nat): (r: Option<int>)
    ensures r.None? <==> i > count
    ensures 1 <= i <= count ==> r == Some(startPort + DestIndex(i, count).value)
  {
    if i < count then
      assert i % count == i;
      Some(startPort + i + 1)
    else if i == count then
      assert i > 0 ==> i % count == 0;
      Some(startPort + 1)
    else None
  }

  /** Their values for stage `i`: every stage listens on its own port and sends within the pod. */
  function PodVariableValues(cfg: SetupConfig, i: nat): (values: seq<string>)
    requires 1 <= i <= cfg.count
    ensures |values| == |ChartVariableNames|
  {
    [ IntToString(cfg.count),
      IntToString(i),
      cfg.defaultListeningIp,
      cfg.default,
      IntToString(cfg.startPort + i),
      cfg.selfKeyTarget,
      cfg.selfCertTarget,
      cfg.caCertTarget,
      cfg.default,
      IntToString(DestPort(cfg.startPort, i, cfg.count).value),
      IntToString(cfg.throttleInterval),
      IntToString(cfg.upperBound) ]
  }

  /** The variables of stage `i`'s container. */
  function PodVariables(cfg: SetupConfig, i: nat): seq<EnvVar>
    requires 1 <= i <= cfg.count
  {
    ChartVariables(PodVariableValues(cfg, i))
  }

  /** The container of stage `i`. */
  function StageContainer(cfg: SetupConfig, image: string, i: nat): Container
    requires 1 <= i <= cfg.count
  {
    var name := StageName(cfg.namePrefix, i);
    Container(name, image, [ContainerPort(cfg.startPort + i, "TCP")], PodVariables(cfg, i),
              [VolumeMount(name + "-secret-mount", cfg.tlsTarget, true)], ChartProbe(cfg))
  }

  /** The volume of stage `i`, filled from the stage's secret. */
  function StageVolume(cfg: SetupConfig, i: nat): Volume {
    var name := StageName(cfg.namePrefix, i);
    Volume(name + "-secret-mount", name + "-secret")
  }

  /** `create_deployment_template`: one deployment holding a container and a volume per stage. */
  function CreateDeploymentTemplate(cfg: SetupConfig, namespaceName: string, podLabels: seq<KeyValue>, image: string)
    : (d: Deployment)
    ensures |d.containers| == cfg.count && |d.volumes| == cfg.count
    ensures forall k :: 0 <= k < cfg.count ==> d.containers[k] == StageContainer(cfg, image, k + 1)
    ensures forall k :: 0 <= k < cfg.count ==> d.volumes[k] == StageVolume(cfg, k + 1)
  {
    Deployment(UseCaseName(cfg, UseCaseNum), namespaceName, cfg.replicas, podLabels, cfg.podRestartPolicy,
               seq(cfg.count, k requires 0 <= k < cfg.count => StageContainer(cfg, image, k + 1)),
               seq(cfg.count, k requires 0 <= k => StageVolume(cfg, k + 1)))
  }

  /** The numbers and the destination a container's environment hands to the relay. */
  lemma PodEnvironmentReads(cfg: SetupConfig, i: nat)
    requires 1 <= i <= cfg.count
    ensures var env := ToMap(PodVariables(cfg, i));
            && "SERVER_STAGE_COUNT" in env && env["SERVER_STAGE_COUNT"] == IntToString(cfg.count)
            && "SERVER_STAGE_INDEX" in env && env["SERVER_STAGE_INDEX"] == IntToString(i)
            && "SELF_PORT" in env && env["SELF_PORT"] == IntToString(cfg.startPort + i)
            && "DEST_ADDRESS" in env && env["DEST_ADDRESS"] == cfg.default
            && "DEST_PORT" in env
            && env["DEST_PORT"] == IntToString(cfg.startPort + DestIndex(i, cfg.count).value)
            && "THROTTLE_INTERVAL" in env && env["THROTTLE_INTERVAL"] == IntToString(cfg.throttleInterval)
            && "UPPER_BOUND" in env && env["UPPER_BOUND"] == IntToString(cfg.upperBound)
  {
    var values := PodVariableValues(cfg, i);
    var env := ToMap(PodVariables(cfg, i));
    ChartEnvironmentReads(values);
    assert env[ChartVariableNames[0]] == values[0] && env[ChartVariableNames[1]] == values[1];
    assert env[ChartVariableNames[4]] == values[4] && env[ChartVariableNames[8]] == values[8];
    assert env[ChartVariableNames[9]] == values[9] && env[ChartVariableNames[10]] == values[10];
    assert env[ChartVariableNames[11]] == values[11];
  }

  /**
   * The ring over ports: container `k` listens on the port it is told is its own, and sends to
   * the port the container of the next stage listens on, the last one to the first one's.
   */
  lemma PodsFormRing(cfg: SetupConfig, namespaceName: string, podLabels: seq<KeyValue>, image: string, k: nat)
    requires k < cfg.count
    ensures var d := CreateDeploymentTemplate(cfg, namespaceName, podLabels, image);
            var env := ToMap(d.containers[k].env);
            var next := if k + 1 < cfg.count then k + 1 else 0;
            && "SELF_PORT" in env && ParseInt(env["SELF_PORT"]) == Some(d.containers[k].ports[0].containerPort)
            && "DEST_PORT" in env && ParseInt(env["DEST_PORT"]) == Some(d.containers[next].ports[0].containerPort)
  {
    var d := CreateDeploymentTemplate(cfg, namespaceName, podLabels, image);
    RingPorts(cfg, image, d.containers, k);
  }

  /** Among the generated containers, container `k` listens on its own port variable and sends to the next one's port. */
  lemma RingPorts(cfg: SetupConfig, image: string, containers: seq<Container>, k: nat)
    requires |containers| == cfg.count
    requires forall j :: 0 <= j < cfg.count ==> containers[j] == StageContainer(cfg, image, j + 1)
    requires k < cfg.count
    ensures |containers[k].ports| == 1
    ensures var env := ToMap(containers[k].env);
            "SELF_PORT" in env && ParseInt(env["SELF_PORT"]) == Some(containers[k].ports[0].containerPort)
    ensures var env := ToMap(containers[k].env);
            var next := if k + 1 < cfg.count then k + 1 else 0;
            |containers[next].ports| == 1
            && "DEST_PORT" in env && ParseInt(env["DEST_PORT"]) == Some(containers[next].ports[0].containerPort)
  {
    var next := if k + 1 < cfg.count then k + 1 else 0;
    assert containers[k] == StageContainer(cfg, image, k + 1);
    assert containers[next] == StageContainer(cfg, image, next + 1);
    NextPosition(k, cfg.count);
    ContainerPortsOf(cfg, image, k + 1, containers[k], containers[next]);
  }

  /** `ContainerPorts` for a container and its destination's container given by name. */
  lemma ContainerPortsOf(cfg: SetupConfig, image: string, i: nat, c: Container, dest: Container)
    requires 1 <= i <= cfg.count
    requires c == StageContainer(cfg, image, i) && dest == StageContainer(cfg, image, DestIndex(i, cfg.count).value)
    ensures |c.ports| == 1 && |dest.ports| == 1
    ensures var env := ToMap(c.env);
            && "SELF_PORT" in env && ParseInt(env["SELF_PORT"]) == Some(c.ports[0].containerPort)
            && "DEST_PORT" in env && ParseInt(env["DEST_PORT"]) == Some(dest.ports[0].containerPort)
  {
    ContainerPorts(cfg, image, i);
  }

  /** Stage `i`'s container listens on its own port variable and sends to the port its destination's container listens on. */
  lemma ContainerPorts(cfg: SetupConfig, image: string, i: nat)
    requires 1 <= i <= cfg.count
    ensures var env := ToMap(StageContainer(cfg, image, i).env);
            var dest := StageContainer(cfg, image, DestIndex(i, cfg.count).value);
            && "SELF_PORT" in env && ParseInt(env["SELF_PORT"]) == Some(StageContainer(cfg, image, i).ports[0].containerPort)
            && "DEST_PORT" in env && ParseInt(env["DEST_PORT"]) == Some(dest.ports[0].containerPort)
  {
    var c := StageContainer(cfg, image, i);
    var d := DestIndex(i, cfg.count).value;
    PodEnvironmentReads(cfg, i);
    assert c.env == PodVariables(cfg, i);
    PortVariableReads(ToMap(c.env), "SELF_PORT", cfg.startPort + i);
    PortVariableReads(ToMap(c.env), "DEST_PORT", cfg.startPort + d);
    assert StageContainer(cfg, image, d).ports[0].containerPort == cfg.startPort + d;
  }

  /** A variable holding a port's decimal text reads back as the port. */
  lemma PortVariableReads(env: map<string, string>, name: string, port: int)
    requires name in env && env[name] == IntToString(port)
    ensures ParseInt(env[name]) == Some(port)
  {
    ParseIntToString(port);
  }

  /** No two containers of the pod listen on the same port. */
  lemma PodPortsDistinct(cfg: SetupConfig, namespaceName: string, podLabels: seq<KeyValue>, image: string, j: nat, k: nat)
    requires j < cfg.count && k < cfg.count && j != k
    ensures var d := CreateDeploymentTemplate(cfg, namespaceName, podLabels, image);
            d.containers[j].ports[0].containerPort != d.containers[k].ports[0].containerPort
  {
  }

  /**
   * Each container mounts its own volume at the TLS target, and the volume is filled from the
   * secret template of the same stage.
   */
  lemma VolumesReferenceSecrets(cfg: SetupConfig, namespaceName: string, podLabels: seq<KeyValue>, image: string, k: nat)
    requires k < cfg.count
    ensures var d := CreateDeploymentTemplate(cfg, namespaceName, podLabels, image);
            var secrets := SecretTemplates(cfg, namespaceName);
            && d.containers[k].mounts == [VolumeMount(d.volumes[k].name, cfg.tlsTarget, true)]
            && d.volumes[k].secretName == secrets[k + 1].metadata.name
            && secrets[k + 1].metadata.namespace == Some(d.namespaceName)
  {
  }

  /** The containers' environments, read by the relay's start-up checks as corrected: every stage starts. */
  lemma EveryPodStageStarts(cfg: SetupConfig, namespaceName: string, podLabels: seq<KeyValue>, image: string, k: nat)
    requires k < cfg.count
    ensures var d := CreateDeploymentTemplate(cfg, namespaceName, podLabels, image);
            var next := if k + 1 < cfg.count then k + 1 else 0;
            var r := ServerStartup(ToMap(d.containers[k].env));
            && r.Ok?
            && r.value.stageIndex == k + 1 && r.value.stageCount == cfg.count
            && r.value.destAddress == cfg.default
            && ParseInt(r.value.destPort) == Some(d.containers[next].ports[0].containerPort)
  {
    PodEnvironmentReads(cfg, k + 1);
    ServerReadsNumbers(ToMap(PodVariables(cfg, k + 1)), cfg.count, k + 1, cfg.throttleInterval, cfg.upperBound);
    PodsFormRing(cfg, namespaceName, podLabels, image, k);
  }

  /** With the start-up assert as written, the last container of the pod refuses to start. */
  lemma LastPodStageRefusedAsWritten(cfg: SetupConfig, namespaceName: string, podLabels: seq<KeyValue>, image: string)
    requires cfg.count >= 1
    ensures var d := CreateDeploymentTemplate(cfg, namespaceName, podLabels, image);
            ServerStartupAsWritten(ToMap(d.containers[cfg.count - 1].env)).Err?
  {
    PodEnvironmentReads(cfg, cfg.count);
    ServerReadsNumbers(ToMap(PodVariables(cfg, cfg.count)), cfg.count, cfg.count, cfg.throttleInterval, cfg.upperBound);
  }

  // ---------------------------------------------------------------------------------------------
  // Chart

  /** The objects of the chart, in the order they are generated. */
  datatype Chart = Chart(
    namespace: Namespace,
    policy: AdmissionPolicy<seq<ResourceRule>, seq<Validation>>,
    binding: PolicyBinding,
    secrets: seq<Secret>,
    deployment: Deployment,
    service: Service,
    ingress: Ingress,
    networkPolicy: NetworkPolicy)

  /** The label selecting the chart's pods. */
  function PodLabels(cfg: SetupConfig): seq<KeyValue> {
    [KeyValue("app.kubernetes.io/name", UseCaseName(cfg, UseCaseNum) + "-app")]
  }

  /**
   * `create_chart` after the files are copied: the namespace, the admission policy and its binding,
   * the secrets, the deployment, and the service, ingress and network policy in front of stage 1,
   * with the ingress and network policy made by the builders `b`.
   */
  function ChartWith(cfg: SetupConfig, image: string, b: Builders): Chart {
    var name := UseCaseName(cfg, UseCaseNum);
    var namespace := CreateNamespace(name, "baseline", DefaultVersion, NoOverrides);
    var namespaceName := namespace.metadata.name;
    var (policy, binding) := ImagePolicy(name, image, namespaceName);
    var labels := PodLabels(cfg);
    var port := cfg.startPort + 1;
    Chart(
      namespace, policy, binding,
      SecretTemplates(cfg, namespaceName),
      CreateDeploymentTemplate(cfg, namespaceName, labels, image),
      CreateService(name, namespaceName, labels, [ServicePort(port, "TCP", Some(port))], None),
      IngressBy(b, name, namespaceName, "nginx", cfg.domain, cfg.ingressName + "-secret",
                [IngressPath(cfg.startApi, "Exact", name + "-service", port)], None),
      NetworkPolicyBy(b, name, namespaceName, labels, cfg.defaultIp + "/32", [ServicePort(port, "TCP", None)], None))
  }

  /**
   * The chart `create_chart` generates: the ingress secret and one secret per stage, one deployment
   * whose pods the service and the network policy select, and the ingress and network policy as
   * `create_ingress` and `create_network_policy` write them, under the keys `TLS` and `_to`.
   */
  function CreateChart(cfg: SetupConfig, image: string): (c: Chart)
    ensures c.namespace.metadata.name == UseCaseName(cfg, UseCaseNum) + "-namespace"
    ensures |c.secrets| == 1 + cfg.count && c.secrets[0] == IngressSecret(cfg, c.namespace.metadata.name)
    ensures |c.deployment.containers| == cfg.count
    ensures c.service.selector == c.deployment.podLabels && c.networkPolicy.podSelector == c.deployment.podLabels
    ensures c.ingress.tlsField == "TLS" && |c.networkPolicy.egress| == 1 && c.networkPolicy.egress[0].peersField == "_to"
  {
    ChartWith(cfg, image, AsWrittenBuilders)
  }

  /** The chart with the ingress and network-policy keys the Kubernetes API reads, `tls` and `to`. */
  function CorrectedChart(cfg: SetupConfig, image: string): (c: Chart)
    ensures c.ingress.tlsField == "tls" && |c.networkPolicy.egress| == 1 && c.networkPolicy.egress[0].peersField == "to"
    ensures c.ingress.rules == CreateChart(cfg, image).ingress.rules
    ensures c.ingress.tls == CreateChart(cfg, image).ingress.tls
    ensures c.networkPolicy.ingress == CreateChart(cfg, image).networkPolicy.ingress
  {
    ChartWith(cfg, image, CorrectedBuilders)
  }

  /**
   * Every namespaced object lives in the chart's namespace, and the admission policy's binding
   * applies the policy to that namespace and no other.
   */
  lemma ChartInOneNamespace(cfg: SetupConfig, image: string, other: Namespace)
    ensures var c := CreateChart(cfg, image);
            var ns := c.namespace.metadata.name;
            && ns == UseCaseName(cfg, UseCaseNum) + "-namespace"
            && (forall k :: 0 <= k < |c.secrets| ==> c.secrets[k].metadata.namespace == Some(ns))
            && c.deployment.namespaceName == ns
            && c.service.metadata.namespace == Some(ns)
            && c.ingress.metadata.namespace == Some(ns)
            && c.networkPolicy.metadata.namespace == Some(ns)
            && c.binding.policyName == c.policy.metadata.name
            && Selects(c.binding.namespaceSelector, NamespaceLabels(c.namespace))
            && (Selects(c.binding.namespaceSelector, NamespaceLabels(other)) <==> other.metadata.name == ns)
  {
  }

  /** The admission policy's rule names the chart's image, and the chart's deployment runs only that image. */
  lemma DeploymentAdmitted(cfg: SetupConfig, image: string)
    ensures var c := CreateChart(cfg, image);
            && |c.policy.validations| == 1
            && Enclosed(c.policy.validations[0].expression, ImageRuleOpen, ImageRuleClose) == Some(image)
            && RunsOnly(c.deployment, image)
  {
    EnclosedOf(ImageRuleOpen, image, ImageRuleClose);
  }

  /**
   * The ingress routes its path to the chart's service on a port the service exposes, and the
   * service forwards to the port stage 1 listens on, on the pods the deployment labels.
   */
  lemma IngressReachesFirstStage(cfg: SetupConfig, image: string)
    requires cfg.count >= 1
    ensures var c := CreateChart(cfg, image);
            var backend := c.ingress.rules[0].paths[0];
            && c.ingress.rules == [IngressRule(cfg.domain, [backend])]
            && backend.path == cfg.startApi && backend.pathType == "Exact"
            && backend.serviceName == c.service.metadata.name
            && |c.service.ports| == 1 && backend.servicePort == c.service.ports[0].port
            && c.service.ports[0].targetPort == Some(c.deployment.containers[0].ports[0].containerPort)
            && c.service.selector == c.deployment.podLabels
  {
  }

  /**
   * As generated, the ingress names the chart's ingress secret for its host, but under the key
   * `TLS`, so it terminates TLS for no host. The secret has the type `kubernetes.io/TLS` and holds
   * the ingress's key and certificate.
   */
  lemma IngressTlsFromChartSecret(cfg: SetupConfig, image: string)
    ensures var c := CreateChart(cfg, image);
            var s := c.secrets[0];
            && c.ingress.tls == [IngressTls([cfg.domain], s.metadata.name)]
            && EffectiveTls(c.ingress) == []
            && s.secretType == "kubernetes.io/TLS"
            && |s.data| == 2 && s.data[0].key == "tls.key" && s.data[1].key == "tls.crt"
  {
    var c := CreateChart(cfg, image);
    IngressAsWrittenHasNoTls(UseCaseName(cfg, UseCaseNum), c.namespace.metadata.name, "nginx", cfg.domain,
                             cfg.ingressName + "-secret", c.ingress.rules[0].paths, None);
  }

  /** With the corrected key, the ingress terminates TLS for its host with the chart's ingress secret. */
  lemma CorrectedIngressServesTls(cfg: SetupConfig, image: string)
    ensures var c := CorrectedChart(cfg, image);
            EffectiveTls(c.ingress) == [IngressTls([cfg.domain], c.secrets[0].metadata.name)]
  {
    var c := CorrectedChart(cfg, image);
    IngressServesTlsForItsHost(UseCaseName(cfg, UseCaseNum), c.namespace.metadata.name, "nginx", cfg.domain,
                               cfg.ingressName + "-secret", c.ingress.rules[0].paths, None);
  }

  /**
   * As generated, the network policy admits traffic into the pods only from the external address
   * and the chart's namespace, on stage 1's port; its egress rule names no peers, so the pods may
   * reach every destination on that port.
   */
  lemma NetworkPolicyGuardsFirstStage(cfg: SetupConfig, image: string)
    requires cfg.count >= 1
    ensures var c := CreateChart(cfg, image);
            var np := c.networkPolicy;
            && np.podSelector == c.deployment.podLabels
            && RulePeers(np.ingress[0], "from") == Some(PolicyPeers(c.namespace.metadata.name, cfg.defaultIp + "/32"))
            && |np.ingress[0].ports| == 1
            && np.ingress[0].ports[0].port == c.deployment.containers[0].ports[0].containerPort
            && !EgressRestricted(np) && RulePeers(np.egress[0], "to").None?
  {
    var c := CreateChart(cfg, image);
    NetworkPolicyAsWrittenEgressOpen(UseCaseName(cfg, UseCaseNum), c.namespace.metadata.name, PodLabels(cfg),
                                     cfg.defaultIp + "/32", [ServicePort(cfg.startPort + 1, "TCP", None)], None);
  }

  /**
   * With the corrected key, the network policy restricts egress to the same two peers and the
   * same port as ingress.
   */
  lemma CorrectedPolicyGuardsFirstStage(cfg: SetupConfig, image: string)
    ensures var c := CorrectedChart(cfg, image);
            var np := c.networkPolicy;
            && EgressRestricted(np)
            && RulePeers(np.egress[0], "to") == RulePeers(np.ingress[0], "from")
               == Some(PolicyPeers(c.namespace.metadata.name, cfg.defaultIp + "/32"))
            && np.ingress[0].ports == np.egress[0].ports
  {
    var c := CorrectedChart(cfg, image);
    NetworkPolicySymmetric(UseCaseName(cfg, UseCaseNum), c.namespace.metadata.name, PodLabels(cfg), cfg.defaultIp + "/32",
                           [ServicePort(cfg.startPort + 1, "TCP", None)], None, c.namespace);
  }
}

=== FILE: relay.dfy ===
/**
 * One stage of the Fibonacci relay: it receives a pair of consecutive Fibonacci numbers, computes
 * the next pair, remembers a log identifier for it and forwards the pair to the next stage until
 * the upper bound is reached. The module-level globals of the two server implementations (the
 * Flask application of `rest.py` and the older form-based `server.py`) become an explicit `Relay`
 * state passed in and out; threads, HTTP and throttling sleeps become the `forward` part of an
 * outcome.
 */
module Relay {
  import opened Wrappers
  import opened Strings
  import opened JsonValue
  import opened Datastore

  /** `SNF_LOG_ID` (the last step processed) and `LAST_SNF_LOG_ID` (the step seen by the last healthcheck). */
  datatype Relay = Relay(snfLogId: string, lastSnfLogId: string)

  const NotAvailable := "N/A"

  function InitialRelay(): Relay {
    Relay(NotAvailable, NotAvailable)
  }

  /** The JSON reply of a route with its HTTP status code; `Unhandled` is an exception escaping the route. */
  datatype Reply = Reply(status: string, message: string, result: string, code: nat) | Unhandled

  /** A pair sent on to the next stage together with the log identifier of the step. */
  datatype Send = Send(fibOne: int, fibTwo: int, logId: string)

  datatype Outcome = Outcome(relay: Relay, reply: Reply, forward: Option<Send>)

  /** The validated environment of a stage. */
  datatype StageConfig = StageConfig(
    keyTarget: string,
    certTarget: string,
    caCertTarget: string,
    datastorePath: string,
    api: string,
    datastore: string,
    stageCount: int,
    stageIndex: int,
    destAddress: string,
    destPort: string,
    throttleInterval: int,
    upperBound: int)

  const ApiTypes: set<string> := {"rest", "grpc", "soap", "graphql", "mqtt"}
  const DatastoreTypes: set<string> := {"none", "file", "elasticstack", "mongodb", "postgresql"}

  const FailedNumbersMessage := "POST request failed. Unable to retrieve numbers."
  const SentMessage := "POST request succeeded. Sent off fibonacci numbers."
  const UpperBoundMessage := "POST request succeeded. Reached upper bound."
  const NewStepMessage := "GET healthcheck request succeeded. Server has processed a new step."
  const WaitingMessage := "GET healthcheck request succeeded. Server is waiting for some reason."
  const StartedMessage := "GET start request succeeded. Started fibonacci sequence."
  const FailedLogMessage := "POST datastore request failed. Unable to retrieve log."
  const SavedMessage := "POST datastore request succeeded. Saved log."
  const SavedOperationFailedMessage := "POST datastore request succeeded. Saved log. Subsequent operation log saving failed."
  const SaveFailedMessage := "POST datastore request failed. Saving log to file failed."

  // ---------------------------------------------------------------------------------------------
  // Startup validation

  /** `environ[name]` when present, `int(environ[name])` when it is an integer string. */
  function IntVariable(env: map<string, string>, name: string): Option<int> {
    if name in env then ParseInt(env[name]) else None
  }

  /**
   * Everything the `rest.py` startup asserts demand, stated as one condition: all variables are
   * set, the API and datastore are known kinds, the four numbers are integers and the index lies
   * in `1..count`.
   */
  predicate RestStartupHolds(env: map<string, string>) {
    && (forall name :: name in RestRequiredVariables ==> name in env)
    && env["SERVER_API"] in ApiTypes
    && env["SERVER_DATASTORE"] in DatastoreTypes
    && IntVariable(env, "SERVER_STAGE_COUNT").Some?
    && IntVariable(env, "SERVER_STAGE_INDEX").Some?
    && IntVariable(env, "THROTTLE_INTERVAL").Some?
    && IntVariable(env, "UPPER_BOUND").Some?
    && 0 < IntVariable(env, "SERVER_STAGE_INDEX").value <= IntVariable(env, "SERVER_STAGE_COUNT").value
  }

  const RestRequiredVariables: set<string> := {
    "SECRET_KEY_TARGET", "SECRET_CERT_TARGET", "SECRET_CA_CERT_TARGET",
    "DATASTORE_DEFAULT_FILEPATH", "DATASTORE_OPERATIONS_FILEPATH", "DATASTORE_FILEPATH",
    "SERVER_API", "SERVER_DATASTORE", "SERVER_STAGE_COUNT", "SERVER_STAGE_INDEX",
    "DEST_ADDRESS", "DEST_PORT", "THROTTLE_INTERVAL", "UPPER_BOUND"}

  /**
   * The module-level asserts of `rest.py`, in order; `Err` names the variable whose check (its
   * presence, its membership, its `int` conversion or the index range) fails first.
   */
  function RestStartup(env: map<string, string>): (r: Result<StageConfig, string>)
    ensures r.Ok? <==> RestStartupHolds(env)
    ensures r.Ok? ==> 0 < r.value.stageIndex <= r.value.stageCount
    ensures r.Ok? ==> r.value.api in ApiTypes && r.value.datastore in DatastoreTypes
    ensures r.Ok? ==> r.value.destAddress == env["DEST_ADDRESS"] && r.value.datastorePath == env["DATASTORE_FILEPATH"]
    ensures r.Ok? ==> r.value.api == env["SERVER_API"] && r.value.datastore == env["SERVER_DATASTORE"]
    ensures r.Ok? ==>
              && r.value.stageCount == IntVariable(env, "SERVER_STAGE_COUNT").value
              && r.value.stageIndex == IntVariable(env, "SERVER_STAGE_INDEX").value
              && r.value.throttleInterval == IntVariable(env, "THROTTLE_INTERVAL").value
              && r.value.upperBound == IntVariable(env, "UPPER_BOUND").value
    ensures r.Err? ==> r.error in RestRequiredVariables
  {
    if "SECRET_KEY_TARGET" !in env then Err("SECRET_KEY_TARGET")
    else if "SECRET_CERT_TARGET" !in env then Err("SECRET_CERT_TARGET")
    else if "SECRET_CA_CERT_TARGET" !in env then Err("SECRET_CA_CERT_TARGET")
    else if "DATASTORE_DEFAULT_FILEPATH" !in env then Err("DATASTORE_DEFAULT_FILEPATH")
    else if "DATASTORE_OPERATIONS_FILEPATH" !in env then Err("DATASTORE_OPERATIONS_FILEPATH")
    else if "DATASTORE_FILEPATH" !in env then Err("DATASTORE_FILEPATH")
    else if "SERVER_API" !in env || env["SERVER_API"] !in ApiTypes then Err("SERVER_API")
    else if "SERVER_DATASTORE" !in env || env["SERVER_DATASTORE"] !in DatastoreTypes then Err("SERVER_DATASTORE")
    else if IntVariable(env, "SERVER_STAGE_COUNT").None? then Err("SERVER_STAGE_COUNT")
    else if IntVariable(env, "SERVER_STAGE_INDEX").None? then Err("SERVER_STAGE_INDEX")
    else if !(0 < IntVariable(env, "SERVER_STAGE_INDEX").value <= IntVariable(env, "SERVER_STAGE_COUNT").value) then
      Err("SERVER_STAGE_INDEX")
    else if "DEST_ADDRESS" !in env then Err("DEST_ADDRESS")
    else if "DEST_PORT" !in env then Err("DEST_PORT")
    else if IntVariable(env, "THROTTLE_INTERVAL").None? then Err("THROTTLE_INTERVAL")
    else if IntVariable(env, "UPPER_BOUND").None? then Err("UPPER_BOUND")
    else
      Ok(StageConfig(
        env["SECRET_KEY_TARGET"], env["SECRET_CERT_TARGET"], env["SECRET_CA_CERT_TARGET"],
        env["DATASTORE_FILEPATH"], env["SERVER_API"], env["SERVER_DATASTORE"],
        IntVariable(env, "SERVER_STAGE_COUNT").value, IntVariable(env, "SERVER_STAGE_INDEX").value,
        env["DEST_ADDRESS"], env["DEST_PORT"],
        IntVariable(env, "THROTTLE_INTERVAL").value, IntVariable(env, "UPPER_BOUND").value))
  }

  /** The numbers `server.py` reads from its environment. */
  datatype ServerConfig = ServerConfig(
    stageCount: int,
    stageIndex: int,
    destAddress: string,
    destPort: string,
    throttleInterval: int,
    upperBound: int)

  /** The stage-index assert of `server.py` as written: the index must lie strictly below the count. */
  predicate ServerIndexAcceptedAsWritten(count: int, index: int) {
    0 < index < count
  }

  /** The stage-index check the ring needs, the one `rest.py` makes: every stage `1..count` is accepted. */
  predicate ServerIndexAccepted(count: int, index: int) {
    0 < index <= count
  }

  /** The module-level asserts of `server.py`, with the index check passed in. */
  function ServerStartupWith(env: map<string, string>, indexOk: (int, int) -> bool): (r: Result<ServerConfig, string>)
    ensures r.Ok? <==>
              (&& IntVariable(env, "SERVER_STAGE_COUNT").Some?
               && IntVariable(env, "SERVER_STAGE_INDEX").Some?
               && indexOk(IntVariable(env, "SERVER_STAGE_COUNT").value, IntVariable(env, "SERVER_STAGE_INDEX").value)
               && "DEST_ADDRESS" in env && "DEST_PORT" in env
               && IntVariable(env, "THROTTLE_INTERVAL").Some?
               && IntVariable(env, "UPPER_BOUND").Some?)
    ensures r.Ok? ==> indexOk(r.value.stageCount, r.value.stageIndex)
    ensures r.Ok? ==> r.value.stageIndex == IntVariable(env, "SERVER_STAGE_INDEX").value
    ensures r.Ok? ==> r.value.stageCount == IntVariable(env, "SERVER_STAGE_COUNT").value
  {
    if IntVariable(env, "SERVER_STAGE_COUNT").None? then Err("SERVER_STAGE_COUNT")
    else if IntVariable(env, "SERVER_STAGE_INDEX").None? then Err("SERVER_STAGE_INDEX")
    else if !indexOk(IntVariable(env, "SERVER_STAGE_COUNT").value, IntVariable(env, "SERVER_STAGE_INDEX").value) then
      Err("SERVER_STAGE_INDEX")
    else if "DEST_ADDRESS" !in env then Err("DEST_ADDRESS")
    else if "DEST_PORT" !in env then Err("DEST_PORT")
    else if IntVariable(env, "THROTTLE_INTERVAL").None? then Err("THROTTLE_INTERVAL")
    else if IntVariable(env, "UPPER_BOUND").None? then Err("UPPER_BOUND")
    else
      Ok(ServerConfig(
        IntVariable(env, "SERVER_STAGE_COUNT").value, IntVariable(env, "SERVER_STAGE_INDEX").value,
        env["DEST_ADDRESS"], env["DEST_PORT"],
        IntVariable(env, "THROTTLE_INTERVAL").value, IntVariable(env, "UPPER_BOUND").value))
  }

  /** `server.py`'s start-up as written: it accepts exactly the environments the corrected one does below the last stage. */
  function ServerStartupAsWritten(env: map<string, string>): (r: Result<ServerConfig, string>)
    ensures r.Ok? <==> ServerStartup(env).Ok? && ServerStartup(env).value.stageIndex < ServerStartup(env).value.stageCount
    ensures r.Ok? ==> r == ServerStartup(env)
  {
    ServerStartupWith(env, ServerIndexAcceptedAsWritten)
  }

  /** `server.py`'s start-up with the index check `rest.py` makes. */
  function ServerStartup(env: map<string, string>): (r: Result<ServerConfig, string>)
    ensures r.Ok? ==> 0 < r.value.stageIndex <= r.value.stageCount
    ensures r.Ok? <==> ServerStartupWith(env, ServerIndexAccepted).Ok?
  {
    ServerStartupWith(env, ServerIndexAccepted)
  }

  /**
   * An environment that carries the four numbers as the decimal text of `count`, `index`,
   * `throttle` and `upper`: the assert as written accepts it only below the last stage, the
   * corrected check for every stage `1..count`, and then reads back exactly those numbers.
   */
  lemma ServerReadsNumbers(env: map<string, string>, count: int, index: int, throttle: int, upper: int)
    requires "SERVER_STAGE_COUNT" in env && env["SERVER_STAGE_COUNT"] == IntToString(count)
    requires "SERVER_STAGE_INDEX" in env && env["SERVER_STAGE_INDEX"] == IntToString(index)
    requires "THROTTLE_INTERVAL" in env && env["THROTTLE_INTERVAL"] == IntToString(throttle)
    requires "UPPER_BOUND" in env && env["UPPER_BOUND"] == IntToString(upper)
    requires "DEST_ADDRESS" in env && "DEST_PORT" in env
    ensures ServerStartupAsWritten(env).Ok? <==> 0 < index < count
    ensures ServerStartup(env).Ok? <==> 0 < index <= count
    ensures ServerStartup(env).Ok? ==>
              ServerStartup(env).value == ServerConfig(count, index, env["DEST_ADDRESS"], env["DEST_PORT"], throttle, upper)
  {
    ParseIntToString(count);
    ParseIntToString(index);
    ParseIntToString(throttle);
    ParseIntToString(upper);
  }

  // ---------------------------------------------------------------------------------------------
  // The step

  /** The next pair: the sequence continues when `fibTwo > 0` and (re)starts at `(0, 1)` otherwise. */
  function NextPair(fibOne: int, fibTwo: int): (int, int) {
    if fibTwo > 0 then (fibTwo, fibOne + fibTwo) else (0, 1)
  }

  /** `f'{index}-{one}-{two}'`. */
  function LogId(index: int, one: int, two: int): string {
    IntToString(index) + "-" + IntToString(one) + "-" + IntToString(two)
  }

  /**
   * The step a stage takes on a received pair; it does not depend on how the pair arrived. The
   * throttling `sleep` comes before the log identifier is updated and raises on a negative interval.
   */
  function Advance(r: Relay, index: int, upperBound: int, throttle: int, fibOne: int, fibTwo: int): (o: Outcome)
    ensures throttle < 0 ==> o == Outcome(r, Unhandled, None)
    ensures throttle >= 0 ==>
              && o.relay.lastSnfLogId == r.lastSnfLogId
              && o.relay.snfLogId == LogId(index, NextPair(fibOne, fibTwo).0, NextPair(fibOne, fibTwo).1)
              && o.reply.Reply? && o.reply.status == "Success" && o.reply.result == o.relay.snfLogId
              && (o.forward.Some? <==> NextPair(fibOne, fibTwo).0 < upperBound)
              && o.reply.code == (if o.forward.Some? then 202 else 200)
    ensures o.forward.Some? ==>
              o.forward.value == Send(NextPair(fibOne, fibTwo).0, NextPair(fibOne, fibTwo).1, o.relay.snfLogId)
  {
    var (one, two) := NextPair(fibOne, fibTwo);
    var id := LogId(index, one, two);
    if throttle < 0 then
      Outcome(r, Unhandled, None)
    else if one < upperBound then
      Outcome(r.(snfLogId := id), Reply("Success", SentMessage, id, 202), Some(Send(one, two, id)))
    else
      Outcome(r.(snfLogId := id), Reply("Success", UpperBoundMessage, id, 200), None)
  }

  /** `int(x)` of a float: its integer part, the fraction cut off toward zero. */
  function TruncateReal(x: real): (n: int)
    ensures 0.0 <= x ==> n as real <= x < n as real + 1.0
    ensures x < 0.0 ==> n as real - 1.0 < x <= n as real
  {
    if x >= 0.0 then x.Floor else -((-x).Floor)
  }

  /** `int(v)` for a JSON value: integers, floats, integer strings and booleans convert. */
  function IntOf(v: Json): (n: Option<int>)
    ensures v.Num? ==> n == Some(v.n)
    ensures v.Float? ==> n == Some(TruncateReal(v.x))
    ensures v.Str? ==> n == ParseInt(v.s)
    ensures v.Bool? ==> n == Some(if v.b then 1 else 0)
    ensures v.Null? || v.Arr? || v.Obj? ==> n.None?
  {
    match v
    case Num(n) => Some(n)
    case Float(x) => Some(TruncateReal(x))
    case Str(s) => ParseInt(s)
    case Bool(b) => Some(if b then 1 else 0)
    case _ => None
  }

  /** `int(body[key])`; `None` when the body is not a dictionary, lacks the key or holds no integer. */
  function NumberField(body: Json, key: string): Option<int> {
    match Walk(body, [key])
    case Some(v) => IntOf(v)
    case None => None
  }

  /** The body `trigger_send` posts: `{'fib_one': one, 'fib_two': two}`. */
  function SendBody(fibOne: int, fibTwo: int): Json {
    Obj([Field("fib_one", Num(fibOne)), Field("fib_two", Num(fibTwo))])
  }

  /** The receiving stage reads back exactly the pair that was sent. */
  lemma SendBodyFields(one: int, two: int)
    ensures NumberField(SendBody(one, two), "fib_one") == Some(one)
    ensures NumberField(SendBody(one, two), "fib_two") == Some(two)
  {
    var fs := SendBody(one, two).fields;
    assert FindKey(fs, "fib_one") == Some(0);
    assert fs[1..][0].key == "fib_two";
    assert FindKey(fs[1..], "fib_two") == Some(0);
    assert FindKey(fs, "fib_two") == Some(1);
    assert ["fib_one"][1..] == [];
    assert ["fib_two"][1..] == [];
  }

  /**
   * What `get_json(force=True, silent=True)` hands the route: `None` for a body that is not JSON
   * (`None` here) and for the JSON literal `null`, the parsed value otherwise.
   */
  function Received(body: Option<Json>): (j: Option<Json>)
    ensures j.None? <==> body.None? || body == Some(Null)
    ensures j.Some? ==> j == body
  {
    if body == Some(Null) then None else body
  }

  /**
   * `process_fib_numbers` of `rest.py`: a body that reads as `None` is answered with 422; a body
   * without two integer fields raises.
   */
  function ProcessFibNumbers(r: Relay, cfg: StageConfig, body: Option<Json>): (o: Outcome)
    ensures Received(body).None? ==>
              o == Outcome(r, Reply("Fail", FailedNumbersMessage, r.snfLogId, 422), None)
    ensures Received(body).Some? && (NumberField(body.value, "fib_one").None? || NumberField(body.value, "fib_two").None?) ==>
              o == Outcome(r, Unhandled, None)
    ensures Received(body).Some? && NumberField(body.value, "fib_one").Some? && NumberField(body.value, "fib_two").Some? ==>
              o == Advance(r, cfg.stageIndex, cfg.upperBound, cfg.throttleInterval,
                           NumberField(body.value, "fib_one").value, NumberField(body.value, "fib_two").value)
  {
    match Received(body)
    case None => Outcome(r, Reply("Fail", FailedNumbersMessage, r.snfLogId, 422), None)
    case Some(j) =>
      match (NumberField(j, "fib_one"), NumberField(j, "fib_two"))
      case (Some(one), Some(two)) => Advance(r, cfg.stageIndex, cfg.upperBound, cfg.throttleInterval, one, two)
      case _ => Outcome(r, Unhandled, None)
  }

  /** `process_fib_numbers` of `server.py`, reading form fields; a missing or non-integer field raises. */
  function ServerProcessFibNumbers(r: Relay, cfg: ServerConfig, form: map<string, string>): (o: Outcome)
    ensures IntVariable(form, "fib_one").None? || IntVariable(form, "fib_two").None? ==> o == Outcome(r, Unhandled, None)
    ensures IntVariable(form, "fib_one").Some? && IntVariable(form, "fib_two").Some? ==>
              o == Advance(r, cfg.stageIndex, cfg.upperBound, cfg.throttleInterval,
                           IntVariable(form, "fib_one").value, IntVariable(form, "fib_two").value)
  {
    match (IntVariable(form, "fib_one"), IntVariable(form, "fib_two"))
    case (Some(one), Some(two)) => Advance(r, cfg.stageIndex, cfg.upperBound, cfg.throttleInterval, one, two)
    case _ => Outcome(r, Unhandled, None)
  }

  /** `start_fib`: the stage records step `index-0-0` and sends the pair `(0, 0)`. */
  function StartFib(r: Relay, index: int): (o: Outcome)
    ensures o.relay == r.(snfLogId := LogId(index, 0, 0))
    ensures o.reply == Reply("Success", StartedMessage, LogId(index, 0, 0), 202)
    ensures o.forward == Some(Send(0, 0, LogId(index, 0, 0)))
  {
    var id := LogId(index, 0, 0);
    Outcome(r.(snfLogId := id), Reply("Success", StartedMessage, id, 202), Some(Send(0, 0, id)))
  }

  /** `get_healthcheck`: reports whether a step was processed since the previous healthcheck. */
  function Healthcheck(r: Relay): (o: Outcome)
    ensures o.relay == Relay(r.snfLogId, r.snfLogId)
    ensures o.reply.Reply? && o.reply.code == 200 && o.reply.status == "Success" && o.reply.result == r.snfLogId
    ensures o.reply.message == NewStepMessage <==> r.lastSnfLogId != r.snfLogId
    ensures o.reply.message == WaitingMessage <==> r.lastSnfLogId == r.snfLogId
    ensures o.forward.None?
  {
    var msg := if r.lastSnfLogId != r.snfLogId then NewStepMessage else WaitingMessage;
    Outcome(Relay(r.snfLogId, r.snfLogId), Reply("Success", msg, r.snfLogId, 200), None)
  }

  /**
   * The reply of `process_log` once the body was read: `saved` holds what `save_log` returned,
   * the success of the primary save and of the operation-log save that follows it.
   */
  function LogReply(r: Relay, body: Option<Json>, saved: (bool, bool)): (reply: Reply)
    ensures body.None? ==> reply == Reply("Fail", FailedLogMessage, r.snfLogId, 422)
    ensures reply.Reply? && reply.result == r.snfLogId
    ensures body.Some? ==> (reply.code == 200 <==> saved.0) && (reply.code == 500 <==> !saved.0)
    ensures body.Some? ==> (reply.status == "Success" <==> saved.0)
    ensures body.Some? && saved.0 ==> (reply.message == SavedMessage <==> saved.1)
  {
    if body.None? then Reply("Fail", FailedLogMessage, r.snfLogId, 422)
    else if saved.0 && saved.1 then Reply("Success", SavedMessage, r.snfLogId, 200)
    else if saved.0 && !saved.1 then Reply("Success", SavedOperationFailedMessage, r.snfLogId, 200)
    else Reply("Fail", SaveFailedMessage, r.snfLogId, 500)
  }

  /** A received log: a dictionary whose values are all strings, as `','.join` needs. */
  function LogOfBody(body: Json): (log: Option<Log>)
    ensures log.Some? ==> body.Obj? && |log.value| == |body.fields|
    ensures log.Some? ==> forall i :: 0 <= i < |body.fields| ==>
              body.fields[i] == Field(log.value[i].key, Str(log.value[i].value))
  {
    match body
    case Obj(fs) =>
      if forall i :: 0 <= i < |fs| ==> fs[i].val.Str? then
        Some(seq(|fs|, i requires 0 <= i < |fs| && fs[i].val.Str? => Entry(fs[i].key, fs[i].val.s)))
      else None
    case _ => None
  }

  /** A received body that is not a log of text fields, as `','.join` meets it. */
  function UnjoinableOf(body: Json): Unjoinable {
    match body
    case Obj(fs) => NonStringValues(seq(|fs|, i requires 0 <= i < |fs| => fs[i].key))
    case _ => NotADictionary
  }

  /**
   * The reply of `process_log` and the datastore before the reply is reported: the log is saved
   * to the stage's datastore file (the main path of the store), followed by the operation-log save
   * reporting it. A body that is not a dictionary of strings raises once its row number is taken,
   * unless the file cannot be opened.
   */
  function SaveReceived(r: Relay, st: Store, body: Option<Json>, ctx: LogContext): (o: (Reply, Store))
    ensures Received(body).None? ==> o == (Reply("Fail", FailedLogMessage, r.snfLogId, 422), st)
    ensures Received(body).Some? && LogOfBody(body.value).Some? ==>
              var saved := SaveLog(st, st.paths.main, LogOfBody(body.value).value, ctx);
              saved.Ok? && o == (LogReply(r, body, (saved.value.success, saved.value.opSuccess)), saved.value.store)
    ensures Received(body).Some? && LogOfBody(body.value).None? ==>
              var attempt := SaveUnjoinable(st, st.paths.main, UnjoinableOf(body.value), ctx);
              && attempt.Ok?
              && (attempt.value.Raised? ==> o == (Unhandled, attempt.value.store))
              && (attempt.value.Completed? ==>
                    o == (LogReply(r, body, (false, attempt.value.saved.opSuccess)), attempt.value.saved.store))
  {
    match Received(body)
    case None => (LogReply(r, None, (false, false)), st)
    case Some(j) =>
      match LogOfBody(j)
      case Some(log) =>
        var saved := SaveLog(st, st.paths.main, log, ctx).value;
        (LogReply(r, body, (saved.success, saved.opSuccess)), saved.store)
      case None =>
        match SaveUnjoinable(st, st.paths.main, UnjoinableOf(j), ctx).value
        case Raised(store) => (Unhandled, store)
        case Completed(saved) => (LogReply(r, body, (saved.success, saved.opSuccess)), saved.store)
  }

  /**
   * `process_log`: every reply is reported with `report_log` before it is returned, as a `send`
   * log when the log was saved and a `receive` log otherwise; `remote` is what the remote
   * datastore answers when the stage's datastore type is `file`.
   */
  function ProcessLog(r: Relay, st: Store, body: Option<Json>, ctx: LogContext, datastore: string, remote: string)
    : (o: (Reply, Store))
    ensures o.0 == SaveReceived(r, st, body, ctx).0
    ensures o.0.Unhandled? ==> o.1 == SaveReceived(r, st, body, ctx).1
    ensures o.0.Reply? ==>
              var logType := if o.0.code == 200 then SendType else ReceiveType;
              o.1 == ReportLog(SaveReceived(r, st, body, ctx).1, datastore, logType, [OnCall, DatastoreKind],
                               o.0.message, ctx, remote)
  {
    var (reply, saved) := SaveReceived(r, st, body, ctx);
    match reply
    case Unhandled => (reply, saved)
    case Reply(_, msg, _, code) =>
      (reply, ReportLog(saved, datastore, if code == 200 then SendType else ReceiveType, [OnCall, DatastoreKind],
                        msg, ctx, remote))
  }

  /**
   * A refused body leaves the stage's own file alone, yet the refusal itself is reported: a
   * `receive` log of the failure message goes to the datastore.
   */
  lemma RefusedLogIsReported(r: Relay, st: Store, body: Option<Json>, ctx: LogContext, datastore: string, remote: string)
    requires Received(body).None?
    ensures
      var o := ProcessLog(r, st, body, ctx, datastore, remote);
      && o.0.code == 422
      && o.1 == SendLog(st, datastore, CreateLog(ReceiveType, [OnCall, DatastoreKind], ctx.time, ctx.config,
                                                   FailedLogMessage, ctx.digest), ctx, remote).value
      && Total(o.1.counts) == Total(st.counts) + ReportedRows(datastore)
  {
  }

  /**
   * A log of text fields takes two rows of its own (the log and the operation log of its save),
   * followed by the rows of the report of the reply.
   */
  lemma StoredLogRows(r: Relay, st: Store, body: Json, ctx: LogContext, datastore: string, remote: string)
    requires body != Null && LogOfBody(body).Some?
    ensures
      var o := ProcessLog(r, st, Some(body), ctx, datastore, remote);
      Total(o.1.counts) == Total(st.counts) + 2 + ReportedRows(datastore)
  {
  }

  /**
   * With both files reachable a stored log is acknowledged with 200; with the stage's own file
   * unreachable the route answers 500 whatever the body, even one it could not have saved.
   */
  lemma ProcessLogStatus(r: Relay, st: Store, body: Json, ctx: LogContext, datastore: string, remote: string)
    requires body != Null
    ensures LogOfBody(body).Some? && st.paths.main !in st.unreachable && st.paths.operations !in st.unreachable ==>
              ProcessLog(r, st, Some(body), ctx, datastore, remote).0 == Reply("Success", SavedMessage, r.snfLogId, 200)
    ensures st.paths.main in st.unreachable ==>
              ProcessLog(r, st, Some(body), ctx, datastore, remote).0 == Reply("Fail", SaveFailedMessage, r.snfLogId, 500)
  {
    SavedReplyStatus(r, st, body, ctx);
  }

  lemma SavedReplyStatus(r: Relay, st: Store, body: Json, ctx: LogContext)
    requires body != Null
    ensures LogOfBody(body).Some? && st.paths.main !in st.unreachable && st.paths.operations !in st.unreachable ==>
              SaveReceived(r, st, Some(body), ctx).0 == Reply("Success", SavedMessage, r.snfLogId, 200)
    ensures st.paths.main in st.unreachable ==>
              SaveReceived(r, st, Some(body), ctx).0 == Reply("Fail", SaveFailedMessage, r.snfLogId, 500)
  {
    if LogOfBody(body).Some? {
      var log := LogOfBody(body).value;
      var first := SaveOne(st, st.paths.main, log).value;
      var details := if first.success then SavedDetails else NotFoundDetails;
      if st.paths.operations !in st.unreachable {
        SaveOneAppends(first.store, st.paths.operations, OperationLogFor(ctx, details));
      }
    }
  }

  /**
   * A body that is not a log of text fields, sent to a reachable file, goes unanswered, yet its
   * row number is spent and a new file is left behind.
   */
  lemma UnjoinableBodyRaises(r: Relay, st: Store, body: Json, ctx: LogContext, datastore: string,
                               remote: string)
    requires body != Null && LogOfBody(body).None? && st.paths.main !in st.unreachable
    ensures
      var o := ProcessLog(r, st, Some(body), ctx, datastore, remote);
      && o.0 == Unhandled
      && o.1.counts == st.counts.(main := st.counts.main + 1)
      && st.paths.main in o.1.files
  {
  }

  // ---------------------------------------------------------------------------------------------
  // Properties of the relay

  /** A second healthcheck with no step in between reports that the stage is waiting. */
  lemma SecondHealthcheckWaits(r: Relay)
    ensures Healthcheck(Healthcheck(r).relay).reply.message == WaitingMessage
  {
  }

  /** A healthcheck after a step reports progress exactly when the step's log identifier is new. */
  lemma HealthcheckSeesStep(r: Relay, cfg: StageConfig, one: int, two: int)
    ensures
      var checked := Healthcheck(r).relay;
      var stepped := ProcessFibNumbers(checked, cfg, Some(SendBody(one, two))).relay;
      Healthcheck(stepped).reply.message == NewStepMessage
      <==> stepped.snfLogId != r.snfLogId
  {
    SendBodyFields(one, two);
  }

  function Fib(n: nat): nat {
    if n < 2 then n else Fib(n - 1) + Fib(n - 2)
  }

  lemma {:induction false} FibMonotone(m: nat, n: nat)
    requires m <= n
    ensures Fib(m) <= Fib(n)
    decreases n
  {
    if m < n {
      FibMonotone(m, n - 1);
    }
  }

  lemma {:induction false} FibGrows(n: nat)
    requires n >= 1
    ensures Fib(n) >= n - 1
    decreases n
  {
    if n > 3 {
      FibGrows(n - 1);
      FibGrows(n - 2);
    }
  }

  /** The pair carried by the `k`-th message of a run: `(0, 0)` from `/start`, then `(F(k-1), F(k))`. */
  function FibPair(k: nat): (int, int) {
    if k == 0 then (0, 0) else (Fib(k - 1), Fib(k))
  }

  /**
   * The pair in the `k`-th message of a run started by `/start` (message 0), each message being
   * the forward of the stage that received the one before; `None` once a stage stopped. Every stage
   * runs with the same upper bound and throttle interval; the stage state and index do not
   * influence what is forwarded.
   */
  function Delivered(upperBound: int, throttle: int, k: nat): Option<(int, int)> {
    if k == 0 then
      var s := StartFib(InitialRelay(), 1).forward.value;
      Some((s.fibOne, s.fibTwo))
    else
      match Delivered(upperBound, throttle, k - 1)
      case None => None
      case Some((one, two)) =>
        var o := Advance(InitialRelay(), 1, upperBound, throttle, one, two);
        if o.forward.Some? then Some((o.forward.value.fibOne, o.forward.value.fibTwo)) else None
  }

  /**
   * The relay computes the Fibonacci sequence: message `k` exists exactly while every stage so far
   * stayed below the bound, and then carries `(F(k-1), F(k))`; a negative throttle interval stops
   * the run at the first stage.
   */
  lemma {:induction false} DeliveredIsFibonacci(upperBound: int, throttle: int, k: nat)
    ensures Delivered(upperBound, throttle, k) ==
              if k == 0 || (throttle >= 0 && Fib(k - 1) < upperBound) then Some(FibPair(k)) else None
    decreases k
  {
    if k > 0 {
      DeliveredIsFibonacci(upperBound, throttle, k - 1);
      if k >= 2 && Fib(k - 1) < upperBound {
        FibMonotone(k - 2, k - 1);
      }
      if k >= 2 && Fib(k - 2) >= upperBound {
        FibMonotone(k - 2, k - 1);
      }
    }
  }

  /** Whatever the bound, a run stops: no message follows message `StopStep(upperBound) - 1`. */
  function StopStep(upperBound: int): nat {
    if upperBound < 0 then 1 else upperBound + 2
  }

  lemma RelayStops(upperBound: int, throttle: int, k: nat)
    requires k >= StopStep(upperBound)
    ensures Delivered(upperBound, throttle, k).None?
  {
    DeliveredIsFibonacci(upperBound, throttle, k);
    if upperBound >= 0 {
      FibGrows(upperBound + 1);
      FibMonotone(upperBound + 1, k - 1);
    }
  }

  /**
   * Log identifiers tell steps apart: the index and the first number are never negative in a
   * step, so the two dashes are found again.
   */
  lemma LogIdInjective(i: int, a: int, b: int, j: int, c: int, d: int)
    requires i >= 0 && a >= 0 && j >= 0 && c >= 0
    requires LogId(i, a, b) == LogId(j, c, d)
    ensures i == j && a == c && b == d
  {
    var x := IntToString(a) + "-" + IntToString(b);
    var y := IntToString(c) + "-" + IntToString(d);
    DashAssociates(IntToString(i), IntToString(a), IntToString(b));
    DashAssociates(IntToString(j), IntToString(c), IntToString(d));
    NatBeforeDash(i, x, j, y);
    NatBeforeDash(a, IntToString(b), c, IntToString(d));
    IntToStringInjective(b, d);
  }

  /** Regrouping a three-part identifier around its first dash. */
  lemma DashAssociates(p: string, q: string, u: string)
    ensures p + "-" + q + "-" + u == p + "-" + (q + "-" + u)
  {
  }

  /** A non-negative number followed by a dash is read back, and so is what follows the dash. */
  lemma NatBeforeDash(i: int, x: string, j: int, y: string)
    requires i >= 0 && j >= 0
    requires IntToString(i) + "-" + x == IntToString(j) + "-" + y
    ensures i == j && x == y
  {
    assert IntToString(i) + "-" + x == NatToString(i) + ['-'] + x;
    assert IntToString(j) + "-" + y == NatToString(j) + ['-'] + y;
    DigitsBeforeSeparator(NatToString(i), x, NatToString(j), y, '-');
    NatToStringInjective(i, j);
  }
}

=== FILE: ring.dfy ===
/**
 * The ring of relay stages shared by every deployment generator: stage `i` of `1..count` is named
 * `namePrefix-i`, reachable at `namePrefix-i.domain` and `prefix.(startAddress+i)`, and forwards
 * to stage `i+1`, the last stage forwarding to stage 1.
 */
module Ring {
  import opened Wrappers
  import opened Strings

  /** `f'{namePrefix}-{i}'`. */
  function StageName(namePrefix: string, i: nat): string {
    namePrefix + "-" + NatToString(i)
  }

  /** `f'{namePrefix}-{i}.{domain}'`. */
  function StageHost(namePrefix: string, i: nat, domain: string): string {
    StageName(namePrefix, i) + "." + domain
  }

  /** `f'{prefix}.{startAddress + i}'`. */
  function StageIp(netPrefix: string, startAddress: int, i: nat): string {
    netPrefix + "." + IntToString(startAddress + i)
  }

  /**
   * The stage that stage `i` forwards to: `i+1` below the count, 1 for the last stage, and `None`
   * (the generators' `IndexError`) past the count.
   */
  function DestIndex(i: nat, count: nat): (d: Option<nat>)
    ensures d.Some? <==> i <= count
    ensures 1 <= i <= count ==> d == Some(i % count + 1)
  {
    if i < count then Some(i + 1)
    else if i == count then Some(1)
    else None
  }

  /** The stage reached from `s` after `k` forwards; it never leaves the ring. */
  function Hops(s: nat, count: nat, k: nat): (t: nat)
    requires 1 <= s <= count
    ensures 1 <= t <= count
    decreases k
  {
    if k == 0 then s else DestIndex(Hops(s, count, k - 1), count).value
  }

  /** Forwarding walks the ring in order: up to `count` forwards from stage `s` move `k` stages on, wrapping past the last. */
  lemma {:induction false} HopsAroundRing(s: nat, count: nat, k: nat)
    requires 1 <= s <= count && k <= count
    ensures Hops(s, count, k) == if s + k <= count then s + k else s + k - count
    decreases k
  {
    if k > 0 {
      HopsAroundRing(s, count, k - 1);
    }
  }

  lemma {:induction false} HopsCompose(s: nat, count: nat, a: nat, b: nat)
    requires 1 <= s <= count
    ensures Hops(s, count, a + b) == Hops(Hops(s, count, a), count, b)
    decreases b
  {
    if b > 0 {
      HopsCompose(s, count, a, b - 1);
    }
  }

  /** A message that has gone once around the ring is back at the stage it started from. */
  lemma FullCircle(s: nat, count: nat, k: nat)
    requires 1 <= s <= count
    ensures Hops(s, count, count) == s
    ensures Hops(s, count, k + count) == Hops(s, count, k)
  {
    HopsAroundRing(s, count, count);
    HopsCompose(s, count, k, count);
    HopsAroundRing(Hops(s, count, k), count, count);
  }

  /** In 0-based positions, position `k` forwards to the next position, the last one to position 0. */
  lemma NextPosition(k: nat, count: nat)
    requires k < count
    ensures DestIndex(k + 1, count) == Some((if k + 1 < count then k + 1 else 0) + 1)
  {
  }

  /** Every stage of the ring is forwarded to by exactly one stage. */
  lemma DestIndexIsPermutation(i: nat, j: nat, count: nat)
    requires 1 <= i <= count && 1 <= j <= count
    ensures DestIndex(i, count) == DestIndex(j, count) ==> i == j
    ensures exists p :: 1 <= p <= count && DestIndex(p, count) == Some(i)
  {
    if i == 1 {
      assert DestIndex(count, count) == Some(1);
    } else {
      assert DestIndex(i - 1, count) == Some(i);
    }
  }

  /** Different stages have different names. */
  lemma StageNameInjective(namePrefix: string, i: nat, j: nat)
    requires StageName(namePrefix, i) == StageName(namePrefix, j)
    ensures i == j
  {
    var n := |namePrefix| + 1;
    assert StageName(namePrefix, i)[n..] == NatToString(i);
    assert StageName(namePrefix, j)[n..] == NatToString(j);
    NatToStringInjective(i, j);
  }

  /**
   * A stage name followed by a non-digit separator determines the stage: `namePrefix-i` cannot be
   * confused with `namePrefix-ij` once the separator is there.
   */
  lemma StageNameBeforeSeparator(namePrefix: string, i: nat, j: nat, c: char, x: string, y: string)
    requires !IsDigit(c)
    requires StageName(namePrefix, i) + [c] + x == StageName(namePrefix, j) + [c] + y
    ensures i == j && x == y
  {
    var n := |namePrefix| + 1;
    var s := StageName(namePrefix, i) + [c] + x;
    var t := StageName(namePrefix, j) + [c] + y;
    assert s[n..] == NatToString(i) + [c] + x;
    assert t[n..] == NatToString(j) + [c] + y;
    DigitsBeforeSeparator(NatToString(i), x, NatToString(j), y, c);
    NatToStringInjective(i, j);
  }

  /** Different stages have different host names within one domain. */
  lemma StageHostInjective(namePrefix: string, i: nat, j: nat, domain: string)
    requires StageHost(namePrefix, i, domain) == StageHost(namePrefix, j, domain)
    ensures i == j
  {
    StageNameBeforeSeparator(namePrefix, i, j, '.', domain, domain);
  }
}

=== FILE: server_tls.dfy ===
/**
 * The server image's start-up issuance: the image reads the certificate authority's key and
 * certificate, issues itself a certificate for the configured names and addresses, and writes
 * the key, the certificate, their PEM bundle and the chain file under the configured target.
 *
 * Reading the authority's files and generating the key are not modelled: the authority's key
 * and certificate, the new key, the serial number and the clock reading are parameters. The
 * configured addresses are kept as the text they are configured as.
 */
module ServerTls {
  import opened Wrappers
  import opened Strings
  import opened X509
  import opened Issuance

  // ---------------------------------------------------------------------------------------------
  // Issuance

  /** The `tls` settings `create_tls_materials` reads. */
  datatype TlsSettings = TlsSettings(
    sanIps: string,
    sanNames: string,
    certDays: int,
    secretTarget: string,
    keyExt: string,
    certExt: string,
    pemExt: string,
    caSuffix: string)

  /** What the image's issuance raises: the authority's certificate has no Subject Key Identifier. */
  datatype TlsError = ExtensionNotFound

  /** `TLS_SAN_NAMES.split(',')`. */
  function SanNames(t: TlsSettings): seq<string> {
    Split(t.sanNames, ',')
  }

  /** `TLS_SAN_IPS.split(',')`. */
  function SanIps(t: TlsSettings): seq<string> {
    Split(t.sanIps, ',')
  }

  /**
   * `create_tls_materials` of the server image: the certificate for the first configured name,
   * every name and address in its Subject Alternative Name, issued by the authority, and the
   * files written.
   */
  function ServerTlsMaterials(t: TlsSettings, caKey: PrivateKey, caCert: Certificate, key: PrivateKey, serial: nat, now: int)
    : (r: Result<(Certificate, seq<Artifact>), TlsError>)
    ensures r.Ok? <==> SubjectKeyId(caCert).Some?
    ensures r.Ok? ==> |r.value.1| == 4
  {
    var names, ips := SanNames(t), SanIps(t);
    if SubjectKeyId(caCert).None? then Err(ExtensionNotFound)
    else
      var issuer := Issuer(caKey, caCert);
      var cert := CreateKeyCert(Name("US", names[0]), ServerSan(names, ips), t.certDays, key, serial, now,
                                Some(issuer), Role(false, true, false));
      Ok((cert, KeyCertArtifacts(t.secretTarget, t.keyExt, t.certExt, t.pemExt, t.caSuffix, key, cert, false, Some(issuer))))
  }

  /**
   * The image's certificate names the first configured name as its subject, lists every
   * configured name and then every configured address (each list rejoins into its setting), conforms to the
   * profile, is linked to the authority exactly when that authority's key is the one of its
   * certificate and it may sign certificates; the key, the certificate and the chain go to
   * the files named after the secret target.
   */
  lemma ServerCertificateSpec(t: TlsSettings, caKey: PrivateKey, caCert: Certificate, key: PrivateKey, serial: nat, now: int)
    requires ServerTlsMaterials(t, caKey, caCert, key, serial, now).Ok?
    ensures var (cert, files) := ServerTlsMaterials(t, caKey, caCert, key, serial, now).value;
            var names := SanNames(t);
            && Join(names, ",") == t.sanNames && Join(SanIps(t), ",") == t.sanIps
            && cert.subject == Name("US", names[0]) && DnsName(names[0]) in AltNamesOf(cert)
            && AltNamesOf(cert) == ServerSan(names, SanIps(t))
            && cert.publicKey == PublicKeyOf(key) && ConformsToProfile(cert)
            && cert.notAfter == now + t.certDays * SecondsPerDay
            && (ChainLink(cert, caCert)
                <==> PublicKeyOf(caKey) == caCert.publicKey && IsCaCertificate(caCert) && CanSignCertificates(caCert))
            && files[0] == Artifact(FilePath(t.secretTarget, t.keyExt), [KeyPem(key)])
            && files[1] == Artifact(FilePath(t.secretTarget, t.certExt), [CertPem(cert)])
            && files[3] == Artifact(FilePath(t.secretTarget + "-" + t.caSuffix, t.certExt), [CertPem(cert), Newline, CertPem(caCert)])
  {
    var names, ips := SanNames(t), SanIps(t);
    var issuer := Issuer(caKey, caCert);
    var cert := CreateKeyCert(Name("US", names[0]), ServerSan(names, ips), t.certDays, key, serial, now,
                              Some(issuer), Role(false, true, false));
    assert ServerTlsMaterials(t, caKey, caCert, key, serial, now).value
           == (cert, KeyCertArtifacts(t.secretTarget, t.keyExt, t.certExt, t.pemExt, t.caSuffix, key, cert, false, Some(issuer)));
    JoinSplit(t.sanNames, ',');
    JoinSplit(t.sanIps, ',');
    ServerCertificateChains(names, ips, t.certDays, caKey, caCert, key, serial, now);
    ServerFiles(t, key, cert, issuer);
  }

  /** The key, the certificate and the chain are written under the secret target. */
  lemma ServerFiles(t: TlsSettings, key: PrivateKey, cert: Certificate, issuer: Issuer)
    ensures var files := KeyCertArtifacts(t.secretTarget, t.keyExt, t.certExt, t.pemExt, t.caSuffix, key, cert, false, Some(issuer));
            && files[0] == Artifact(FilePath(t.secretTarget, t.keyExt), [KeyPem(key)])
            && files[1] == Artifact(FilePath(t.secretTarget, t.certExt), [CertPem(cert)])
            && files[3] == Artifact(FilePath(t.secretTarget + "-" + t.caSuffix, t.certExt), [CertPem(cert), Newline, CertPem(issuer.cert)])
  {
  }

  /**
   * The image's certificate lists the first name among its alternative names, conforms to the
   * profile, and is linked to the authority exactly when the authority may sign it.
   */
  lemma ServerCertificateChains(names: seq<string>, ips: seq<string>, certDays: int, caKey: PrivateKey, caCert: Certificate,
                                key: PrivateKey, serial: nat, now: int)
    requires |names| > 0 && SubjectKeyId(caCert).Some?
    ensures var cert := CreateKeyCert(Name("US", names[0]), ServerSan(names, ips), certDays, key, serial, now,
                                      Some(Issuer(caKey, caCert)), Role(false, true, false));
            && AltNamesOf(cert) == ServerSan(names, ips) && DnsName(names[0]) in AltNamesOf(cert)
            && ConformsToProfile(cert)
            && (ChainLink(cert, caCert)
                <==> PublicKeyOf(caKey) == caCert.publicKey && IsCaCertificate(caCert) && CanSignCertificates(caCert))
  {
    var cert := CreateKeyCert(Name("US", names[0]), ServerSan(names, ips), certDays, key, serial, now,
                              Some(Issuer(caKey, caCert)), Role(false, true, false));
    assert AltNamesOf(cert)[0] == DnsName(names[0]);
  }
}

=== FILE: settings.dfy ===
/**
 * The layered server configuration of the relay image: enumerating the dotted setting paths of
 * the default configuration, reading and overwriting a setting by dotted path, and building the
 * runtime configuration with the precedence environment > custom file > default file.
 */
module Settings {
  import opened Wrappers
  import opened Strings
  import opened JsonValue

  /**
   * `get_all_settings(cur_config, prefix)` for a dictionary with fields `fs`: in dictionary order,
   * `prefix + key + "."` followed by the paths below it for a dictionary value, and
   * `prefix + key` for any other value.
   */
  function GetAllSettings(fs: seq<Field>, prefix: string): (paths: seq<string>)
    ensures |paths| >= |fs|
    ensures forall i :: 0 <= i < |paths| ==> prefix <= paths[i]
    decreases fs
  {
    if |fs| == 0 then []
    else
      var k := fs[0].key;
      (match fs[0].val
       case Obj(child) => [prefix + k + "."] + GetAllSettings(child, prefix + k + ".")
       case _ => [prefix + k])
      + GetAllSettings(fs[1..], prefix)
  }

  predicate EndsWithDot(p: string) {
    |p| > 0 && p[|p| - 1] == '.'
  }

  /** `key_string.split('.')`. */
  function PathKeys(path: string): (ks: seq<string>)
    ensures |ks| > 0
  {
    Split(path, '.')
  }

  /** `ks` leads to a dictionary. */
  predicate IsDictAddress(c: Json, ks: seq<string>) {
    Walk(c, ks).Some? && Walk(c, ks).value.Obj?
  }

  /**
   * Every dictionary key is non-empty, free of dots and unique within its dictionary: the
   * configurations for which a dotted path names exactly one setting.
   */
  ghost predicate WellKeyed(c: Json)
    decreases c
  {
    match c
    case Obj(fs) =>
      && (forall i :: 0 <= i < |fs| ==> fs[i].key != "" && '.' !in fs[i].key && WellKeyed(fs[i].val))
      && (forall i, j :: 0 <= i < j < |fs| ==> fs[i].key != fs[j].key)
    case _ => true
  }

  /** `access_nested_setting(cur_config, key_string)`: the stored value, `None` (`Null`) if unreachable. */
  function Read(c: Json, path: string): Json {
    match Walk(c, PathKeys(path))
    case Some(v) => v
    case None => Null
  }

  /** The dictionary after `access_nested_setting(cur_config, key_string, new_value)` has run. */
  function Write(c: Json, path: string, v: Json): Json {
    WriteAt(c, PathKeys(path), v)
  }

  /**
   * `access_nested_setting(cur_config, key_string, new_value)`: the returned value and the
   * dictionary afterwards. A `new_value` of `None` makes the call a read.
   */
  function AccessNestedSetting(c: Json, path: string, newValue: Json): (r: (Json, Json))
    ensures newValue == Null ==> r.1 == c
    ensures newValue != Null ==> r.0 == Null
    ensures Walk(c, PathKeys(path)).None? ==> r == (Null, c)
    ensures newValue != Null && Walk(c, PathKeys(path)).Some? ==> Read(r.1, path) == newValue
  {
    if newValue == Null then (Read(c, path), c)
    else
      var c' := Write(c, path, newValue);
      if Walk(c, PathKeys(path)).None? then
        WriteAtMissingPath(c, PathKeys(path), newValue);
        (Null, c')
      else
        WalkAfterWrite(c, PathKeys(path), newValue);
        (Null, c')
  }

  /** Reading a path just written gives back the written value. */
  lemma ReadAfterWrite(c: Json, path: string, v: Json)
    requires Walk(c, PathKeys(path)).Some?
    ensures Read(Write(c, path, v), path) == v
  {
    WalkAfterWrite(c, PathKeys(path), v);
  }

  /**
   * A write changes nothing when the path is missing, and otherwise leaves every path that
   * branches off the written one as it was.
   */
  lemma WriteFrame(c: Json, path: string, v: Json, other: seq<string>)
    ensures Walk(c, PathKeys(path)).None? ==> Write(c, path, v) == c
    ensures DivergeAt(PathKeys(path), other, CommonPrefix(PathKeys(path), other)) ==>
              Walk(Write(c, path, v), other) == Walk(c, other)
  {
    if Walk(c, PathKeys(path)).None? {
      WriteAtMissingPath(c, PathKeys(path), v);
    }
    var n := CommonPrefix(PathKeys(path), other);
    if DivergeAt(PathKeys(path), other, n) {
      WalkAfterWriteElsewhere(c, PathKeys(path), other, n, v);
    }
  }

  lemma LookupFirstField(fs: seq<Field>, ks: seq<string>)
    requires |fs| > 0 && |ks| > 0 && ks[0] == fs[0].key
    ensures Walk(Obj(fs), ks) == Walk(fs[0].val, ks[1..])
  {
  }

  lemma LookupLaterField(fs: seq<Field>, ks: seq<string>)
    requires |fs| > 0 && |ks| > 0 && ks[0] != fs[0].key
    ensures Walk(Obj(fs), ks) == Walk(Obj(fs[1..]), ks)
  {
  }

  /** The part of a yielded path below `prefix`, without the trailing dot of a parent path. */
  function Below(prefix: string, p: string): string
    requires |prefix| < |p|
  {
    if EndsWithDot(p) then p[|prefix|..|p| - 1] else p[|prefix|..]
  }

  /**
   * `p` extends `prefix`; below the prefix, a path ending in a dot names a dictionary (once the
   * dot is dropped), and any other path names a value that is not a dictionary.
   */
  predicate AddressedBelow(c: Json, prefix: string, p: string) {
    && |prefix| < |p| && p[..|prefix|] == prefix
    && (EndsWithDot(p) ==> IsDictAddress(c, PathKeys(Below(prefix, p))))
    && (!EndsWithDot(p) ==> IsLeafAddress(c, PathKeys(Below(prefix, p))))
  }

  /** In a configuration with unique keys, a path found among the later fields is found the same way in the whole. */
  lemma WalkPastFirstField(fs: seq<Field>, ks: seq<string>)
    requires WellKeyed(Obj(fs)) && |fs| > 0 && |ks| > 0
    requires Walk(Obj(fs[1..]), ks).Some?
    ensures Walk(Obj(fs), ks) == Walk(Obj(fs[1..]), ks)
  {
    var j := FindKey(fs[1..], ks[0]).value;
    assert fs[j + 1].key == ks[0];
    LookupLaterField(fs, ks);
  }

  lemma EntryAddressed(fs: seq<Field>, prefix: string, p: string)
    requires WellKeyed(Obj(fs)) && |fs| > 0
    requires if fs[0].val.Obj? then p == prefix + fs[0].key + "." else p == prefix + fs[0].key
    ensures AddressedBelow(Obj(fs), prefix, p)
  {
    var k := fs[0].key;
    SplitWithoutSeparator(k, '.');
    assert p[..|prefix|] == prefix;
    LookupFirstField(fs, [k]);
    if p == prefix + k {
      assert k[|k| - 1] != '.';
      assert Below(prefix, p) == k;
    } else {
      assert Below(prefix, p) == k;
    }
  }

  lemma ChildAddressed(fs: seq<Field>, prefix: string, p: string)
    requires WellKeyed(Obj(fs)) && |fs| > 0 && fs[0].val.Obj?
    requires AddressedBelow(fs[0].val, prefix + fs[0].key + ".", p)
    ensures AddressedBelow(Obj(fs), prefix, p)
  {
    var k := fs[0].key;
    var q := Below(prefix + k + ".", p);
    BelowExtends(prefix, k, p);
    assert '.' !in k;
    SplitAfterField(k, q, '.');
    var ks := [k] + PathKeys(q);
    assert PathKeys(Below(prefix, p)) == ks;
    LookupFirstField(fs, ks);
    assert ks[1..] == PathKeys(q);
  }

  /** Below `prefix`, a path under `prefix + k + "."` reads as `k`, a dot, and the rest. */
  lemma BelowExtends(prefix: string, k: string, p: string)
    requires |prefix + k + "."| < |p| && p[..|prefix + k + "."|] == prefix + k + "."
    ensures |prefix| < |p| && p[..|prefix|] == prefix
    ensures Below(prefix, p) == k + "." + Below(prefix + k + ".", p)
  {
    var pre := prefix + k + ".";
    assert p[..|prefix|] == pre[..|prefix|];
    assert p[|prefix|..|pre|] == pre[|prefix|..] == k + ".";
    if EndsWithDot(p) {
      assert p[|prefix|..|p| - 1] == p[|prefix|..|pre|] + p[|pre|..|p| - 1];
    } else {
      assert p[|prefix|..] == p[|prefix|..|pre|] + p[|pre|..];
    }
  }

  lemma LaterAddressed(fs: seq<Field>, prefix: string, p: string)
    requires WellKeyed(Obj(fs)) && |fs| > 0
    requires AddressedBelow(Obj(fs[1..]), prefix, p)
    ensures AddressedBelow(Obj(fs), prefix, p)
  {
    WalkPastFirstField(fs, PathKeys(Below(prefix, p)));
  }

  /** Every path `get_all_settings` yields is a path of the configuration below the prefix. */
  lemma {:induction false} SettingsAreAddresses(fs: seq<Field>, prefix: string, p: string)
    requires WellKeyed(Obj(fs))
    requires p in GetAllSettings(fs, prefix)
    ensures AddressedBelow(Obj(fs), prefix, p)
    decreases fs
  {
    var k := fs[0].key;
    assert WellKeyed(Obj(fs[1..]));
    if p in GetAllSettings(fs[1..], prefix) {
      SettingsAreAddresses(fs[1..], prefix, p);
      LaterAddressed(fs, prefix, p);
    } else if if fs[0].val.Obj? then p == prefix + k + "." else p == prefix + k {
      EntryAddressed(fs, prefix, p);
    } else {
      var child := fs[0].val.fields;
      assert WellKeyed(Obj(child));
      SettingsAreAddresses(child, prefix + k + ".", p);
      ChildAddressed(fs, prefix, p);
    }
  }

  /** Every path that names a value that is not a dictionary is yielded by `get_all_settings`. */
  lemma {:induction false} LeafAddressesAreSettings(fs: seq<Field>, prefix: string, ks: seq<string>)
    requires IsLeafAddress(Obj(fs), ks)
    ensures prefix + Join(ks, ".") in GetAllSettings(fs, prefix)
    decreases fs
  {
    var k := fs[0].key;
    if ks[0] != k {
      LookupLaterField(fs, ks);
      LeafAddressesAreSettings(fs[1..], prefix, ks);
    } else if |ks| == 1 {
      LookupFirstField(fs, ks);
    } else {
      LookupFirstField(fs, ks);
      var child := fs[0].val.fields;
      LeafAddressesAreSettings(child, prefix + k + ".", ks[1..]);
      JoinCons(k, ks[1..], ".");
      assert [k] + ks[1..] == ks;
      assert prefix + k + "." + Join(ks[1..], ".") == prefix + Join(ks, ".");
    }
  }

  /**
   * For a configuration whose keys are non-empty, dot-free and unique, the settings that do not
   * end in a dot are exactly the dotted paths of the values that are not dictionaries, and each
   * reads back the value stored there.
   */
  lemma EnumeratedLeafPaths(fs: seq<Field>, p: string, ks: seq<string>)
    requires WellKeyed(Obj(fs))
    ensures p in GetAllSettings(fs, "") && !EndsWithDot(p) ==>
              IsLeafAddress(Obj(fs), PathKeys(p)) && Read(Obj(fs), p) == Walk(Obj(fs), PathKeys(p)).value
    ensures IsLeafAddress(Obj(fs), ks) ==> Join(ks, ".") in GetAllSettings(fs, "")
  {
    if p in GetAllSettings(fs, "") {
      SettingsAreAddresses(fs, "", p);
      assert Below("", p) == p || EndsWithDot(p);
    }
    if IsLeafAddress(Obj(fs), ks) {
      LeafAddressesAreSettings(fs, "", ks);
      assert "" + Join(ks, ".") == Join(ks, ".");
    }
  }

  /** `setting_string.replace('.', '_').upper()`: the environment variable overriding a setting. */
  function EnvName(path: string): (name: string)
    ensures |name| == |path|
    ensures forall i :: 0 <= i < |path| ==> name[i] == (if path[i] == '.' then '_' else UpperChar(path[i]))
  {
    Upper(ReplaceChar(path, '.', '_'))
  }

  /** The value that replaces the default of one setting, or `None` to keep the default. */
  function Override(server: Json, env: map<string, string>, path: string): Option<Json> {
    if EnvName(path) in env then Some(Str(env[EnvName(path)]))
    else if Read(server, path) != Null then Some(Read(server, path))
    else None
  }

  /**
   * The loop over `settings` that builds `RUNTIME_CONFIG` from `rt`: parent paths are skipped,
   * an override is written, and a setting with neither an override nor a default value raises
   * `KeyError` (reported as `Err` carrying the setting path).
   */
  function MergeSettings(todo: seq<string>, d: Json, server: Json, env: map<string, string>, rt: Json): Result<Json, string>
    decreases |todo|
  {
    if |todo| == 0 then Ok(rt)
    else
      var p := todo[0];
      if EndsWithDot(p) then MergeSettings(todo[1..], d, server, env, rt)
      else
        match Override(server, env, p)
        case Some(v) => MergeSettings(todo[1..], d, server, env, Write(rt, p, v))
        case None => if Read(d, p) == Null then Err(p) else MergeSettings(todo[1..], d, server, env, rt)
  }

  /** `RUNTIME_CONFIG` built from the default configuration, the loaded configuration and the environment. */
  function RuntimeConfig(defaults: seq<Field>, server: Json, env: map<string, string>): Result<Json, string> {
    MergeSettings(GetAllSettings(defaults, ""), Obj(defaults), server, env, Obj(defaults))
  }

  lemma DistinctPathsDistinctKeys(p: string, q: string)
    requires p != q
    ensures PathKeys(p) != PathKeys(q)
  {
    JoinSplit(p, '.');
    JoinSplit(q, '.');
  }

  /** After an override of the leaf `p`, the leaf `q` reads the new value when it is `p` and what it read before otherwise. */
  lemma ReadAfterOverride(rt: Json, d: Json, p: string, q: string, v: Json)
    requires SameShape(rt, d)
    requires IsLeafAddress(d, PathKeys(p)) && IsLeafAddress(d, PathKeys(q))
    ensures Read(Write(rt, p, v), q) == (if q == p then v else Read(rt, q))
  {
    var ks := PathKeys(p);
    SameShapeWalk(rt, d, ks);
    if q == p {
      WalkAfterWrite(rt, ks, v);
    } else {
      DistinctPathsDistinctKeys(p, q);
      DistinctLeafAddressesDiverge(d, ks, PathKeys(q));
      WalkAfterWriteElsewhere(rt, ks, PathKeys(q), CommonPrefix(ks, PathKeys(q)), v);
    }
  }

  lemma {:induction false} MergeSettingsSpec(todo: seq<string>, d: Json, server: Json, env: map<string, string>, rt: Json)
    requires SameShape(rt, d)
    requires forall p :: p in todo && !EndsWithDot(p) ==> IsLeafAddress(d, PathKeys(p))
    ensures MergeSettings(todo, d, server, env, rt).Ok? ==>
              var f := MergeSettings(todo, d, server, env, rt).value;
              && SameShape(f, d)
              && forall q :: IsLeafAddress(d, PathKeys(q)) && !EndsWithDot(q) ==>
                   Read(f, q) == (if q in todo && Override(server, env, q).Some? then Override(server, env, q).value else Read(rt, q))
    ensures MergeSettings(todo, d, server, env, rt).Err? ==>
              var e := MergeSettings(todo, d, server, env, rt).error;
              e in todo && !EndsWithDot(e) && Override(server, env, e).None? && Read(d, e) == Null
    ensures MergeSettings(todo, d, server, env, rt).Ok? ==>
              forall p :: p in todo && !EndsWithDot(p) ==> Override(server, env, p).Some? || Read(d, p) != Null
    decreases |todo|
  {
    if |todo| > 0 {
      var p := todo[0];
      var rest := todo[1..];
      assert forall q :: q in todo <==> q == p || q in rest;
      if EndsWithDot(p) {
        MergeSettingsSpec(rest, d, server, env, rt);
      } else {
        match Override(server, env, p)
        case Some(v) =>
          var ks := PathKeys(p);
          var rt' := Write(rt, p, v);
          SameShapeWrite(rt, d, ks, v);
          SameShapeWalk(rt, d, ks);
          MergeSettingsSpec(rest, d, server, env, rt');
          if MergeSettings(todo, d, server, env, rt).Ok? {
            var f := MergeSettings(todo, d, server, env, rt).value;
            forall q | IsLeafAddress(d, PathKeys(q)) && !EndsWithDot(q)
              ensures Read(f, q) == (if q in todo && Override(server, env, q).Some? then Override(server, env, q).value else Read(rt, q))
            {
              ReadAfterOverride(rt, d, p, q, v);
            }
          }
        case None =>
          if Read(d, p) != Null {
            MergeSettingsSpec(rest, d, server, env, rt);
          }
      }
    }
  }

  /**
   * The runtime configuration keeps the layout of the default configuration; every setting takes
   * its value from the environment variable if one is set, else from the loaded configuration if it
   * holds a value there, else keeps its default. The build fails exactly when some setting has
   * neither an override nor a default value, and then names such a setting.
   */
  lemma RuntimeConfigPrecedence(defaults: seq<Field>, server: Json, env: map<string, string>)
    requires WellKeyed(Obj(defaults))
    ensures RuntimeConfig(defaults, server, env).Ok? ==>
              && SameShape(RuntimeConfig(defaults, server, env).value, Obj(defaults))
              && forall p :: p in GetAllSettings(defaults, "") && !EndsWithDot(p) ==>
                   Read(RuntimeConfig(defaults, server, env).value, p) ==
                   Override(server, env, p).GetOr(Read(Obj(defaults), p))
    ensures RuntimeConfig(defaults, server, env).Err? ==>
              var e := RuntimeConfig(defaults, server, env).error;
              e in GetAllSettings(defaults, "") && !EndsWithDot(e) && Override(server, env, e).None? && Read(Obj(defaults), e) == Null
    ensures RuntimeConfig(defaults, server, env).Ok? <==>
              forall p :: p in GetAllSettings(defaults, "") && !EndsWithDot(p) ==>
                Override(server, env, p).Some? || Read(Obj(defaults), p) != Null
  {
    var d := Obj(defaults);
    var todo := GetAllSettings(defaults, "");
    forall p | p in todo && !EndsWithDot(p)
      ensures IsLeafAddress(d, PathKeys(p))
    {
      EnumeratedLeafPaths(defaults, p, []);
    }
    SameShapeReflexive(d);
    MergeSettingsSpec(todo, d, server, env, d);
  }
}

=== FILE: setup.dfy ===
/**
 * The parsed `setup_config.json` the deployment generators read, and the names every generator
 * derives from it in the same way: secret names, TLS file paths and host mappings.
 */
module Setup {
  import opened Strings
  import opened Ring

  /** `platform.network`: the container network the stages are attached to. */
  datatype Network = Network(
    name: string,
    driver: string,
    subnet: string,
    range: string,
    gateway: string,
    prefix: string,
    startAddress: int)

  /** The settings of `setup_config.json` used by the generators, grouped as in the file. */
  datatype SetupConfig = SetupConfig(
    // stage
    useCasePrefix: string,
    composeNameSuffix: string,
    namePrefix: string,
    count: nat,
    // dns
    domain: string,
    caName: string,
    externalName: string,
    countryInitials: string,
    default: string,
    defaultIp: string,
    defaultListeningIp: string,
    ingressName: string,
    startApi: string,
    // platform
    startPort: int,
    restartPolicy: string,
    healthcheckCmd: string,
    containerFailPolicy: string,
    network: Network,
    // fs
    keyExt: string,
    certExt: string,
    tlsFolder: string,
    // envs
    selfKeyTarget: string,
    selfCertTarget: string,
    caCertTarget: string,
    tlsTarget: string,
    selfName: string,
    throttleInterval: int,
    upperBound: int,
    // kube
    replicas: int,
    podRestartPolicy: string,
    namespacePolicy: string,
    // tls
    validDaysCa: int,
    validDaysLeaf: int)

  /**
   * The naming conventions the generators rely on without checking them: the certificate
   * authority's name and the two file extensions contain no `-` (secret names are cut at their
   * last `-`), and the two extensions differ.
   */
  predicate SecretNamesSeparable(cfg: SetupConfig) {
    && '-' !in cfg.caName
    && '-' !in cfg.keyExt
    && '-' !in cfg.certExt
    && cfg.keyExt != cfg.certExt
  }

  /** `f'{name}-{ext}'`: the secret under which a key or certificate is registered. */
  function SecretName(name: string, ext: string): string {
    name + "-" + ext
  }

  /** The secret holding the certificate authority's certificate. */
  function CaSecretName(cfg: SetupConfig): string {
    SecretName(cfg.caName, cfg.certExt)
  }

  /** The secret holding stage `i`'s key or certificate. */
  function StageSecretName(cfg: SetupConfig, i: nat, ext: string): string {
    SecretName(StageName(cfg.namePrefix, i), ext)
  }

  /** `f'{project_folder}/{tlsFolder}/{name}.{ext}'`: where the TLS generator wrote a file. */
  function TlsFile(cfg: SetupConfig, projectFolder: string, name: string, ext: string): string {
    projectFolder + "/" + cfg.tlsFolder + "/" + name + "." + ext
  }

  /** `f'{namePrefix}-{i}.{domain}{sep}{prefix}.{startAddress + i}'`: one host mapping. */
  function HostMapping(cfg: SetupConfig, i: nat, sep: string): string {
    StageHost(cfg.namePrefix, i, cfg.domain) + sep + StageIp(cfg.network.prefix, cfg.network.startAddress, i)
  }

  /** The host mappings of all stages in order, every stage's host name paired with its address. */
  function HostMappings(cfg: SetupConfig, sep: string): (hosts: seq<string>)
    ensures |hosts| == cfg.count
    ensures forall k :: 0 <= k < cfg.count ==>
              hosts[k] == StageHost(cfg.namePrefix, k + 1, cfg.domain) + sep
                          + StageIp(cfg.network.prefix, cfg.network.startAddress, k + 1)
  {
    seq(cfg.count, k requires 0 <= k => HostMapping(cfg, k + 1, sep))
  }

  /** Two secrets of the stages share a name only when they are the same stage's same file. */
  lemma StageSecretNamesDistinct(cfg: SetupConfig, i: nat, e: string, j: nat, f: string)
    requires StageSecretName(cfg, i, e) == StageSecretName(cfg, j, f)
    ensures i == j && e == f
  {
    StageNameBeforeSeparator(cfg.namePrefix, i, j, '-', e, f);
  }

  /** With separable names, no stage secret is named like the certificate authority's. */
  lemma CaSecretNameDistinct(cfg: SetupConfig, i: nat, e: string)
    requires SecretNamesSeparable(cfg) && '-' !in e
    ensures CaSecretName(cfg) != StageSecretName(cfg, i, e)
  {
    if CaSecretName(cfg) == StageSecretName(cfg, i, e) {
      LastSeparator(cfg.caName, cfg.certExt, StageName(cfg.namePrefix, i), e, '-');
    }
  }

  /** One entry of the top-level `secrets` mapping: the secret's name and its `file`. */
  datatype SecretFile = SecretFile(name: string, file: string)

  /** One environment variable handed to a container. */
  datatype EnvVar = EnvVar(name: string, value: string)

  /** The names of the variables every generator hands to a stage, in the order the generators list them. */
  const StageVariableNames: seq<string> := [
    "SERVER_STAGE_COUNT", "SERVER_STAGE_INDEX", "SELF_ADDRESS", "SELF_PORT", "SECRET_KEY_TARGET",
    "SECRET_CERT_TARGET", "SECRET_CA_CERT_TARGET", "DEST_ADDRESS", "DEST_PORT", "THROTTLE_INTERVAL",
    "UPPER_BOUND"]

  /** Their values for stage `i` of the ring; numbers travel as their decimal text. */
  function StageVariableValues(cfg: SetupConfig, i: nat): (values: seq<string>)
    requires 1 <= i <= cfg.count
    ensures |values| == |StageVariableNames|
  {
    [ IntToString(cfg.count),
      IntToString(i),
      StageIp(cfg.network.prefix, cfg.network.startAddress, i),
      IntToString(cfg.startPort),
      cfg.selfKeyTarget,
      cfg.selfCertTarget,
      cfg.caCertTarget,
      StageHost(cfg.namePrefix, DestIndex(i, cfg.count).value, cfg.domain),
      IntToString(cfg.startPort),
      IntToString(cfg.throttleInterval),
      IntToString(cfg.upperBound) ]
  }

  /** The variables of stage `i`, names paired with values. */
  function StageVariables(cfg: SetupConfig, i: nat): (vars: seq<EnvVar>)
    requires 1 <= i <= cfg.count
    ensures |vars| == |StageVariableNames|
    ensures forall q :: 0 <= q < |vars| ==> vars[q].name == StageVariableNames[q]
  {
    var values := StageVariableValues(cfg, i);
    seq(|StageVariableNames|, q requires 0 <= q < |StageVariableNames| => EnvVar(StageVariableNames[q], values[q]))
  }

  /** No variable name holds `=`, the separator of `name=value` settings. */
  lemma StageVariableNamesPlain()
    ensures forall q :: 0 <= q < |StageVariableNames| ==> '=' !in StageVariableNames[q]
  {
    assert '=' !in StageVariableNames[0];
    assert '=' !in StageVariableNames[1];
    assert '=' !in StageVariableNames[2];
    assert '=' !in StageVariableNames[3];
    assert '=' !in StageVariableNames[4];
    assert '=' !in StageVariableNames[5];
    assert '=' !in StageVariableNames[6];
    assert '=' !in StageVariableNames[7];
    assert '=' !in StageVariableNames[8];
    assert '=' !in StageVariableNames[9];
    assert '=' !in StageVariableNames[10];
  }

  /** The environment a list of variables sets up: assigned in order, so a later one wins. */
  function ToMap(vars: seq<EnvVar>): map<string, string>
    decreases |vars|
  {
    if |vars| == 0 then map[]
    else ToMap(vars[..|vars| - 1])[vars[|vars| - 1].name := vars[|vars| - 1].value]
  }

  /** A variable that no later one overrides keeps its value in the environment. */
  lemma {:induction false} ToMapLookup(vars: seq<EnvVar>, p: nat)
    requires p < |vars|
    requires forall q :: p < q < |vars| ==> vars[q].name != vars[p].name
    ensures vars[p].name in ToMap(vars) && ToMap(vars)[vars[p].name] == vars[p].value
    decreases |vars|
  {
    if p < |vars| - 1 {
      var init := vars[..|vars| - 1];
      assert forall q :: p < q < |init| ==> init[q] == vars[q];
      ToMapLookup(init, p);
    }
  }

  /** Variables with pairwise different names all keep their values in the environment. */
  lemma ToMapOfDistinct(vars: seq<EnvVar>)
    requires forall p, q :: 0 <= p < q < |vars| ==> vars[p].name != vars[q].name
    ensures forall p :: 0 <= p < |vars| ==> vars[p].name in ToMap(vars) && ToMap(vars)[vars[p].name] == vars[p].value
  {
    forall p | 0 <= p < |vars|
      ensures vars[p].name in ToMap(vars) && ToMap(vars)[vars[p].name] == vars[p].value
    {
      ToMapLookup(vars, p);
    }
  }

  /** The environment of stage `i` of the ring. */
  function StageEnvironment(cfg: SetupConfig, i: nat): map<string, string>
    requires 1 <= i <= cfg.count
  {
    ToMap(StageVariables(cfg, i))
  }

  /** The secrets mapping before any overwrite: the certificate authority first, then each stage's key and certificate. */
  function TlsSecrets(cfg: SetupConfig, projectFolder: string, n: nat): (r: seq<SecretFile>)
    ensures |r| == 1 + 2 * n
    decreases n
  {
    if n == 0 then [SecretFile(CaSecretName(cfg), TlsFile(cfg, projectFolder, cfg.caName, cfg.certExt))]
    else
      var name := StageName(cfg.namePrefix, n);
      TlsSecrets(cfg, projectFolder, n - 1)
      + [ SecretFile(SecretName(name, cfg.keyExt), TlsFile(cfg, projectFolder, name, cfg.keyExt)),
          SecretFile(SecretName(name, cfg.certExt), TlsFile(cfg, projectFolder, name, cfg.certExt)) ]
  }

  /** The names in `TlsSecrets(n)` are the certificate authority's and those of stages `1..n`. */
  lemma {:induction false} TlsSecretNames(cfg: SetupConfig, projectFolder: string, n: nat, k: nat)
    requires k < 1 + 2 * n
    ensures var e := TlsSecrets(cfg, projectFolder, n)[k];
            || (k == 0 && e.name == CaSecretName(cfg))
            || (k > 0 && e.name == StageSecretName(cfg, (k + 1) / 2, if k % 2 == 1 then cfg.keyExt else cfg.certExt))
    decreases n
  {
    if n > 0 {
      var prev := TlsSecrets(cfg, projectFolder, n - 1);
      var e := TlsSecrets(cfg, projectFolder, n);
      var name := StageName(cfg.namePrefix, n);
      assert e == prev + [ SecretFile(SecretName(name, cfg.keyExt), TlsFile(cfg, projectFolder, name, cfg.keyExt)),
                           SecretFile(SecretName(name, cfg.certExt), TlsFile(cfg, projectFolder, name, cfg.certExt)) ];
      if k < |prev| {
        assert e[k] == prev[k];
        TlsSecretNames(cfg, projectFolder, n - 1, k);
      } else if k == 2 * n - 1 {
        assert (k + 1) / 2 == n && k % 2 == 1;
      } else {
        assert (k + 1) / 2 == n && k % 2 == 0;
      }
    }
  }

  /** Stage `i`'s key and certificate sit at positions `2i-1` and `2i` of `TlsSecrets(n)`, read from the stage's files. */
  lemma {:induction false} TlsStageSecrets(cfg: SetupConfig, projectFolder: string, n: nat, i: nat)
    requires 1 <= i <= n
    ensures var e := TlsSecrets(cfg, projectFolder, n);
            && e[2 * i - 1].name == StageSecretName(cfg, i, cfg.keyExt)
            && e[2 * i].name == StageSecretName(cfg, i, cfg.certExt)
            && e[2 * i - 1].file == TlsFile(cfg, projectFolder, StageName(cfg.namePrefix, i), cfg.keyExt)
            && e[2 * i].file == TlsFile(cfg, projectFolder, StageName(cfg.namePrefix, i), cfg.certExt)
    decreases n
  {
    if i < n {
      TlsStageSecrets(cfg, projectFolder, n - 1, i);
    }
  }

  /** The certificate authority's certificate comes first, whatever the number of stages. */
  lemma {:induction false} TlsCaSecretFirst(cfg: SetupConfig, projectFolder: string, n: nat)
    ensures TlsSecrets(cfg, projectFolder, n)[0] == SecretFile(CaSecretName(cfg), TlsFile(cfg, projectFolder, cfg.caName, cfg.certExt))
    decreases n
  {
    if n > 0 {
      TlsCaSecretFirst(cfg, projectFolder, n - 1);
    }
  }

  /** The numbers, the destination and the own address a stage's environment hands to the relay. */
  lemma StageEnvironmentReads(cfg: SetupConfig, i: nat)
    requires 1 <= i <= cfg.count
    ensures var env := StageEnvironment(cfg, i);
            && "SERVER_STAGE_COUNT" in env && env["SERVER_STAGE_COUNT"] == IntToString(cfg.count)
            && "SERVER_STAGE_INDEX" in env && env["SERVER_STAGE_INDEX"] == IntToString(i)
            && "THROTTLE_INTERVAL" in env && env["THROTTLE_INTERVAL"] == IntToString(cfg.throttleInterval)
            && "UPPER_BOUND" in env && env["UPPER_BOUND"] == IntToString(cfg.upperBound)
            && "DEST_ADDRESS" in env && env["DEST_ADDRESS"] == StageHost(cfg.namePrefix, DestIndex(i, cfg.count).value, cfg.domain)
            && "DEST_PORT" in env
            && "SELF_ADDRESS" in env && env["SELF_ADDRESS"] == StageIp(cfg.network.prefix, cfg.network.startAddress, i)
  {
    StageVariableNamesDistinct();
    var values := StageVariableValues(cfg, i);
    var vars := StageVariables(cfg, i);
    assert forall q :: 0 <= q < |vars| ==> vars[q] == EnvVar(StageVariableNames[q], values[q]);
    ToMapOfDistinct(vars);
    assert vars[0] == EnvVar("SERVER_STAGE_COUNT", IntToString(cfg.count));
    assert vars[1] == EnvVar("SERVER_STAGE_INDEX", IntToString(i));
    assert vars[2] == EnvVar("SELF_ADDRESS", StageIp(cfg.network.prefix, cfg.network.startAddress, i));
    assert vars[7] == EnvVar("DEST_ADDRESS", StageHost(cfg.namePrefix, DestIndex(i, cfg.count).value, cfg.domain));
    assert vars[8].name == "DEST_PORT";
    assert vars[9] == EnvVar("THROTTLE_INTERVAL", IntToString(cfg.throttleInterval));
    assert vars[10] == EnvVar("UPPER_BOUND", IntToString(cfg.upperBound));
  }

  /** No name is listed twice. */
  lemma StageVariableNamesDistinct()
    ensures forall p, q :: 0 <= p < q < |StageVariableNames| ==> StageVariableNames[p] != StageVariableNames[q]
  {
    var n := StageVariableNames;
    assert n[0][13] != n[1][13] && n[0][2] != n[5][2] && n[1][2] != n[5][2];
    assert n[2][0] != n[7][0] && n[3][0] != n[8][0] && n[4][0] != n[9][0];
  }
}

=== FILE: strings.dfy ===
/**
 * The Python string operations the repository relies on: `str(int)`, `sep.join`,
 * `s.split(c)`, `s.replace(old, new)` and `s.upper()`, with the laws that connect them.
 */
module Strings {
  import opened Wrappers

  predicate IsDigit(c: char) {
    '0' <= c <= '9'
  }

  predicate AllDigits(s: string) {
    forall i :: 0 <= i < |s| ==> IsDigit(s[i])
  }

  function DigitChar(d: nat): (c: char)
    requires d < 10
    ensures IsDigit(c)
  {
    ('0' as int + d) as char
  }

  /** Decimal rendering of a natural number, as Python's `str` prints it (no leading zeros). */
  function NatToString(n: nat): (r: string)
    ensures |r| > 0 && AllDigits(r)
    decreases n
  {
    if n < 10 then [DigitChar(n)] else NatToString(n / 10) + [DigitChar(n % 10)]
  }

  /** Reads a string of decimal digits back as a number (Python's `int` on a digit string). */
  function ParseNat(s: string): nat
    requires AllDigits(s)
    decreases |s|
  {
    if |s| == 0 then 0 else ParseNat(s[..|s| - 1]) * 10 + (s[|s| - 1] as int - '0' as int)
  }

  lemma {:induction false} ParseNatToString(n: nat)
    ensures ParseNat(NatToString(n)) == n
    decreases n
  {
    if n >= 10 {
      var s := NatToString(n);
      assert s[..|s| - 1] == NatToString(n / 10);
      ParseNatToString(n / 10);
    }
  }

  lemma NatToStringInjective(a: nat, b: nat)
    requires NatToString(a) == NatToString(b)
    ensures a == b
  {
    ParseNatToString(a);
    ParseNatToString(b);
  }

  /** Python's `str(i)` for an integer: a minus sign, then the digits of the magnitude. */
  function IntToString(i: int): (r: string)
    ensures |r| > 0
    ensures i >= 0 ==> r == NatToString(i)
    ensures i < 0 ==> r[0] == '-' && r[1..] == NatToString(-i)
  {
    if i < 0 then "-" + NatToString(-i) else NatToString(i)
  }

  lemma IntToStringInjective(a: int, b: int)
    requires IntToString(a) == IntToString(b)
    ensures a == b
  {
    if a < 0 && b < 0 {
      NatToStringInjective(-a, -b);
    } else if a >= 0 && b >= 0 {
      NatToStringInjective(a, b);
    }
  }

  /** The code points `str.isspace` accepts, which `int` ignores at both ends of its argument. */
  const SpaceCodes: set<int> :=
    {0x09, 0x0a, 0x0b, 0x0c, 0x0d, 0x1c, 0x1d, 0x1e, 0x1f, 0x20, 0x85, 0xa0, 0x1680,
     0x2000, 0x2001, 0x2002, 0x2003, 0x2004, 0x2005, 0x2006, 0x2007, 0x2008, 0x2009, 0x200a,
     0x2028, 0x2029, 0x202f, 0x205f, 0x3000}

  predicate IsSpace(c: char) {
    c as int in SpaceCodes
  }

  /** `s` without its trailing whitespace. */
  function TrimEnd(s: string): (r: string)
    ensures |r| <= |s| && r == s[..|r|]
    ensures |r| > 0 ==> !IsSpace(r[|r| - 1])
    decreases |s|
  {
    if |s| > 0 && IsSpace(s[|s| - 1]) then TrimEnd(s[..|s| - 1]) else s
  }

  /** Decimal digits in groups joined by single underscores, as `int` reads a number. */
  predicate GroupedDigits(s: string)
    decreases |s|
  {
    && |s| > 0 && IsDigit(s[0])
    && (|s| == 1 || if s[1] == '_' then GroupedDigits(s[2..]) else GroupedDigits(s[1..]))
  }

  /** A plain digit string is one group. */
  lemma {:induction false} DigitsAreGrouped(s: string)
    requires |s| > 0 && AllDigits(s)
    ensures GroupedDigits(s)
    decreases |s|
  {
    if |s| > 1 {
      DigitsAreGrouped(s[1..]);
    }
  }

  /** Grouped digits hold only digits and underscores. */
  lemma {:induction false} GroupedChars(s: string)
    requires GroupedDigits(s)
    ensures forall i :: 0 <= i < |s| ==> IsDigit(s[i]) || s[i] == '_'
    decreases |s|
  {
    if |s| > 1 {
      if s[1] == '_' {
        GroupedChars(s[2..]);
        assert forall i :: 2 <= i < |s| ==> s[i] == s[2..][i - 2];
      } else {
        GroupedChars(s[1..]);
        assert forall i :: 1 <= i < |s| ==> s[i] == s[1..][i - 1];
      }
    }
  }

  /** The digits of `s` with its underscores left out. */
  function DropUnderscores(s: string): string
    decreases |s|
  {
    if |s| == 0 then ""
    else if s[0] == '_' then DropUnderscores(s[1..])
    else [s[0]] + DropUnderscores(s[1..])
  }

  /** A digit string has no underscores to drop. */
  lemma {:induction false} DropUnderscoresOfDigits(s: string)
    requires AllDigits(s)
    ensures DropUnderscores(s) == s
    decreases |s|
  {
    if |s| > 0 {
      DropUnderscoresOfDigits(s[1..]);
    }
  }

  /** Digits and underscores leave digits behind. */
  lemma {:induction false} DropUnderscoresLeavesDigits(s: string)
    requires forall i :: 0 <= i < |s| ==> IsDigit(s[i]) || s[i] == '_'
    ensures AllDigits(DropUnderscores(s))
    decreases |s|
  {
    if |s| > 0 {
      DropUnderscoresLeavesDigits(s[1..]);
    }
  }

  /** The value of grouped decimal digits; anything else is refused (`None`). */
  function ReadGroups(t: string): (r: Option<nat>)
    ensures r.Some? <==> GroupedDigits(t)
  {
    if GroupedDigits(t) then
      GroupedChars(t);
      DropUnderscoresLeavesDigits(t);
      Some(ParseNat(DropUnderscores(t)))
    else None
  }

  /**
   * The number `int` reads from text without surrounding whitespace: an optional sign followed by
   * grouped decimal digits; anything else is refused (`None`).
   */
  function ReadNumber(t: string): Option<int> {
    if |t| > 0 && (t[0] == '+' || t[0] == '-') then
      match ReadGroups(t[1..])
      case Some(n) => Some(if t[0] == '-' then -(n as int) else n)
      case None => None
    else
      match ReadGroups(t)
      case Some(n) => Some(n)
      case None => None
  }

  /**
   * Python's `int(s)` on a string: leading whitespace is skipped, trailing whitespace is dropped,
   * and the text between is an optional sign followed by decimal digits, grouped by single
   * underscores; anything else raises `ValueError` (`None`).
   */
  function ParseInt(s: string): Option<int>
    decreases |s|
  {
    if |s| > 0 && IsSpace(s[0]) then ParseInt(s[1..]) else ReadNumber(TrimEnd(s))
  }

  /** A string that neither starts nor ends with whitespace is read as it stands. */
  lemma ParseIntUnpadded(s: string)
    requires |s| > 0 && !IsSpace(s[0]) && !IsSpace(s[|s| - 1])
    ensures ParseInt(s) == ReadNumber(s)
  {
  }

  /** Unsigned digits are read as their value. */
  lemma ReadDigits(d: string)
    requires |d| > 0 && AllDigits(d)
    ensures ReadNumber(d) == Some(ParseNat(d))
  {
    assert IsDigit(d[0]);
    DigitsAreGrouped(d);
    DropUnderscoresOfDigits(d);
  }

  /** A sign in front of grouped digits is applied to their value. */
  lemma ReadSign(sign: string, g: string)
    requires sign == "+" || sign == "-"
    ensures ReadNumber(sign + g) == match ReadGroups(g)
      case Some(n) => Some(if sign == "-" then -(n as int) else n)
      case None => None
  {
    assert (sign + g)[0] == sign[0];
    assert (sign + g)[1..] == g;
  }

  /** Digits after a minus sign are read as their value negated. */
  lemma ReadNegativeDigits(d: string)
    requires |d| > 0 && AllDigits(d)
    ensures ReadNumber("-" + d) == Some(-(ParseNat(d) as int))
  {
    assert ReadGroups(d) == Some(ParseNat(d)) by {
      DigitsAreGrouped(d);
      DropUnderscoresOfDigits(d);
    }
    ReadSign("-", d);
  }

  /** Digits after a plus sign are read as their value. */
  lemma ReadPositiveDigits(d: string)
    requires |d| > 0 && AllDigits(d)
    ensures ReadNumber("+" + d) == Some(ParseNat(d))
  {
    assert ReadGroups(d) == Some(ParseNat(d)) by {
      DigitsAreGrouped(d);
      DropUnderscoresOfDigits(d);
    }
    ReadSign("+", d);
  }

  /** `int(str(i)) == i`. */
  lemma ParseIntToString(i: int)
    ensures ParseInt(IntToString(i)) == Some(i)
  {
    if i < 0 {
      var n: nat := -i;
      assert IntToString(i) == "-" + NatToString(n);
      ParseIntNegative(n);
      assert -(n as int) == i;
    } else {
      ParseIntNonNegative(i);
    }
  }

  lemma ParseIntNegative(n: nat)
    ensures ParseInt("-" + NatToString(n)) == Some(-(n as int))
  {
    ParseIntSigned("-", NatToString(n));
    ReadNegativeNat(n);
  }

  /** A sign followed by digits is read as it stands. */
  lemma ParseIntSigned(sign: string, d: string)
    requires sign == "+" || sign == "-"
    requires |d| > 0 && AllDigits(d)
    ensures ParseInt(sign + d) == ReadNumber(sign + d)
  {
    var s := sign + d;
    assert s[0] == sign[0] && s[|s| - 1] == d[|d| - 1];
    ParseIntUnpadded(s);
  }

  lemma ReadNegativeNat(n: nat)
    ensures ReadNumber("-" + NatToString(n)) == Some(-(n as int))
  {
    ReadNegativeDigits(NatToString(n));
    ParseNatToString(n);
  }

  lemma ParseIntNonNegative(i: int)
    requires i >= 0
    ensures ParseInt(IntToString(i)) == Some(i)
  {
    assert IntToString(i) == NatToString(i);
    ParseIntDigits(NatToString(i));
    ParseNatToString(i);
  }

  /** A leading space and a trailing newline are stripped before the number is read. */
  lemma ParseIntStripsSpace(t: string)
    requires |t| > 0 && !IsSpace(t[0]) && !IsSpace(t[|t| - 1])
    ensures ParseInt(" " + t + "\n") == ReadNumber(t)
  {
    var u := t + "\n";
    var s := " " + u;
    assert s == " " + t + "\n";
    assert s[1..] == u;
    assert ParseInt(u) == ReadNumber(TrimEnd(u)) by {
      assert u[0] == t[0];
    }
    assert u[..|u| - 1] == t;
    assert TrimEnd(u) == t by {
      assert u[|u| - 1] == '\n';
    }
  }

  /** `int` also reads the forms `str` never prints: surrounding whitespace and a plus sign. */
  lemma ParseIntIgnoresPadding(n: nat)
    ensures ParseInt(" " + ("+" + NatToString(n)) + "\n") == Some(n)
  {
    var d := NatToString(n);
    var t := "+" + d;
    assert t[0] == '+' && t[|t| - 1] == d[|d| - 1];
    ParseIntStripsSpace(t);
    ReadPositiveDigits(d);
    ParseNatToString(n);
  }

  /** An underscore between two runs of digits is read as if it were not there. */
  lemma ParseIntSkipsUnderscore(a: string, b: string)
    requires |a| > 0 && |b| > 0 && AllDigits(a) && AllDigits(b)
    ensures ParseInt(a + "_" + b) == ParseInt(a + b) == Some(ParseNat(a + b))
  {
    ReadUnderscore(a, b);
    ParseIntDigits(a + b);
  }

  /** Digits are read as their value. */
  lemma ParseIntDigits(d: string)
    requires |d| > 0 && AllDigits(d)
    ensures ParseInt(d) == Some(ParseNat(d))
  {
    ParseIntUnpadded(d);
    ReadDigits(d);
  }

  lemma ReadUnderscore(a: string, b: string)
    requires |a| > 0 && |b| > 0 && AllDigits(a) && AllDigits(b)
    ensures ParseInt(a + "_" + b) == Some(ParseNat(a + b))
  {
    var s := a + "_" + b;
    assert s[0] == a[0] && s[|s| - 1] == b[|b| - 1];
    ParseIntUnpadded(s);
    UnderscoreReadGroups(a, b);
  }

  lemma UnderscoreReadGroups(a: string, b: string)
    requires |a| > 0 && |b| > 0 && AllDigits(a) && AllDigits(b)
    ensures ReadGroups(a + "_" + b) == Some(ParseNat(a + b))
  {
    UnderscoreGrouped(a, b);
    GroupedChars(a + "_" + b);
    UnderscoreDropped(a, b);
  }

  lemma {:induction false} UnderscoreGrouped(a: string, b: string)
    requires |a| > 0 && |b| > 0 && AllDigits(a) && AllDigits(b)
    ensures GroupedDigits(a + "_" + b)
    decreases |a|
  {
    var s := a + "_" + b;
    if |a| == 1 {
      assert s[2..] == b;
      DigitsAreGrouped(b);
    } else {
      assert s[1..] == a[1..] + "_" + b;
      UnderscoreGrouped(a[1..], b);
    }
  }

  lemma {:induction false} UnderscoreDropped(a: string, b: string)
    requires AllDigits(a) && AllDigits(b)
    ensures DropUnderscores(a + "_" + b) == a + b
    decreases |a|
  {
    var s := a + "_" + b;
    if |a| == 0 {
      assert s[1..] == b;
      DropUnderscoresOfDigits(b);
    } else {
      assert s[1..] == a[1..] + "_" + b;
      UnderscoreDropped(a[1..], b);
      assert a + b == [a[0]] + (a[1..] + b);
    }
  }

  /** Two underscores in a row are refused. */
  lemma ParseIntRefusesDoubleUnderscore(a: string, b: string)
    requires |a| > 0 && |b| > 0 && AllDigits(a) && AllDigits(b)
    ensures ParseInt(a + "__" + b).None?
  {
    var s := a + "__" + b;
    assert s[0] == a[0] && s[|s| - 1] == b[|b| - 1];
    ParseIntUnpadded(s);
    DoubleUnderscoreUngrouped(a, b);
  }

  lemma {:induction false} DoubleUnderscoreUngrouped(a: string, b: string)
    requires |a| > 0 && AllDigits(a)
    ensures !GroupedDigits(a + "__" + b)
    decreases |a|
  {
    var s := a + "__" + b;
    if |a| == 1 {
      assert s[2..] == "_" + b;
    } else {
      assert s[1..] == a[1..] + "__" + b;
      DoubleUnderscoreUngrouped(a[1..], b);
    }
  }

  /**
   * A digit string followed by a non-digit separator can be cut off uniquely:
   * this is what makes names such as `"3-1-2"` or `"stage-4-key"` unambiguous.
   */
  lemma DigitRunEndsAtSeparator(a: string, c: char, x: string)
    requires AllDigits(a) && !IsDigit(c)
    ensures forall i :: 0 <= i < |a| ==> IsDigit((a + [c] + x)[i])
    ensures !IsDigit((a + [c] + x)[|a|])
  {
  }

  lemma DigitsBeforeSeparator(a: string, x: string, b: string, y: string, c: char)
    requires AllDigits(a) && AllDigits(b) && !IsDigit(c)
    requires a + [c] + x == b + [c] + y
    ensures a == b && x == y
  {
    var s := a + [c] + x;
    DigitRunEndsAtSeparator(a, c, x);
    DigitRunEndsAtSeparator(b, c, y);
    assert |a| == |b|;
    assert a == s[..|a|];
    assert b == (b + [c] + y)[..|b|];
    assert x == s[|a| + 1..];
    assert y == (b + [c] + y)[|b| + 1..];
  }

  /**
   * Cutting at the last separator: when neither tail contains `c`, a string of the form
   * `a + c + x` determines both `a` and `x`.
   */
  lemma LastSeparator(a: string, x: string, b: string, y: string, c: char)
    requires c !in x && c !in y
    requires a + [c] + x == b + [c] + y
    ensures a == b && x == y
  {
    var s := a + [c] + x;
    var t := b + [c] + y;
    assert s[|a|] == c && t[|b|] == c;
    assert forall i :: |a| < i < |s| ==> s[i] == x[i - |a| - 1];
    assert forall i :: |b| < i < |t| ==> t[i] == y[i - |b| - 1];
    assert |a| == |b|;
    assert a == s[..|a|];
    assert b == t[..|b|];
    assert x == s[|a| + 1..];
    assert y == t[|b| + 1..];
  }

  /** Python's `sep.join(parts)`. */
  function Join(parts: seq<string>, sep: string): string
    decreases |parts|
  {
    if |parts| == 0 then ""
    else if |parts| == 1 then parts[0]
    else parts[0] + sep + Join(parts[1..], sep)
  }

  lemma JoinCons(a: string, parts: seq<string>, sep: string)
    requires |parts| > 0
    ensures Join([a] + parts, sep) == a + sep + Join(parts, sep)
  {
    assert ([a] + parts)[1..] == parts;
  }

  /** A character that is in neither the parts nor the separator is not in their join. */
  lemma {:induction false} JoinAvoids(parts: seq<string>, sep: string, ch: char)
    requires ch !in sep
    requires forall i :: 0 <= i < |parts| ==> ch !in parts[i]
    ensures ch !in Join(parts, sep)
    decreases |parts|
  {
    if |parts| > 1 {
      JoinAvoids(parts[1..], sep, ch);
    }
  }

  /** `name.ext` file names with dot-free extensions differ when the names or the extensions differ. */
  lemma FileNamesDistinct(a: string, e: string, b: string, f: string)
    requires '.' !in e && '.' !in f
    requires a != b || e != f
    ensures a + "." + e != b + "." + f
  {
    if a + "." + e == b + "." + f {
      LastSeparator(a, e, b, f, '.');
    }
  }

  /** Python's `s.split(c)` with an explicit separator: never empty, empty fields kept. */
  function Split(s: string, c: char): (r: seq<string>)
    ensures |r| > 0
    decreases |s|
  {
    if |s| == 0 then [""]
    else
      var rest := Split(s[1..], c);
      if s[0] == c then [""] + rest else [[s[0]] + rest[0]] + rest[1..]
  }

  /** Splitting and re-joining with the same separator gives back the original string. */
  lemma {:induction false} JoinSplit(s: string, c: char)
    ensures Join(Split(s, c), [c]) == s
    decreases |s|
  {
    if |s| > 0 {
      JoinSplit(s[1..], c);
      if s[0] == c {
        JoinCons("", Split(s[1..], c), [c]);
        assert [c] + s[1..] == s;
      } else {
        JoinSplitExtends(s, c);
      }
    }
  }

  /** The step of `JoinSplit` where the first character joins the first field. */
  lemma JoinSplitExtends(s: string, c: char)
    requires |s| > 0 && s[0] != c
    requires Join(Split(s[1..], c), [c]) == s[1..]
    ensures Join(Split(s, c), [c]) == s
  {
    var rest := Split(s[1..], c);
    assert Split(s, c) == [[s[0]] + rest[0]] + rest[1..];
    JoinExtendsFirst(s[0], rest, [c]);
    assert [s[0]] + s[1..] == s;
  }

  /** Prefixing the first part prefixes the join. */
  lemma JoinExtendsFirst(ch: char, parts: seq<string>, sep: string)
    requires |parts| > 0
    ensures Join([[ch] + parts[0]] + parts[1..], sep) == [ch] + Join(parts, sep)
  {
    var head := [ch] + parts[0];
    if |parts| == 1 {
      assert [head] + parts[1..] == [head];
    } else {
      var tail := Join(parts[1..], sep);
      JoinCons(head, parts[1..], sep);
      assert [parts[0]] + parts[1..] == parts;
      JoinCons(parts[0], parts[1..], sep);
      assert head + sep + tail == [ch] + (parts[0] + sep + tail);
    }
  }

  lemma {:induction false} SplitWithoutSeparator(a: string, c: char)
    requires c !in a
    ensures Split(a, c) == [a]
    decreases |a|
  {
    if |a| > 0 {
      SplitWithoutSeparator(a[1..], c);
      assert [a[0]] + a[1..] == a;
    }
  }

  lemma {:induction false} SplitAfterField(a: string, rest: string, c: char)
    requires c !in a
    ensures Split(a + [c] + rest, c) == [a] + Split(rest, c)
    decreases |a|
  {
    var s := a + [c] + rest;
    if |a| == 0 {
      assert s[1..] == rest;
    } else {
      assert s[1..] == a[1..] + [c] + rest;
      SplitAfterField(a[1..], rest, c);
      assert [a[0]] + a[1..] == a;
    }
  }

  /** Joining fields that do not contain the separator and splitting again gives back the fields. */
  lemma {:induction false} SplitJoin(parts: seq<string>, c: char)
    requires |parts| > 0
    requires forall i :: 0 <= i < |parts| ==> c !in parts[i]
    ensures Split(Join(parts, [c]), c) == parts
    decreases |parts|
  {
    if |parts| == 1 {
      SplitWithoutSeparator(parts[0], c);
    } else {
      SplitJoin(parts[1..], c);
      SplitAfterField(parts[0], Join(parts[1..], [c]), c);
      assert [parts[0]] + parts[1..] == parts;
    }
  }

  predicate StartsWith(s: string, prefix: string) {
    |prefix| <= |s| && s[..|prefix|] == prefix
  }

  /** The text between a leading `open` and a trailing `close`, when `s` has that form. */
  function Enclosed(s: string, open: string, close: string): (r: Option<string>)
    ensures r.Some? ==> s == open + r.value + close
  {
    if |open| + |close| <= |s| && s[..|open|] == open && s[|s| - |close|..] == close then
      var inner := s[|open|..|s| - |close|];
      assert s == s[..|open|] + inner + s[|s| - |close|..];
      Some(inner)
    else None
  }

  /** What a template puts between `open` and `close` is read back by `Enclosed`. */
  lemma EnclosedOf(open: string, inner: string, close: string)
    ensures Enclosed(open + inner + close, open, close) == Some(inner)
  {
    var s := open + inner + close;
    assert s[..|open|] == open;
    assert s[|s| - |close|..] == close;
    assert s[|open|..|s| - |close|] == inner;
  }

  /** `s.partition(c)` without the separator: the text before the first `c` and the text after it. */
  function SplitAtFirst(s: string, c: char): (string, string)
    decreases |s|
  {
    if |s| == 0 then ("", "")
    else if s[0] == c then ("", s[1..])
    else
      var r := SplitAtFirst(s[1..], c);
      ([s[0]] + r.0, r.1)
  }

  /** A key without the separator is cut off again exactly, whatever the value holds. */
  lemma {:induction false} SplitAtFirstKey(k: string, v: string, c: char)
    requires c !in k
    ensures SplitAtFirst(k + [c] + v, c) == (k, v)
    decreases |k|
  {
    var s := k + [c] + v;
    if |k| == 0 {
      assert s[1..] == v;
    } else {
      assert s[1..] == k[1..] + [c] + v;
      SplitAtFirstKey(k[1..], v, c);
      assert [k[0]] + k[1..] == k;
    }
  }

  /** Python's `s.replace(pat, rep)`: every non-overlapping occurrence, scanning left to right. */
  function Replace(s: string, pat: string, rep: string): string
    requires |pat| > 0
    decreases |s|
  {
    if |s| < |pat| then s
    else if s[..|pat|] == pat then rep + Replace(s[|pat|..], pat, rep)
    else [s[0]] + Replace(s[1..], pat, rep)
  }

  /**
   * Inserting `pre` in front of every occurrence of `pat` is undone by replacing `pre + pat`
   * with `pat`, as long as the first character of `pre` never occurred in the original.
   */
  lemma {:induction false} ReplaceInsertionUndone(s: string, pat: string, pre: string)
    requires |pat| > 0 && |pre| > 0
    requires pre[0] !in s
    ensures Replace(Replace(s, pat, pre + pat), pre + pat, pat) == s
    decreases |s|
  {
    var pp := pre + pat;
    if |s| < |pat| {
    } else if s[..|pat|] == pat {
      var r' := Replace(s[|pat|..], pat, pp);
      ReplaceInsertionUndone(s[|pat|..], pat, pre);
      var r := pp + r';
      assert r[..|pp|] == pp;
      assert r[|pp|..] == r';
      assert pat + s[|pat|..] == s;
    } else {
      var r' := Replace(s[1..], pat, pp);
      ReplaceInsertionUndone(s[1..], pat, pre);
      var r := [s[0]] + r';
      assert r[0] == s[0] && s[0] != pp[0];
      if |r| >= |pp| {
        assert r[..|pp|] != pp;
        assert r[1..] == r';
      }
      assert [s[0]] + s[1..] == s;
    }
  }

  function UpperChar(ch: char): char {
    if 'a' <= ch <= 'z' then (ch as int - 32) as char else ch
  }

  /** Python's `s.upper()` restricted to ASCII letters. */
  function Upper(s: string): (r: string)
    ensures |r| == |s|
    ensures forall i :: 0 <= i < |s| ==> r[i] == UpperChar(s[i])
  {
    seq(|s|, i requires 0 <= i < |s| => UpperChar(s[i]))
  }

  /** Python's `s.replace(a, b)` for single characters. */
  function ReplaceChar(s: string, a: char, b: char): (r: string)
    ensures |r| == |s|
    ensures forall i :: 0 <= i < |s| ==> r[i] == (if s[i] == a then b else s[i])
  {
    seq(|s|, i requires 0 <= i < |s| => if s[i] == a then b else s[i])
  }
}

=== FILE: tls_materials.dfy ===
/**
 * The TLS material generators of the deployment tooling: a certificate authority, an external
 * certificate and one certificate per server stage, all but the authority issued by it, and the
 * files they are written to.
 *
 * Key generation, serial numbers and the clock are drawn from a `Draws` value: the `n`-th call to
 * `create_key_cert` of a run gets key `keys(n)`, serial `serials(n)` and clock reading `clock(n)`.
 */
module TlsMaterials {
  import opened Wrappers
  import opened Strings
  import opened Ring
  import opened Setup
  import opened X509
  import opened Issuance

  /** What a run draws from the operating system, indexed by the number of the call. */
  datatype Draws = Draws(keys: nat -> PrivateKey, serials: nat -> nat, clock: nat -> int)

  /** A private key and the certificate for it. */
  datatype KeyCert = KeyCert(key: PrivateKey, cert: Certificate)

  /** `is_ca=True, is_cert_signer=True`. */
  const CaRole := Role(true, false, true)

  /** `is_key_encrypter=True`: every certificate the authority issues. */
  const LeafRole := Role(false, true, false)

  /** The certificate's validity, from its start to its end, is `days` days long. */
  predicate ValidFor(c: Certificate, days: int) {
    c.notAfter - c.notBefore == days * SecondsPerDay
  }

  /** `create_key_cert(..., is_ca=True, is_cert_signer=True)` at call number `call`. */
  function IssueCa(subject: Name, altNames: seq<string>, days: int, draws: Draws, call: nat): (m: KeyCert)
    ensures m.key == draws.keys(call)
    ensures m.cert.subject == subject && m.cert.publicKey == PublicKeyOf(m.key)
    ensures SelfSigned(m.cert) && ConformsToProfile(m.cert)
    ensures IsCaCertificate(m.cert) && CanSignCertificates(m.cert)
    ensures SubjectKeyId(m.cert).Some?
    ensures AltNamesOf(m.cert) == DnsSan(altNames)
    ensures ValidFor(m.cert, days)
  {
    var key := draws.keys(call);
    KeyCert(key, CreateKeyCert(subject, DnsSan(altNames), days, key, draws.serials(call), draws.clock(call), None, CaRole))
  }

  /**
   * `create_key_cert(..., issuer_key, issuer_cert, is_key_encrypter=True)` at call number `call`:
   * the certificate is linked to the issuer's exactly when the issuer's key is the one of its
   * certificate and that certificate is a certificate-signing authority.
   */
  function IssueLeaf(subject: Name, altNames: seq<string>, days: int, draws: Draws, call: nat, issuer: KeyCert): (m: KeyCert)
    requires SubjectKeyId(issuer.cert).Some?
    ensures m.key == draws.keys(call)
    ensures m.cert.subject == subject && m.cert.publicKey == PublicKeyOf(m.key)
    ensures ConformsToProfile(m.cert) && !IsCaCertificate(m.cert) && !CanSignCertificates(m.cert)
    ensures ChainLink(m.cert, issuer.cert)
            <==> PublicKeyOf(issuer.key) == issuer.cert.publicKey && IsCaCertificate(issuer.cert) && CanSignCertificates(issuer.cert)
    ensures AltNamesOf(m.cert) == DnsSan(altNames)
    ensures ValidFor(m.cert, days)
  {
    var key := draws.keys(call);
    var c := CreateKeyCert(subject, DnsSan(altNames), days, key, draws.serials(call), draws.clock(call),
                           Some(Issuer(issuer.key, issuer.cert)), LeafRole);
    KeyCert(key, c)
  }

  // ---------------------------------------------------------------------------------------------
  // The generators of the Kubernetes and Podman use cases, and of the Compose use case

  /** The subject country and the common names of the authority and of the external certificate. */
  datatype Naming = Naming(country: string, caCommonName: string, externalCommonName: string)

  /** The top-level generator: names built from the configuration's `dns` group. */
  function GeneratorNaming(cfg: SetupConfig): Naming {
    Naming(cfg.countryInitials, cfg.caName + "." + cfg.domain, cfg.externalName + "." + cfg.domain)
  }

  /** The Compose use case's generator: fixed country and fixed `ca` and `external` host names. */
  function ComposeNaming(cfg: SetupConfig): Naming {
    Naming("US", "ca." + cfg.domain, "external." + cfg.domain)
  }

  /** The alternative names of the authority and of the external certificate. */
  function SiteAltNames(cfg: SetupConfig, commonName: string): seq<string> {
    [commonName, cfg.domain, cfg.default]
  }

  /** The alternative names of stage `i`: its host name, its address, the domain and the default host. */
  function StageAltNames(cfg: SetupConfig, i: nat): seq<string> {
    [StageHost(cfg.namePrefix, i, cfg.domain), StageIp(cfg.network.prefix, cfg.network.startAddress, i), cfg.domain, cfg.default]
  }

  /** Everything one run issues. */
  datatype Materials = Materials(ca: KeyCert, external: KeyCert, stages: seq<KeyCert>)

  /** Stage `i`'s key and certificate: the `i+1`-th call, after the authority's and the external one. */
  function StageMaterial(cfg: SetupConfig, naming: Naming, draws: Draws, ca: KeyCert, i: nat): (m: KeyCert)
    requires SubjectKeyId(ca.cert).Some?
    ensures m.cert.subject == Name(naming.country, StageHost(cfg.namePrefix, i, cfg.domain))
    ensures m.cert.publicKey == PublicKeyOf(m.key) && ConformsToProfile(m.cert)
    ensures ChainLink(m.cert, ca.cert)
            <==> PublicKeyOf(ca.key) == ca.cert.publicKey && IsCaCertificate(ca.cert) && CanSignCertificates(ca.cert)
    ensures AltNamesOf(m.cert) == DnsSan(StageAltNames(cfg, i))
    ensures ValidFor(m.cert, cfg.validDaysLeaf)
  {
    IssueLeaf(Name(naming.country, StageHost(cfg.namePrefix, i, cfg.domain)), StageAltNames(cfg, i), cfg.validDaysLeaf,
              draws, i + 1, ca)
  }

  /** The authority's key and certificate: the first call of a run. */
  function AuthorityMaterial(cfg: SetupConfig, naming: Naming, draws: Draws): (m: KeyCert)
    ensures SubjectKeyId(m.cert).Some?
  {
    IssueCa(Name(naming.country, naming.caCommonName), SiteAltNames(cfg, naming.caCommonName), cfg.validDaysCa, draws, 0)
  }

  /** The loop over the stages: stage `k+1`'s material at position `k`. */
  function StageMaterials(cfg: SetupConfig, naming: Naming, draws: Draws, ca: KeyCert): (stages: seq<KeyCert>)
    requires SubjectKeyId(ca.cert).Some?
    ensures |stages| == cfg.count
    ensures forall k :: 0 <= k < cfg.count ==> stages[k] == StageMaterial(cfg, naming, draws, ca, k + 1)
  {
    seq(cfg.count, k requires 0 <= k < cfg.count => StageMaterial(cfg, naming, draws, ca, k + 1))
  }

  /** `create_tls_materials`: the authority, the external certificate, then one certificate per stage. */
  function IssueMaterials(cfg: SetupConfig, naming: Naming, draws: Draws): (m: Materials)
    ensures |m.stages| == cfg.count
    ensures m.ca == AuthorityMaterial(cfg, naming, draws)
    ensures m.external.cert.subject == Name(naming.country, naming.externalCommonName)
    ensures m.external.cert.publicKey == PublicKeyOf(m.external.key)
    ensures forall k :: 0 <= k < cfg.count ==> m.stages[k] == StageMaterial(cfg, naming, draws, m.ca, k + 1)
  {
    var ca := AuthorityMaterial(cfg, naming, draws);
    var external := IssueLeaf(Name(naming.country, naming.externalCommonName), SiteAltNames(cfg, naming.externalCommonName),
                              cfg.validDaysLeaf, draws, 1, ca);
    Materials(ca, external, StageMaterials(cfg, naming, draws, ca))
  }

  /**
   * The authority is self-signed and conforms to the profile, and the external certificate and
   * every stage's are issued by it, each for the configured number of days.
   */
  lemma MaterialsChainToAuthority(cfg: SetupConfig, naming: Naming, draws: Draws)
    ensures var m := IssueMaterials(cfg, naming, draws);
            && m.ca.cert.subject == Name(naming.country, naming.caCommonName)
            && SelfSigned(m.ca.cert) && ConformsToProfile(m.ca.cert) && ValidFor(m.ca.cert, cfg.validDaysCa)
            && m.external.cert.subject == Name(naming.country, naming.externalCommonName)
            && ChainLink(m.external.cert, m.ca.cert) && ConformsToProfile(m.external.cert)
            && ValidFor(m.external.cert, cfg.validDaysLeaf)
            && forall k :: 0 <= k < |m.stages| ==>
                 && ChainLink(m.stages[k].cert, m.ca.cert) && ConformsToProfile(m.stages[k].cert)
                 && m.stages[k].cert.publicKey == PublicKeyOf(m.stages[k].key)
                 && ValidFor(m.stages[k].cert, cfg.validDaysLeaf)
  {
    var m := IssueMaterials(cfg, naming, draws);
    var ca := AuthorityMaterial(cfg, naming, draws);
    assert m.external == IssueLeaf(Name(naming.country, naming.externalCommonName), SiteAltNames(cfg, naming.externalCommonName),
                                   cfg.validDaysLeaf, draws, 1, ca);
    assert m.stages == StageMaterials(cfg, naming, draws, ca);
    forall k | 0 <= k < |m.stages|
      ensures && ChainLink(m.stages[k].cert, m.ca.cert) && ConformsToProfile(m.stages[k].cert)
              && m.stages[k].cert.publicKey == PublicKeyOf(m.stages[k].key)
              && ValidFor(m.stages[k].cert, cfg.validDaysLeaf)
    {
      assert m.stages[k] == StageMaterial(cfg, naming, draws, ca, k + 1);
    }
  }

  /** The alternative names of stage `i` list its host name and its address first. */
  lemma StageSanCoversHost(cfg: SetupConfig, i: nat)
    ensures var san := DnsSan(StageAltNames(cfg, i));
            && DnsName(StageHost(cfg.namePrefix, i, cfg.domain)) in san
            && DnsName(StageIp(cfg.network.prefix, cfg.network.startAddress, i)) in san
  {
    var san := DnsSan(StageAltNames(cfg, i));
    assert san[0] == DnsName(StageHost(cfg.namePrefix, i, cfg.domain));
    assert san[1] == DnsName(StageIp(cfg.network.prefix, cfg.network.startAddress, i));
  }

  /**
   * Stage `i`'s certificate names the stage's host as its subject and lists both the host name
   * and the stage's address among its alternative names, as DNS names.
   */
  lemma StageCertificateCoversItsHost(cfg: SetupConfig, naming: Naming, draws: Draws, i: nat)
    requires 1 <= i <= cfg.count
    ensures var c := IssueMaterials(cfg, naming, draws).stages[i - 1].cert;
            && c.subject.commonName == StageHost(cfg.namePrefix, i, cfg.domain)
            && DnsName(StageHost(cfg.namePrefix, i, cfg.domain)) in AltNamesOf(c)
            && DnsName(StageIp(cfg.network.prefix, cfg.network.startAddress, i)) in AltNamesOf(c)
  {
    var m := IssueMaterials(cfg, naming, draws);
    assert m.stages == StageMaterials(cfg, naming, draws, m.ca);
    assert m.stages[i - 1] == StageMaterial(cfg, naming, draws, m.ca, i);
    StageSanCoversHost(cfg, i);
  }

  /**
   * The host a stage forwards to, as its environment names it, is certified by the certificate
   * the destination stage presents: the stage's TLS connection verifies the host name it dialled.
   */
  lemma DestinationCertified(cfg: SetupConfig, naming: Naming, draws: Draws, i: nat)
    requires 1 <= i <= cfg.count
    ensures var env := StageEnvironment(cfg, i);
            var dest := DestIndex(i, cfg.count).value;
            && 1 <= dest <= cfg.count
            && "DEST_ADDRESS" in env
            && DnsName(env["DEST_ADDRESS"]) in AltNamesOf(IssueMaterials(cfg, naming, draws).stages[dest - 1].cert)
            && ChainLink(IssueMaterials(cfg, naming, draws).stages[dest - 1].cert, IssueMaterials(cfg, naming, draws).ca.cert)
  {
    StageEnvironmentReads(cfg, i);
    StageCertificateCoversItsHost(cfg, naming, draws, DestIndex(i, cfg.count).value);
  }

  // ---------------------------------------------------------------------------------------------
  // Files

  /** The key a file holds, when it holds exactly one. */
  function KeyIn(a: Artifact): Option<PrivateKey> {
    if |a.content| == 1 && a.content[0].KeyPem? then Some(a.content[0].key) else None
  }

  /** The certificate a file holds, when it holds exactly one. */
  function CertIn(a: Artifact): Option<Certificate> {
    if |a.content| == 1 && a.content[0].CertPem? then Some(a.content[0].cert) else None
  }

  /** `keyFile` holds the private key of the certificate `certFile` holds. */
  predicate Pairs(keyFile: Artifact, certFile: Artifact) {
    KeyIn(keyFile).Some? && CertIn(certFile).Some? && CertIn(certFile).value.publicKey == PublicKeyOf(KeyIn(keyFile).value)
  }

  /** The certificate in `certFile` is issued by the one in `caFile`. */
  predicate IssuedBy(certFile: Artifact, caFile: Artifact) {
    CertIn(certFile).Some? && CertIn(caFile).Some? && ChainLink(CertIn(certFile).value, CertIn(caFile).value)
  }

  /** The key file and the certificate file of one issued pair. */
  function PairFiles(keyPath: string, certPath: string, m: KeyCert): seq<Artifact> {
    [Artifact(keyPath, [KeyPem(m.key)]), Artifact(certPath, [CertPem(m.cert)])]
  }

  /** Two issued pairs, each written as its key file then its certificate file. */
  function TwoPairs(keyPath: string, certPath: string, m: KeyCert, caKeyPath: string, caCertPath: string, ca: KeyCert)
    : (files: seq<Artifact>)
    ensures |files| == 4
    ensures files[0].path == keyPath && files[1].path == certPath
    ensures files[2].path == caKeyPath && files[3].path == caCertPath
    ensures KeyIn(files[0]) == Some(m.key) && CertIn(files[1]) == Some(m.cert)
    ensures KeyIn(files[2]) == Some(ca.key) && CertIn(files[3]) == Some(ca.cert)
  {
    PairFiles(keyPath, certPath, m) + PairFiles(caKeyPath, caCertPath, ca)
  }

  /** The stage files: key then certificate of each stage, in stage order. */
  function StageFiles(cfg: SetupConfig, projectFolder: string, stages: seq<KeyCert>): (files: seq<Artifact>)
    ensures |files| == 2 * |stages|
    ensures forall k :: 0 <= k < |stages| ==>
              files[2 * k] == Artifact(TlsFile(cfg, projectFolder, StageName(cfg.namePrefix, k + 1), cfg.keyExt), [KeyPem(stages[k].key)])
    ensures forall k :: 0 <= k < |stages| ==>
              files[2 * k + 1] == Artifact(TlsFile(cfg, projectFolder, StageName(cfg.namePrefix, k + 1), cfg.certExt), [CertPem(stages[k].cert)])
    decreases |stages|
  {
    if |stages| == 0 then []
    else
      var n := |stages|;
      var name := StageName(cfg.namePrefix, n);
      StageFiles(cfg, projectFolder, stages[..n - 1])
      + PairFiles(TlsFile(cfg, projectFolder, name, cfg.keyExt), TlsFile(cfg, projectFolder, name, cfg.certExt), stages[n - 1])
  }

  /**
   * What `create_tls_materials` writes to `{project_folder}/{tlsFolder}`: the external key and
   * certificate, the authority's key and certificate, then each stage's key and certificate.
   */
  function MaterialFiles(cfg: SetupConfig, projectFolder: string, m: Materials): (files: seq<Artifact>)
    ensures |files| == 4 + 2 * |m.stages|
  {
    TwoPairs(TlsFile(cfg, projectFolder, cfg.externalName, cfg.keyExt), TlsFile(cfg, projectFolder, cfg.externalName, cfg.certExt), m.external,
             TlsFile(cfg, projectFolder, cfg.caName, cfg.keyExt), TlsFile(cfg, projectFolder, cfg.caName, cfg.certExt), m.ca)
    + StageFiles(cfg, projectFolder, m.stages)
  }

  /** Stage `i`'s key and certificate files sit at positions `2i+2` and `2i+3`. */
  lemma StageFileAt(cfg: SetupConfig, projectFolder: string, m: Materials, i: nat)
    requires 1 <= i <= |m.stages|
    ensures var files := MaterialFiles(cfg, projectFolder, m);
            && files[2 * i + 2] == Artifact(TlsFile(cfg, projectFolder, StageName(cfg.namePrefix, i), cfg.keyExt), [KeyPem(m.stages[i - 1].key)])
            && files[2 * i + 3] == Artifact(TlsFile(cfg, projectFolder, StageName(cfg.namePrefix, i), cfg.certExt), [CertPem(m.stages[i - 1].cert)])
  {
    var files := MaterialFiles(cfg, projectFolder, m);
    var stageFiles := StageFiles(cfg, projectFolder, m.stages);
    assert files[2 * i + 2] == stageFiles[2 * (i - 1)];
    assert files[2 * i + 3] == stageFiles[2 * (i - 1) + 1];
  }

  /** The external key and certificate come first, then the authority's. */
  lemma LeadingFiles(cfg: SetupConfig, projectFolder: string, m: Materials)
    ensures var files := MaterialFiles(cfg, projectFolder, m);
            && KeyIn(files[0]) == Some(m.external.key) && CertIn(files[1]) == Some(m.external.cert)
            && KeyIn(files[2]) == Some(m.ca.key) && CertIn(files[3]) == Some(m.ca.cert)
  {
    var files := MaterialFiles(cfg, projectFolder, m);
    var lead := TwoPairs(TlsFile(cfg, projectFolder, cfg.externalName, cfg.keyExt), TlsFile(cfg, projectFolder, cfg.externalName, cfg.certExt), m.external,
                         TlsFile(cfg, projectFolder, cfg.caName, cfg.keyExt), TlsFile(cfg, projectFolder, cfg.caName, cfg.certExt), m.ca);
    assert files[..4] == lead;
    assert files[0] == lead[0] && files[1] == lead[1] && files[2] == lead[2] && files[3] == lead[3];
  }

  /**
   * What a run guarantees about the material it issued: every key is the one of its certificate,
   * the authority is self-signed, and the external and stage certificates are linked to it.
   */
  predicate WellIssued(m: Materials) {
    && m.ca.cert.publicKey == PublicKeyOf(m.ca.key) && SelfSigned(m.ca.cert)
    && m.external.cert.publicKey == PublicKeyOf(m.external.key) && ChainLink(m.external.cert, m.ca.cert)
    && forall k :: 0 <= k < |m.stages| ==>
         m.stages[k].cert.publicKey == PublicKeyOf(m.stages[k].key) && ChainLink(m.stages[k].cert, m.ca.cert)
  }

  /** A run's material is well issued. */
  lemma MaterialsWellIssued(cfg: SetupConfig, naming: Naming, draws: Draws)
    ensures WellIssued(IssueMaterials(cfg, naming, draws))
  {
    MaterialsChainToAuthority(cfg, naming, draws);
  }

  /**
   * Of well-issued material, every key file written pairs with the certificate file after it,
   * and every certificate but the authority's is issued by the certificate in the authority's file.
   */
  lemma WrittenFilesPair(cfg: SetupConfig, projectFolder: string, m: Materials)
    requires WellIssued(m)
    ensures var files := MaterialFiles(cfg, projectFolder, m);
            && Pairs(files[0], files[1]) && Pairs(files[2], files[3])
            && IssuedBy(files[1], files[3]) && SelfSigned(CertIn(files[3]).value)
            && forall i :: 1 <= i <= |m.stages| ==> Pairs(files[2 * i + 2], files[2 * i + 3]) && IssuedBy(files[2 * i + 3], files[3])
  {
    var files := MaterialFiles(cfg, projectFolder, m);
    LeadingFiles(cfg, projectFolder, m);
    forall i | 1 <= i <= |m.stages|
      ensures Pairs(files[2 * i + 2], files[2 * i + 3]) && IssuedBy(files[2 * i + 3], files[3])
    {
      StageFilesPair(cfg, projectFolder, m, i);
    }
  }

  /** Stage `i`'s files hold a matching pair, issued by the certificate in the authority's file. */
  lemma StageFilesPair(cfg: SetupConfig, projectFolder: string, m: Materials, i: nat)
    requires WellIssued(m) && 1 <= i <= |m.stages|
    ensures var files := MaterialFiles(cfg, projectFolder, m);
            Pairs(files[2 * i + 2], files[2 * i + 3]) && IssuedBy(files[2 * i + 3], files[3])
  {
    LeadingFiles(cfg, projectFolder, m);
    StageFileAt(cfg, projectFolder, m, i);
    assert m.stages[i - 1].cert.publicKey == PublicKeyOf(m.stages[i - 1].key) && ChainLink(m.stages[i - 1].cert, m.ca.cert);
  }

  /**
   * The files the stages' secrets point at are the ones a run writes for them: the authority's
   * certificate, and stage `i`'s key and certificate, a matching pair issued by that authority.
   */
  lemma FilesAreWhereSecretsPoint(cfg: SetupConfig, projectFolder: string, naming: Naming, draws: Draws, i: nat)
    requires 1 <= i <= cfg.count
    ensures var files := MaterialFiles(cfg, projectFolder, IssueMaterials(cfg, naming, draws));
            var secrets := TlsSecrets(cfg, projectFolder, cfg.count);
            && files[3].path == secrets[0].file
            && files[2 * i + 2].path == secrets[2 * i - 1].file
            && files[2 * i + 3].path == secrets[2 * i].file
            && Pairs(files[2 * i + 2], files[2 * i + 3]) && IssuedBy(files[2 * i + 3], files[3])
  {
    var m := IssueMaterials(cfg, naming, draws);
    TlsCaSecretFirst(cfg, projectFolder, cfg.count);
    TlsStageSecrets(cfg, projectFolder, cfg.count, i);
    StageFileAt(cfg, projectFolder, m, i);
    MaterialsWellIssued(cfg, naming, draws);
    WrittenFilesPair(cfg, projectFolder, m);
  }

  /** Different names or different dot-free extensions give different files. */
  lemma TlsFilesDistinct(cfg: SetupConfig, projectFolder: string, a: string, e: string, b: string, f: string)
    requires '.' !in e && '.' !in f
    requires a != b || e != f
    ensures TlsFile(cfg, projectFolder, a, e) != TlsFile(cfg, projectFolder, b, f)
  {
    var dir := projectFolder + "/" + cfg.tlsFolder + "/";
    if a != b {
      assert (dir + a)[|dir|..] == a && (dir + b)[|dir|..] == b;
    }
    FileNamesDistinct(dir + a, e, dir + b, f);
    assert TlsFile(cfg, projectFolder, a, e) == (dir + a) + "." + e;
    assert TlsFile(cfg, projectFolder, b, f) == (dir + b) + "." + f;
  }

  /**
   * With dot-free, different extensions no two stage files are the same file: a run does not
   * overwrite one stage's material with another's.
   */
  lemma StageFilesDistinct(cfg: SetupConfig, projectFolder: string, m: Materials, j: nat, l: nat)
    requires '.' !in cfg.keyExt && '.' !in cfg.certExt && cfg.keyExt != cfg.certExt
    requires 4 <= j < l < 4 + 2 * |m.stages|
    ensures MaterialFiles(cfg, projectFolder, m)[j].path != MaterialFiles(cfg, projectFolder, m)[l].path
  {
    var files := MaterialFiles(cfg, projectFolder, m);
    var i, p := (j - 2) / 2, (l - 2) / 2;
    var ei := if j % 2 == 0 then cfg.keyExt else cfg.certExt;
    var ep := if l % 2 == 0 then cfg.keyExt else cfg.certExt;
    StageFileAt(cfg, projectFolder, m, i);
    StageFileAt(cfg, projectFolder, m, p);
    assert files[j].path == TlsFile(cfg, projectFolder, StageName(cfg.namePrefix, i), ei);
    assert files[l].path == TlsFile(cfg, projectFolder, StageName(cfg.namePrefix, p), ep);
    if StageName(cfg.namePrefix, i) == StageName(cfg.namePrefix, p) {
      StageNameInjective(cfg.namePrefix, i, p);
      assert ei != ep;
    }
    TlsFilesDistinct(cfg, projectFolder, StageName(cfg.namePrefix, i), ei, StageName(cfg.namePrefix, p), ep);
  }

  // ---------------------------------------------------------------------------------------------
  // The Compose use case writes the external and authority files under names of its own

  /** The configured file names of the Compose use case's external and authority files. */
  datatype ExternalFileNames = ExternalFileNames(selfKeyName: string, selfCertName: string, caKeyName: string,
                                                 caCertName: string)

  /**
   * The Compose use case's `create_tls_materials`: the four files it writes to
   * `{base_folder}/{outputFolder}`, and the authority and stages it returns to its caller.
   */
  function ComposeMaterials(cfg: SetupConfig, baseFolder: string, outFolder: string, names: ExternalFileNames,
                            draws: Draws): (r: (seq<Artifact>, KeyCert, seq<KeyCert>))
    ensures |r.0| == 4 && |r.2| == cfg.count
    ensures r.0[1].path == baseFolder + "/" + outFolder + "/" + names.selfCertName
    ensures r.0[3].path == baseFolder + "/" + outFolder + "/" + names.caCertName
  {
    var m := IssueMaterials(cfg, ComposeNaming(cfg), draws);
    var dir := baseFolder + "/" + outFolder + "/";
    (TwoPairs(dir + names.selfKeyName, dir + names.selfCertName, m.external, dir + names.caKeyName, dir + names.caCertName, m.ca),
     m.ca, m.stages)
  }

  /**
   * The Compose use case's files pair up like the generator's, the external certificate is
   * issued by the authority whose certificate it writes and returns, and so is every returned
   * stage's.
   */
  lemma ComposeMaterialsChain(cfg: SetupConfig, baseFolder: string, outFolder: string, names: ExternalFileNames, draws: Draws)
    ensures var (files, ca, stages) := ComposeMaterials(cfg, baseFolder, outFolder, names, draws);
            && Pairs(files[0], files[1]) && Pairs(files[2], files[3]) && IssuedBy(files[1], files[3])
            && CertIn(files[3]) == Some(ca.cert) && SelfSigned(ca.cert)
            && ca.cert.subject == Name("US", "ca." + cfg.domain)
            && forall k :: 0 <= k < |stages| ==> ChainLink(stages[k].cert, ca.cert)
  {
    var m := IssueMaterials(cfg, ComposeNaming(cfg), draws);
    var dir := baseFolder + "/" + outFolder + "/";
    assert ComposeMaterials(cfg, baseFolder, outFolder, names, draws)
           == (TwoPairs(dir + names.selfKeyName, dir + names.selfCertName, m.external, dir + names.caKeyName, dir + names.caCertName, m.ca),
               m.ca, m.stages);
    MaterialsWellIssued(cfg, ComposeNaming(cfg), draws);
    MaterialsChainToAuthority(cfg, ComposeNaming(cfg), draws);
  }

  // ---------------------------------------------------------------------------------------------
  // The test materials of the server image

  /** The alternative names of a test certificate: its own name, `localhost` and `0.0.0.0`. */
  function TestAltNames(certName: string): seq<string> {
    [certName, "localhost", "0.0.0.0"]
  }

  /**
   * The server image's test material script: an authority `ca.test.com` valid two days and an
   * external certificate `external.test.com` valid one day, written to the four test files.
   */
  function TestMaterials(draws: Draws): (files: seq<Artifact>)
    ensures |files| == 4
    ensures files[0].path == "test_self.key" && files[1].path == "test_self.crt"
    ensures files[2].path == "test_ca.key" && files[3].path == "test_ca.crt"
  {
    var ca := IssueCa(Name("US", "ca.test.com"), TestAltNames("ca.test.com"), 2, draws, 0);
    var external := IssueLeaf(Name("US", "external.test.com"), TestAltNames("external.test.com"), 1, draws, 1, ca);
    TwoPairs("test_self.key", "test_self.crt", external, "test_ca.key", "test_ca.crt", ca)
  }

  /**
   * The test files hold a self-signed authority valid two days and an external certificate it
   * issued, valid one day and naming `external.test.com`, each beside its own key.
   */
  lemma TestMaterialsChain(draws: Draws)
    ensures var files := TestMaterials(draws);
            && Pairs(files[0], files[1]) && Pairs(files[2], files[3]) && IssuedBy(files[1], files[3])
            && SelfSigned(CertIn(files[3]).value) && ValidFor(CertIn(files[3]).value, 2)
            && ValidFor(CertIn(files[1]).value, 1)
            && CertIn(files[1]).value.subject.commonName == "external.test.com"
            && DnsName("localhost") in AltNamesOf(CertIn(files[1]).value)
  {
    var ca := IssueCa(Name("US", "ca.test.com"), TestAltNames("ca.test.com"), 2, draws, 0);
    var external := IssueLeaf(Name("US", "external.test.com"), TestAltNames("external.test.com"), 1, draws, 1, ca);
    assert TestMaterials(draws) == TwoPairs("test_self.key", "test_self.crt", external, "test_ca.key", "test_ca.crt", ca);
    assert AltNamesOf(external.cert)[1] == DnsName("localhost");
  }
}

=== FILE: wrappers.dfy ===
/** Optional values and results with an error, shared by every module of the model. */
module Wrappers {

  /** A value that may be absent (Python's `None`). */
  datatype Option<+T> = None | Some(value: T) {

    /** The carried value, or `default` when absent (Python's `x if x is not None else default`). */
    function GetOr(default: T): T {
      match this
      case Some(v) => v
      case None => default
    }
  }

  /** The outcome of an operation that may raise: `Err` carries what the exception reports. */
  datatype Result<+R, +E> = Ok(value: R) | Err(error: E)
}

=== FILE: x509.dfy ===
/**
 * The parts of an X.509 v3 certificate (RFC 5280) that the repository's certificate issuance
 * decides: names, key, validity, serial, extensions and the signing key. Keys, key identifiers
 * and signatures are symbolic: a key is a handle, the Subject Key Identifier is the public key it
 * was derived from, and a signature records the private key that produced it.
 */
module X509 {
  import opened Wrappers

  /** A generated RSA private key, identified by an opaque handle. */
  datatype PrivateKey = PrivateKey(handle: nat)

  /** The public half of a key pair. */
  datatype PublicKey = PublicKey(handle: nat)

  function PublicKeyOf(k: PrivateKey): PublicKey {
    PublicKey(k.handle)
  }

  /**
   * A key identifier derived from a public key (the SHA-1 method of section 4.2.1.2 of RFC 5280),
   * kept as the key it was computed from.
   */
  datatype KeyIdentifier = KeyIdOf(key: PublicKey)

  /** A distinguished name with the two attributes the repository sets. */
  datatype Name = Name(country: string, commonName: string)

  datatype GeneralName = DnsName(dns: string) | IpAddress(ip: string)

  /** The nine bits of the Key Usage extension (section 4.2.1.3 of RFC 5280), in declaration order. */
  datatype KeyUsageBits = KeyUsageBits(
    digitalSignature: bool,
    contentCommitment: bool,
    keyEncipherment: bool,
    dataEncipherment: bool,
    keyAgreement: bool,
    keyCertSign: bool,
    cRLSign: bool,
    encipherOnly: bool,
    decipherOnly: bool)

  datatype KeyPurpose = ClientAuth | ServerAuth

  datatype ExtensionValue =
    | SubjectAltName(names: seq<GeneralName>)
    | BasicConstraints(ca: bool, pathLength: Option<nat>)
    | KeyUsage(bits: KeyUsageBits)
    | SubjectKeyIdentifier(id: KeyIdentifier)
    | ExtendedKeyUsage(purposes: seq<KeyPurpose>)
    | AuthorityKeyIdentifier(keyId: KeyIdentifier)

  datatype Extension = Extension(critical: bool, value: ExtensionValue)

  datatype ExtensionKind = SanKind | BasicConstraintsKind | KeyUsageKind | SkiKind | EkuKind | AkiKind

  function KindOf(v: ExtensionValue): ExtensionKind {
    match v
    case SubjectAltName(_) => SanKind
    case BasicConstraints(_, _) => BasicConstraintsKind
    case KeyUsage(_) => KeyUsageKind
    case SubjectKeyIdentifier(_) => SkiKind
    case ExtendedKeyUsage(_) => EkuKind
    case AuthorityKeyIdentifier(_) => AkiKind
  }

  datatype HashAlgorithm = Sha512

  /** A signed certificate; `signer` is the private key whose signature it carries. */
  datatype Certificate = Certificate(
    subject: Name,
    issuer: Name,
    publicKey: PublicKey,
    serial: nat,
    notBefore: int,
    notAfter: int,
    extensions: seq<Extension>,
    signer: PrivateKey,
    hash: HashAlgorithm)

  /** `extensions.get_extension_for_class(...)`: the first extension of the kind, if any. */
  function FindExtension(exts: seq<Extension>, kind: ExtensionKind): (r: Option<Extension>)
    ensures r.Some? ==> r.value in exts && KindOf(r.value.value) == kind
    ensures r.None? <==> forall i :: 0 <= i < |exts| ==> KindOf(exts[i].value) != kind
    decreases |exts|
  {
    if |exts| == 0 then None
    else if KindOf(exts[0].value) == kind then Some(exts[0])
    else FindExtension(exts[1..], kind)
  }

  /** The first extension of a kind is the one `FindExtension` returns. */
  lemma {:induction false} FindFirstOfKind(exts: seq<Extension>, i: nat, kind: ExtensionKind)
    requires i < |exts| && KindOf(exts[i].value) == kind
    requires forall j :: 0 <= j < i ==> KindOf(exts[j].value) != kind
    ensures FindExtension(exts, kind) == Some(exts[i])
    decreases i
  {
    if i > 0 {
      FindFirstOfKind(exts[1..], i - 1, kind);
    }
  }

  function ExtensionOf(c: Certificate, kind: ExtensionKind): Option<Extension> {
    FindExtension(c.extensions, kind)
  }

  /** The Subject Key Identifier of a certificate, if it has one. */
  function SubjectKeyId(c: Certificate): Option<KeyIdentifier> {
    match ExtensionOf(c, SkiKind)
    case Some(Extension(_, SubjectKeyIdentifier(id))) => Some(id)
    case _ => None
  }

  /** The key identifier of the Authority Key Identifier extension, if it has one. */
  function AuthorityKeyId(c: Certificate): Option<KeyIdentifier> {
    match ExtensionOf(c, AkiKind)
    case Some(Extension(_, AuthorityKeyIdentifier(id))) => Some(id)
    case _ => None
  }

  /** The names of the Subject Alternative Name extension; none when it is absent. */
  function AltNamesOf(c: Certificate): seq<GeneralName> {
    match ExtensionOf(c, SanKind)
    case Some(Extension(_, SubjectAltName(names))) => names
    case _ => []
  }

  /** The cA flag of the Basic Constraints extension; absent counts as not a CA. */
  predicate IsCaCertificate(c: Certificate) {
    match ExtensionOf(c, BasicConstraintsKind)
    case Some(Extension(_, BasicConstraints(ca, _))) => ca
    case _ => false
  }

  predicate CanSignCertificates(c: Certificate) {
    match ExtensionOf(c, KeyUsageKind)
    case Some(Extension(_, KeyUsage(bits))) => bits.keyCertSign
    case _ => false
  }

  /** No extension kind appears twice (section 4.2 of RFC 5280). */
  predicate UniqueExtensions(exts: seq<Extension>) {
    forall i, j :: 0 <= i < j < |exts| ==> KindOf(exts[i].value) != KindOf(exts[j].value)
  }

  /** The certificate names itself as issuer and carries a signature by its own key. */
  predicate SelfSigned(c: Certificate) {
    c.issuer == c.subject && PublicKeyOf(c.signer) == c.publicKey
  }

  /**
   * The profile rules of RFC 5280 that concern the extensions the repository emits:
   * - no extension appears twice (section 4.2);
   * - Basic Constraints is present and critical, and carries a path length only for a CA
   *   (section 4.2.1.9);
   * - Key Usage is present and critical, and keyCertSign is asserted only with the cA bit
   *   (section 4.2.1.3);
   * - the Subject Key Identifier is present, non-critical and derived from the certificate's own
   *   public key (section 4.2.1.2);
   * - a certificate that is not self-signed carries a non-critical Authority Key Identifier
   *   (section 4.2.1.1);
   * - the Subject Alternative Name is non-critical, the subject name being non-empty
   *   (section 4.2.1.6).
   */
  predicate ConformsToProfile(c: Certificate) {
    && UniqueExtensions(c.extensions)
    && (match ExtensionOf(c, BasicConstraintsKind)
        case Some(Extension(crit, BasicConstraints(ca, len))) => crit && (len.Some? ==> ca)
        case _ => false)
    && (match ExtensionOf(c, KeyUsageKind)
        case Some(Extension(crit, KeyUsage(bits))) => crit && (bits.keyCertSign ==> IsCaCertificate(c))
        case _ => false)
    && ExtensionOf(c, SkiKind) == Some(Extension(false, SubjectKeyIdentifier(KeyIdOf(c.publicKey))))
    && (!SelfSigned(c) ==> ExtensionOf(c, AkiKind).Some? && !ExtensionOf(c, AkiKind).value.critical)
    && (ExtensionOf(c, SanKind).Some? ==> !ExtensionOf(c, SanKind).value.critical)
  }

  /**
   * `child` is linked to `parent` in a certification path: it names the parent's subject as
   * issuer, is signed with the parent's key, identifies that key through its Authority Key
   * Identifier, and the parent may sign certificates.
   */
  predicate ChainLink(child: Certificate, parent: Certificate) {
    && child.issuer == parent.subject
    && PublicKeyOf(child.signer) == parent.publicKey
    && AuthorityKeyId(child).Some?
    && AuthorityKeyId(child) == SubjectKeyId(parent)
    && IsCaCertificate(parent)
    && CanSignCertificates(parent)
  }
}
